=== FILE: README.md ===
# Saree shop backend: a Dafny model of its routes

This project models the request handlers of an Express/DynamoDB backend for a
saree shop. The main part is the membership and referral engine:

- a customer submits a payment request for a membership;
- an admin approves it, which creates a membership with a generated referral code;
- the referrer whose code the new member gave is credited;
- seven referrals complete a membership;
- a member claims a cashback or gold-coin reward, and the admin settles the claim.

User registration also credits a referrer. It takes part in the same engine.

The smaller parts are:

- orders and their status history;
- product and category records, with the slug derived from their name;
- the contact-form validator;
- the S3 object key and public URL of an uploaded image;
- user login and profile;
- admin login, the admin guard and password change.

Every handler is a pure function from the store, its input and its environment
to the response and the new store:

- The store holds one Dafny map per table, keyed by the table's key attribute.
- A scan followed by `find` is the first key, in a given scan order, whose row
  satisfies the predicate (`Tables.FindFirst`).
- The environment holds what the handler gets from outside the code:
  - the clock, `uuidv4()`, and the text of `Math.random().toString(36)`;
  - the scan orders;
  - whether each best-effort write inside its own `try/catch` succeeds.
- bcrypt and JWT are oracles, passed in as functions or as their results.

The whole engine is also a state machine (`Engine.Step`, `Engine.Run`). The
invariant `Engine.Inv` holds after every sequence of handler calls: every item
is stored under its key, `referralCount` equals the length of `referrals`, and a
completed membership carries its completion time and has at least seven
referrals. Orders have the same kind of trace lemma: the last history entry's
status is always the order's status.

Referrer crediting happens in three places, with different matching. The model
has one `Crediting.CreditReferrer`, parameterised by a `MatchRule`:

| call site | code comparison | referrer status accepted |
|---|---|---|
| approval | trimmed and upper-cased | active or completed |
| registration | trimmed and upper-cased | active only |
| `/referral` | exact | active only |

The `/referral` route is proved to be an instance of the shared crediting
(`Engine.ReferralRouteIsCredit`).

On product updates, the model follows the code. The handler spreads the stored
product and then writes every form field it destructured. The document client
runs with `removeUndefinedValues` (src/services/dynamodb.js:14-18). So a product
field the request leaves out removes the stored attribute; it does not keep the
stored value. Only attributes outside the form survive a product update.
`Products.UpdateWithoutFieldClearsIt` states this. Category updates differ:
`description` falls back to "", the image falls back to `existingImage` and
then to the stored image, and the order falls back to the stored order and
then to 0 (`Categories.UpdateCategory`).

A scan is modelled as reading the whole table. `scanTable` sends a single
`ScanCommand` and does not follow `LastEvaluatedKey`
(src/services/dynamodb.js:50-56), so on a table larger than one page (1 MB)
the code sees only the first page. Every statement that rests on a scan
covering its table (`Tables.Covers`) holds only for tables that fit in one
page.

## Model

| member | source | states |
|---|---|---|
| JsText.ToUpper | src/routes/memberships.js:16-17 | `toUpperCase` on ASCII: same length, each letter mapped to upper case, every other character unchanged |
| JsText.TrimStart | src/routes/memberships.js:149 | the start half of `trim()`: the result is a suffix of the input that does not start with white space, and only white space was dropped |
| JsText.TrimEnd | src/routes/memberships.js:149 | the end half of `trim()`: the result is a prefix of the input that does not end with white space, and only white space was dropped |
| JsText.TrimOfTrimmed | src/routes/memberships.js:149 | trimming a string without white space at its ends changes nothing |
| JsText.TrimSpec | src/routes/memberships.js:149 | `trim()`: the result is the input with white space dropped at the start and at the end and nothing else, and it has no white space at either end |
| JsText.Substring | src/routes/memberships.js:16-17 | `substring(start, end)`: the slice between the two positions in either order, arguments clamped to the string; never longer than the input |
| JsText.Substr | src/routes/orders.js:61 | `substr(start, length)`: the slice of at most `length` characters from `start`, empty when `start` is past the end |
| JsText.IndexOf | src/services/s3.js:46 | the first position where the pattern occurs, or None when it occurs nowhere |
| JsText.ParseIntOfDecimal | src/routes/categories.js:64 | `parseInt` reads back the decimal text of every natural number |
| JsText.ParseInt | src/routes/categories.js:64 | `parseInt` of a blank string is NaN, and a negative result comes only from text whose first non-blank character is '-' |
| JsText.ParseIntStopsAtNonDigit | src/routes/categories.js:64 | `parseInt` stops at the first non-digit: the decimal text of n followed by anything else reads as n, except that `0x` after a lone 0 selects radix 16 |
| JsText.ParseIntOfNegative | src/routes/categories.js:104 | `parseInt` skips leading white space and honours a minus sign: blank text, '-', then the decimal text of n reads as -n |
| Tables.FindFirst | src/routes/memberships.js:147-151 | `find` over a scan: a found key is stored and its row satisfies the predicate; the result is None iff no scanned row satisfies it; the result is the key at the first matching scan position, whatever that position is |
| Tables.FindNoneMeansNoMatch | src/routes/memberships.js:147-151 | when `find` over a scan that lists the whole table finds nothing, no row of the table satisfies the predicate |
| Http.BearerToken | src/routes/adminAuth.js:51 | `authorization?.split(' ')[1]`: None without a header, None iff the header has no space; otherwise the text from just after the first space up to the next space or the end, which contains no space |
| Http.BearerRoundTrip | src/routes/adminAuth.js:51 | `scheme + " " + token` gives the token back when neither part contains a space |
| Crediting.GenerateReferralCode | src/routes/memberships.js:15-19 | the code is the upper case of the first min(3, length) characters of the name, followed by at most four upper-cased characters of the random text from position 2; the code is all upper case |
| Crediting.ApplyCredit | src/routes/memberships.js:155-167 | one credit adds one to the count (missing or non-numeric counts as 0) and appends exactly one entry; count = number of referrals is kept; completion fires iff the new count is at least 7 and the status was not completed, and only then changes status and completion time; every other field (email, code, name, claim flags, activation time) is unchanged |
| Crediting.Matches | src/routes/memberships.js:147-151 | a referrer matches only when active, or completed under the approval rule; exactly, or after trimming and upper-casing both codes with a non-empty stored code; an active record with an equal code always matches |
| Crediting.Milestone | src/routes/memberships.js:165-167 | completion fires iff the count is at least 7 and the status is not completed; then only status and completion time change, otherwise nothing does |
| Crediting.SetIsMember | src/routes/memberships.js:127-133 | without a user with the email in the scan, nothing changes; otherwise exactly the first such user, in scan order, gets the given `isMember` and nothing else changes |
| Crediting.FindReferrer | src/routes/memberships.js:147-151 | None iff no scanned membership matches the code under the call site's rule; otherwise the key at the first matching scan position |
| Crediting.CreditAt | src/routes/memberships.js:153-182 | crediting a found referrer: its record becomes the credited record when the write succeeds; every other membership, every request and every claim is unchanged; users change at most in `isMember` becoming false |
| Crediting.CreditsFirstMatch | src/routes/memberships.js:143-188 | with the first match at scan position i: the memberships are the old ones with the credited record at that key (when the write succeeds), the users are the old ones with the referrer's user reset when the credit completes the membership and that write succeeds, requests and claims unchanged |
| Crediting.SomeMatchHasFirst | src/routes/memberships.js:147-151 | over a scan that lists the whole table, some row matches iff a first matching scan position exists |
| Crediting.CreditReferrer | src/routes/memberships.js:143-188 | the shared crediting block: only a membership that matches the rule can change, and only to its credited form, and only if the block does not fail; without a match the store is unchanged; users change at most in `isMember` becoming false |
| Crediting.CreditChangesAtMostOne | src/routes/memberships.js:147-182 | one crediting changes at most one membership |
| Crediting.MilestoneIdempotent | src/routes/memberships.js:165-167 | the completion transition is idempotent and fires the `isMember` reset only once |
| Crediting.CompletedStaysCompleted | src/routes/memberships.js:165-167 | a completed referrer stays completed, keeps its completion time and fires no reset |
| Crediting.RegistrationSkipsCompleted | src/routes/auth.js:44-48 | registration never credits a completed membership |
| Crediting.NormalizedRulesIgnoreCase | src/routes/memberships.js:147-151 | approval matches iff the trimmed upper-cased codes agree; registration likewise for active referrers; `/referral` iff the codes are equal and the referrer is active |
| Crediting.GeneratedCodeMatchesAnyCase | src/routes/auth.js:44-48 | a generated code, typed in any case with white space around it, is matched on approval and registration |
| MembershipRoutes.SubmitRequest | src/routes/memberships.js:67-95 | an email with an active membership gets 400 and nothing is stored; otherwise a pending request with the form's data and `referralCode` defaulting to "" is stored under the fresh id |
| MembershipRoutes.FreshMembership | src/routes/memberships.js:111-122 | the membership approval creates: count 0, no referrals, both claim flags false, active, activated now, code generated from the name |
| MembershipRoutes.Approve | src/routes/memberships.js:103-190 | unknown id: 404, nothing changes; otherwise the answer is the fresh membership and the request approved whatever its status, the email's membership is replaced by a fresh one, and every other membership is unchanged or is the referrer credited under the approval rule |
| MembershipRoutes.ApprovedStore | src/routes/memberships.js:110-141 | before crediting, approval has written the fresh membership under the request's email, set `isMember` on the first user with that email when that write succeeds, and marked the request approved at now; claims are unchanged |
| MembershipRoutes.ApproveWithoutCode | src/routes/memberships.js:143-144 | a request without a code ends with exactly the store approval built before crediting |
| MembershipRoutes.ApproveCreditsFirstMatch | src/routes/memberships.js:143-188 | with a code, the referrer credited is the first match in the scan of the table that already holds the new membership; its credited record is written when that write succeeds, and its user loses `isMember` when the credit completes it |
| MembershipRoutes.Reject | src/routes/memberships.js:198-209 | unknown id: 404, nothing changes; otherwise only the request's status and rejection time change |
| MembershipRoutes.AddReferral | src/routes/memberships.js:217-256 | no exact active match: 404 and nothing changes; when the scan lists the whole table (one page, see Tables.Covers under Left out), a match is never answered 404; on success exactly the matched membership is credited; on any error nothing is written |
| MembershipRoutes.ReferralCreditsFirstMatch | src/routes/memberships.js:223-255 | the referrer is the first exact active match in scan order; a record without a count or referral list gives 500 and nothing is written; otherwise the credited record is the answer and is written, and the referrer's user loses `isMember` when the credit completes it |
| MembershipRoutes.SubmitClaim | src/routes/memberships.js:264-296 | no membership: 404, nothing stored; otherwise the claim is stored pending, with a sent `id` and `updatedAt` kept as sent and every other sent field in its details, and only the flag of a cashback or gold claim becomes 'pending_admin' |
| MembershipRoutes.UpdateClaimStatus | src/routes/memberships.js:317-348 | unknown claim: 404; the status is stored verbatim; only 'completed' changes the membership, and only the flag matching the claim type, to true |
| UserAuth.WithoutPassword | src/routes/auth.js:90 | the response user keeps every field of the stored user but the password |
| UserAuth.WithoutPasswordKeepsTheRest | src/routes/auth.js:90 | the stored user is recovered from its public view and its hash, so nothing but the password is dropped |
| UserAuth.Register | src/routes/auth.js:12-92 | a taken mobile: 400, nothing written or credited; otherwise exactly the user built from the form (`isMember` false, `referralId` defaulting to "", the given hash) is stored under its mobile, the answer is 201 with that user without its password, and only an active referrer matching the normalised code can be credited |
| UserAuth.RegisterCreditsFirstMatch | src/routes/auth.js:40-84 | with a referral id, the referrer credited is the first active membership in scan order whose code matches after trimming and upper-casing; the credited record is written when that write succeeds, and the referrer's user loses `isMember` when the credit completes it |
| UserAuth.Login | src/routes/auth.js:100-120 | success iff the mobile is known and the password verifies; every failure is the same 400 answer; the user is sent without its password |
| UserAuth.Profile | src/routes/auth.js:128-147 | no token: 401 "Unauthorized"; a token that does not verify or has no `mobile` claim: 401 "Unauthorized or token expired"; a mobile not stored: 404; otherwise 200 with the stored user without its password |
| UserAuth.RegisteredUserSeesProfile | src/routes/auth.js:12-147 | the token registration hands out, sent as `Bearer <token>`, fetches the profile registration answered with |
| UserAuth.LoginDoesNotEnumerate | src/routes/auth.js:104-112 | an unknown mobile and a wrong password get the identical answer |
| UserAuth.RegistrationIgnoresCreditFailure | src/routes/auth.js:40-92 | the registration answer does not depend on the crediting block succeeding or on scan order |
| Engine.EmptyStoreSound | src/routes/memberships.js:111-122 | the empty store satisfies the engine invariant |
| Engine.CreditKeepsSound | src/routes/memberships.js:155-167 | a credit keeps count = number of referrals and the completion facts of a membership |
| Engine.CreditReferrerKeepsInv | src/routes/memberships.js:143-188 | the crediting block keeps the engine invariant |
| Engine.ApprovedStoreSound | src/routes/memberships.js:110-141 | the store approval has built before crediting satisfies the invariant |
| Engine.CreditAtKeepsInv | src/routes/memberships.js:153-182 | crediting a found referrer keeps the engine invariant |
| Engine.ApproveKeepsInv | src/routes/memberships.js:103-190 | approval keeps the invariant |
| Engine.ReferralKeepsInv | src/routes/memberships.js:217-256 | `/referral` keeps the invariant |
| Engine.RegisterKeepsInv | src/routes/auth.js:12-92 | registration keeps the invariant |
| Engine.SubmitRequestKeepsInv | src/routes/memberships.js:67-95 | storing a membership request keeps the invariant |
| Engine.RejectKeepsInv | src/routes/memberships.js:198-209 | rejecting a request keeps the invariant |
| Engine.ClaimKeepsInv | src/routes/memberships.js:264-296 | submitting a claim keeps the invariant |
| Engine.ClaimStatusKeepsInv | src/routes/memberships.js:317-348 | settling a claim keeps the invariant |
| Engine.StepKeepsInv | src/routes/memberships.js:67-348 | every handler of the engine keeps the invariant |
| Engine.RunKeepsInv | src/routes/memberships.js:103-256 | after any sequence of handler calls, count = number of referrals for every membership, and a completed membership has its completion time and at least 7 referrals |
| Engine.ReferralRouteIsCredit | src/routes/memberships.js:223-255 | a successful `/referral` is the shared crediting with the exact, active-only rule |
| Engine.ApprovalIgnoresSideEffects | src/routes/memberships.js:126-190 | the approval answer does not depend on the best-effort writes or on scan order |
| Engine.ReapprovalResetsProgress | src/routes/memberships.js:105-141 | approving a request without a code again resets the email's membership to count 0 and no referrals, and leaves the request approved |
| Slug.CollapseShape | src/routes/products.js:61 | `replace(/[^a-z0-9]+/g, '-')`: only slug characters, no doubled hyphen, non-empty iff the input is, starts with a hyphen iff the input starts with a non-slug character, letters and digits kept in order |
| Slug.CollapseRuns | src/routes/products.js:61 | collapsing never lengthens the text and is empty iff the input is; where its hyphens go is stated by Slug.CollapseShape and Slug.CollapseFromWord |
| Slug.StripEdgeHyphens | src/routes/products.js:61 | the removal of a leading and a trailing hyphen: at most one character goes at each end, and only a hyphen; the rest is the middle of the input, unchanged |
| Slug.Words | src/routes/products.js:61 | the maximal runs of a-z and 0-9 of a string: each is non-empty and made of those characters only |
| Slug.CollapseFromWord | src/routes/products.js:61 | from a letter or digit on, collapsing gives the words joined by single hyphens, plus one hyphen exactly when the string ends outside a-z and 0-9 |
| Slug.SlugJoinsWords | src/routes/products.js:61 | reference definition: the slug is the words of the lower-cased name joined by single hyphens; runs of other characters between words become one hyphen, and those at either end vanish |
| Slug.Slugify | src/routes/products.js:61 | the slug has only a-z, 0-9 and '-', no doubled or edge hyphen, keeps exactly the letters and digits of the lower-cased name, and is empty iff the name has none |
| Slug.NoAlnumsNoSlug | src/routes/products.js:61 | a name without letters or digits slugs to "" |
| Slug.SlugIsFixedPoint | src/routes/products.js:61 | a slug is its own slug |
| Slug.SlugIdempotent | src/routes/categories.js:50 | slugging twice is slugging once |
| Sorting.SortBy | src/routes/categories.js:22 | `Array.sort` with a comparator: the result is sorted by the key and is a permutation of the input |
| Sorting.SortByStable | src/routes/categories.js:22 | the sort is stable: for every key value, the elements with that key keep their input order |
| Orders.OrderIdRoundTrip | src/routes/orders.js:61 | the order id reads back as the creation time and the upper-cased random suffix |
| Orders.OrderId | src/routes/orders.js:61 | the id is `ORD-`, the decimal creation time, `-` and at most nine further characters |
| Orders.CreateOrder | src/routes/orders.js:45-92 | `orderData` that does not parse: 500 "Failed to create order", nothing stored; otherwise a new order is pending with exactly one history entry ('pending', createdAt, 'Order placed'); `paymentStatus` is 'submitted' iff there is a screenshot URL; `paymentMethod` defaults to 'UPI'; `shippingAddress` is the customer |
| Orders.NoteOf | src/routes/orders.js:112 | a non-empty note is kept; otherwise the note is "Status changed to " followed by the status, or by `undefined` when the request has none |
| Orders.UpdateStatus | src/routes/orders.js:96-121 | unknown id: 404, nothing written; otherwise the status is set, exactly one entry carrying it is appended, earlier entries and every other field but `updatedAt` are unchanged |
| Orders.GetOrder | src/routes/orders.js:29-37 | found iff stored, answered 200 with the stored order, under its own orderId; else 404 |
| Orders.Track | src/routes/orders.js:129-153 | unknown id: 404; an order stored without items: 500 "Failed to track order"; otherwise tracking reveals only orderId, status, history, creation time and each item's name and quantity |
| Orders.ListOrders | src/routes/orders.js:16-21 | the list is newest first and a permutation of the stored orders |
| Orders.PlacedOrderIsFound | src/routes/orders.js:64-82 | a placed order is fetched under its id, and is tracked as pending iff it was placed with items |
| Orders.TrackShowsLatestStatus | src/routes/orders.js:108-113 | after a status change, tracking an order that has items shows the new status, and the history ends with it; an order without items is answered 500 |
| Orders.OrderStepKeepsSound | src/routes/orders.js:75-112 | creating an order or changing its status keeps "last history status = status" |
| Orders.RunOrdersKeepsSound | src/routes/orders.js:75-112 | after any sequence of creations and status changes, every order's last history entry carries its status |
| S3.ObjectKey | src/services/s3.js:18 | the object key starts with `products/` |
| S3.PublicUrl | src/services/s3.js:30 | the URL starts with `https://` and ends with the host separator followed by the key |
| JsText.SecondField | src/services/s3.js:46 | `split(sep)[1]`: None iff the separator does not occur; otherwise the text from the end of the first separator up to the next separator or the end, free of the separator |
| S3.KeyOf | src/services/s3.js:44-48 | the key a delete is sent for is non-empty and free of the host separator; None iff the URL lacks the separator or nothing follows it |
| S3.KeyOfPublicUrl | src/services/s3.js:30-46 | the key extracted from a public URL is the key it was built from |
| S3.UploadedImageIsDeletable | src/services/s3.js:18-48 | an uploaded image's URL yields the key the upload wrote |
| S3.KeysOf | src/routes/products.js:146-151 | the keys sent for a list of URLs are exactly the keys of its URLs |
| S3.KeysOfAllKeyed | src/routes/products.js:146-151 | when every URL has a key, one key per URL goes out, in order |
| Products.OriginalPriceOf | src/routes/products.js:68 | `parseFloat(originalPrice) or null`: null iff NaN or zero |
| Products.BlouseOf | src/routes/products.js:74 | `blouseIncluded` is true iff the form value is exactly 'true' |
| Products.ApplyForm | src/routes/products.js:63-75 | the product shows the form: name, slug of the name, price, original price, the optional fields, the blouse flag and the images; id, rating, reviews, times and other attributes come from the base record |
| Products.CreateProduct | src/routes/products.js:47-82 | success iff a name and a numeric price are given; the product shows the form, its slug, the uploads, rating 0 and reviews 0; a failure stores nothing |
| Products.UpdateProduct | src/routes/products.js:90-131 | unknown id: 404; otherwise the form's fields replace the stored ones, images are the kept list followed by the uploads, and id, rating, reviews, creation time and attributes outside the form are kept |
| Products.GetProduct | src/routes/products.js:33-39 | found iff stored, answered 200 with the stored product; else 404 |
| Products.DeleteProduct | src/routes/products.js:139-154 | unknown id: 404, nothing deleted; otherwise only that product is removed and a key goes out for exactly the keyed images |
| Products.CreatedProductIsFound | src/routes/products.js:63-82 | a created product is fetched under its id as answered |
| Products.UpdateWithoutFieldClearsIt | src/routes/products.js:114-128 | a form field left out of an update removes the stored attribute |
| Products.UpdateIdempotent | src/routes/products.js:90-131 | repeating an update with the images it left changes nothing but the update time |
| Products.DeleteSendsEveryKey | src/routes/products.js:146-151 | deleting a product whose images all have keys sends one delete per image, in order |
| Categories.OrderOrZero | src/routes/categories.js:64 | `parseInt(order) or 0`: the parsed number, or 0 when it is NaN |
| Categories.ParsedOrder | src/routes/categories.js:64 | `parseInt(order)` as an optional number: absent for an absent or blank field |
| Categories.UpdatedOrder | src/routes/categories.js:104 | the parsed order unless NaN or 0, then the stored order, then 0 |
| Categories.ListCategories | src/routes/categories.js:18-23 | ascending by order, with a missing order counted as 0, and a permutation of the scanned categories |
| Categories.GetCategory | src/routes/categories.js:31-37 | found iff stored, answered 200 with the stored category; else 404 |
| Categories.CreateCategory | src/routes/categories.js:45-69 | the category has the slug of its name, description defaulting to "", the uploaded image or "", and the parsed order or 0 |
| Categories.UpdatedImage | src/routes/categories.js:89-96 | a new upload wins, then a non-empty `existingImage`, then the stored image |
| Categories.UpdateCategory | src/routes/categories.js:77-109 | unknown id: 404; otherwise name, slug, description, image and order follow the fallback rules, id, creation time and other attributes are kept, and the old image's key is deleted only when an upload replaces a non-empty image |
| Categories.DeleteCategory | src/routes/categories.js:117-130 | unknown id: 404; otherwise only that category is removed, with the key of its image sent if it has one |
| Categories.CreatedCategoryIsFound | src/routes/categories.js:31-69 | a created category is fetched under its new id exactly as the creation answered it |
| Categories.DeletedCategoryIsGone | src/routes/categories.js:117-130 | after a delete, fetching that category answers 404 and every other category is fetched as before |
| Categories.DecimalOrderRoundTrip | src/routes/categories.js:64 | an order written in decimal is stored as that number |
| Categories.UpdateKeepsOrderWithoutNewOne | src/routes/categories.js:104 | an update without an order keeps the stored order (0 if none) |
| Categories.UpdateKeepsImageWithoutNewOne | src/routes/categories.js:89-96 | an update without upload or `existingImage` keeps the image and deletes nothing |
| Categories.ZeroOrderCannotBeSet | src/routes/categories.js:104 | order "0" cannot move a category with a non-zero order back to 0 |
| Contact.EmailRegexIffShape | src/routes/contact.js:19 | the email regex accepts exactly the addresses without white space, with one `@` after some text, and a `.` after it that is neither first nor last in the domain |
| Contact.SpaceFails | src/routes/contact.js:19 | white space anywhere fails the regex |
| Contact.TwoAtsFail | src/routes/contact.js:19 | a second `@` fails the regex |
| Contact.TestEmail | src/routes/contact.js:19-20 | a one-pass scan answers exactly what the regex answers |
| Contact.SubmitContact | src/routes/contact.js:6-41 | a missing or empty field gives 400 before the email is checked; a bad email gives 400; only then is the admin notified; success iff every field is filled, the email is valid and sending succeeds |
| AdminAuth.AdminClaims | src/routes/adminAuth.js:30-31 | the token claims are exactly the stored username and role 'admin' |
| AdminAuth.AdminLogin | src/routes/adminAuth.js:10-47 | no credentials: 404; a wrong username: 401; success iff the username matches and the password verifies, answered with a token over the admin claims |
| AdminAuth.Guard | src/routes/adminAuth.js:50-66 | no token: 401 "Unauthorized"; a token that does not verify: 401 "Invalid or expired token"; a verified token whose role is not 'admin': 403 "Forbidden"; passes, with the decoded claims, iff the token verifies and its role is 'admin' |
| AdminAuth.ChangePassword | src/routes/adminAuth.js:69-101 | the guard's answer first, then 404 without credentials, then 400 for a wrong current password; on success only the hash and `updatedAt` change |
| AdminAuth.AdminLoginDoesNotEnumerate | src/routes/adminAuth.js:20-27 | a wrong username and a wrong password get the identical answer |
| AdminAuth.LoginTokenPassesGuard | src/routes/adminAuth.js:30-61 | a token issued by login passes the guard, given a `jwt.verify` that inverts `jwt.sign` |
| Lifecycle.ApprovalActivates | src/routes/memberships.js:111-167 | after approval the requester's membership is active, even when the request's code credits it: one credit on a fresh record stays below seven |
| Lifecycle.RequestApprovedThenRefused | src/routes/memberships.js:67-190 | a request accepted and then approved leaves the request approved and the email active, and a request for that email made right after the approval gets 400 and changes nothing |
| Lifecycle.RejectedCanBeApproved | src/routes/memberships.js:103-209 | approval does not check the status, so a rejected request can still be approved; the approval overwrites the status and keeps the rejection time |
| Lifecycle.ClaimLifecycle | src/routes/memberships.js:264-348 | a cashback or gold claim sets its flag to 'pending_admin', and the admin's status update turns it to true iff the status is 'completed'; a claim of another type leaves the memberships as they were |
| AdminAuth.NewPasswordLogsIn | src/routes/adminAuth.js:85-94 | after a password change the new password logs in, and the old one no longer does unless it also matches the new hash |

## Left out

- Network, storage and upload I/O: the DynamoDB and S3 clients, multer and Express are not modelled. Tables are maps, a scan is a given order of keys, and an upload is the URL it returned.
- Email notifications: src/services/email.js is not part of this model. The contact form's notification is a boolean "sending succeeds".
- bcrypt and JWT: they are oracles. A hash is a given string; `compare` and `verify` are functions the caller supplies; a token is `sign(claims)`.
- Time and randomness: `Date.now()`, `new Date()`, `uuidv4()` and `Math.random()` are environment values. A handler uses one `now` throughout, although the code reads the clock several times.
- Concurrency: each handler is one atomic step on a snapshot. Lost updates between overlapping read-modify-write handlers are not modelled.
- Failures of the store itself: a put or scan that fails with the route's 500 answer is not modelled, except where the input makes it fail (a NaN price, a missing name, a missing count on `/referral`).
- Floating point: product prices are `real` or NaN, and order amounts are `real`. Infinity and rounding are not modelled: neither that of `parseFloat`, nor that of `parseInt`, whose result is a double, so decimal text above 2^53 reads back rounded where the model reads it exactly.
- Case mapping: `toUpperCase` and `toLowerCase` map ASCII letters only.
- Request fields: in the membership and user routes, body fields are strings, and an absent field is modelled only where the code gives it a default (`referralCode`, `referralId`, claim `id`).
- UserAuth.Login: does not model an absent password making `bcrypt.compare` throw (answered 500), because the password is a plain string there.
- MembershipRoutes.AddReferral: does not model a stored `referralCode` that is undefined matching an absent code under `===`, because every membership written by these routes has a code.
- Crediting.CountOf: a `referralCount` stored as text is not modelled. Approval and registration read it with `Number(referralCount) || 0` (src/routes/memberships.js:155, src/routes/auth.js:52), so "5" becomes 6 there, and `/referral` applies `+= 1`, which concatenates. The model treats any count that is not a number as missing: approval and registration then give 1 and `/referral` answers 500.
- The membership and claim listing routes (src/routes/memberships.js:22-64, 304-313) are plain reads with a date sort, and are not modelled.
- Contact: the second `message` text of the error answers is left out. The model keeps the `error` text only.
- Products.UpdateProduct: an `existingImages` value that is valid JSON but not a list is not modelled. Any unparseable value gives the 500 answer.
- src/routes/settings.js, server.js and the scripts under src/scripts are not part of this model. None of them is read by the modelled routes; src/scripts/createTables.js is cited only for the orders key schema.
- Tables.Covers: a scan returns only the first page of a table (src/services/dynamodb.js:50-56 does not follow `LastEvaluatedKey`). The model takes every scan to list the whole table, so approval, registration and `/referral` are modelled faithfully only for tables that fit in one page of 1 MB.
- Orders: the orders table has the composite key (`orderId`, `createdAt`) (src/scripts/createTables.js:40-47), but the routes look orders up by `orderId` alone. The model keys orders by `orderId`, so two orders with the same id are not modelled. The id holds the creation time and up to nine random characters, so such a clash is not expected.
- Orders.CreateOrder: amounts are taken to be JSON numbers and items to be records with a name, a quantity and a price. An amount or item of another JSON type is stored as sent, and the model does not represent it. Order data that does not parse is modelled (the 500 answer), and so is an absent `items`.
- Crediting.GenerateReferralCode: `substring` counts UTF-16 code units, while the model counts Unicode scalar values. A name whose first three characters include one outside the Basic Multilingual Plane gives a different prefix in the code: it may split a surrogate pair.

=== FILE: admin_auth.dfy ===
// Admin login, the admin guard and password change (src/routes/adminAuth.js).
// bcrypt and JWT are oracles: `verify(password, hash)` is `bcrypt.compare`,
// `sign(claims)` is `jwt.sign` and `decode(token)` is `jwt.verify`, None when
// it throws. The credentials live in the settings table under one key; the
// model takes that single item, or None when it is missing.

module AdminAuth {
  import opened Wrappers
  import opened Http
  import Records

  type Time = Records.Time

  datatype AdminCredentials = AdminCredentials(
    username: string,
    password: string,
    updatedAt: Option<Time>,
    /** Attributes of the stored item the routes do not write. */
    extra: map<string, string>)

  datatype AdminUser = AdminUser(username: string, role: string)

  datatype AdminSession = AdminSession(token: string, user: AdminUser)

  const AdminRole := "admin"

  /** The claims a login token is signed with. */
  function AdminClaims(username: string): (c: Claims)
    ensures c.Keys == {"username", "role"} && c["role"] == AdminRole && c["username"] == username
  {
    map["username" := username, "role" := AdminRole]
  }

  /** `POST /login`. A wrong username is refused before the password is
      looked at, with the same answer as a wrong password; an absent password
      makes `bcrypt.compare` throw. */
  function AdminLogin(creds: Option<AdminCredentials>, username: Option<string>, password: Option<string>,
                      verify: (string, string) -> bool, sign: Claims -> string): (r: Response<AdminSession>)
    ensures creds.None? ==> r == Err(404, "Admin credentials not initialized")
    ensures creds.Some? && username != Some(creds.value.username) ==> r == Err(401, "Invalid username or password")
    ensures r.Ok? <==>
      creds.Some? && username == Some(creds.value.username) && password.Some? && verify(password.value, creds.value.password)
    ensures r.Ok? ==>
      && r.code == 200
      && r.body.user == AdminUser(creds.value.username, AdminRole)
      && r.body.token == sign(AdminClaims(creds.value.username))
    ensures r.Err? ==> r.code in {404, 401, 500}
  {
    if creds.None? then Err(404, "Admin credentials not initialized")
    else
      var stored := creds.value;
      if username != Some(stored.username) then Err(401, "Invalid username or password")
      else if password.None? then Err(500, "Login failed")
      else if !verify(password.value, stored.password) then Err(401, "Invalid username or password")
      else Ok(200, AdminSession(sign(AdminClaims(stored.username)), AdminUser(stored.username, AdminRole)))
  }

  /** The outcome of `authenticateAdmin`: on to the route with the decoded
      claims, or an answer. */
  datatype GuardOutcome = Next(admin: Claims) | Deny(code: int, error: string)

  /** `authenticateAdmin`. */
  function Guard(authorization: Option<string>, decode: string -> Option<Claims>): (g: GuardOutcome)
    ensures var t := BearerToken(authorization);
      (t.None? || t.value == "") ==> g == Deny(401, "Unauthorized")
    ensures g.Next? <==>
      var t := BearerToken(authorization);
      t.Some? && t.value != "" && decode(t.value).Some?
      && "role" in decode(t.value).value && decode(t.value).value["role"] == AdminRole
    ensures var t := BearerToken(authorization);
      t.Some? && t.value != "" && decode(t.value).None? ==> g == Deny(401, "Invalid or expired token")
    ensures var t := BearerToken(authorization);
      t.Some? && t.value != "" && decode(t.value).Some?
      && ("role" !in decode(t.value).value || decode(t.value).value["role"] != AdminRole) ==>
        g == Deny(403, "Forbidden")
    ensures g.Next? ==> g.admin == decode(BearerToken(authorization).value).value
    ensures g.Deny? && g.code == 403 ==> g.error == "Forbidden" && decode(BearerToken(authorization).value).Some?
    ensures g.Deny? ==> g.code in {401, 403}
  {
    var t := BearerToken(authorization);
    if t.None? || t.value == "" then Deny(401, "Unauthorized")
    else
      match decode(t.value)
      case None => Deny(401, "Invalid or expired token")
      case Some(claims) =>
        if "role" !in claims || claims["role"] != AdminRole then Deny(403, "Forbidden")
        else Next(claims)
  }

  /** `PUT /change-password` behind the guard. On success only the password
      hash and the update time of the stored item change. `hashed` is
      `bcrypt.hash(newPassword)`; an absent current or new password makes
      bcrypt throw. */
  function ChangePassword(authorization: Option<string>, decode: string -> Option<Claims>,
                          creds: Option<AdminCredentials>, current: Option<string>, newPassword: Option<string>,
                          verify: (string, string) -> bool, hashed: string, now: Time)
    : (r: (Response<string>, Option<AdminCredentials>))
    ensures Guard(authorization, decode).Deny? ==>
      r == (Err(Guard(authorization, decode).code, Guard(authorization, decode).error), creds)
    ensures Guard(authorization, decode).Next? && creds.None? ==> r == (Err(404, "Admin credentials not found"), creds)
    ensures Guard(authorization, decode).Next? && creds.Some? && current.Some? && !verify(current.value, creds.value.password) ==>
      r == (Err(400, "Incorrect current password"), creds)
    ensures r.1 != creds ==> r.0.Ok?
    ensures r.0.Ok? <==>
      && Guard(authorization, decode).Next? && creds.Some? && current.Some? && newPassword.Some?
      && verify(current.value, creds.value.password)
    ensures r.0.Ok? ==>
      && r.0 == Ok(200, "Password updated successfully")
      && r.1 == Some(creds.value.(password := hashed, updatedAt := Some(now)))
  {
    var g := Guard(authorization, decode);
    if g.Deny? then (Err(g.code, g.error), creds)
    else if creds.None? then (Err(404, "Admin credentials not found"), creds)
    else if current.None? then (Err(500, "Failed to change password"), creds)
    else if !verify(current.value, creds.value.password) then (Err(400, "Incorrect current password"), creds)
    else if newPassword.None? then (Err(500, "Failed to change password"), creds)
    else (Ok(200, "Password updated successfully"), Some(creds.value.(password := hashed, updatedAt := Some(now))))
  }

  /** Login does not tell a wrong username from a wrong password. */
  lemma AdminLoginDoesNotEnumerate(creds: AdminCredentials, wrongName: string, password: string,
                                   verify: (string, string) -> bool, sign: Claims -> string)
    requires wrongName != creds.username && !verify(password, creds.password)
    ensures AdminLogin(Some(creds), Some(wrongName), Some(password), verify, sign)
         == AdminLogin(Some(creds), Some(creds.username), Some(password), verify, sign)
  {
  }

  /** A token a login issued gets through the guard, given a `jwt.verify`
      that gives back what `jwt.sign` signed. */
  lemma LoginTokenPassesGuard(creds: AdminCredentials, password: string, scheme: string,
                              verify: (string, string) -> bool, sign: Claims -> string, decode: string -> Option<Claims>)
    requires verify(password, creds.password)
    requires forall c :: decode(sign(c)) == Some(c)
    requires sign(AdminClaims(creds.username)) != ""
    requires forall i :: 0 <= i < |scheme| ==> scheme[i] != ' '
    requires forall i :: 0 <= i < |sign(AdminClaims(creds.username))| ==> sign(AdminClaims(creds.username))[i] != ' '
    ensures var session := AdminLogin(Some(creds), Some(creds.username), Some(password), verify, sign);
      Guard(Some(scheme + " " + session.body.token), decode) == Next(AdminClaims(creds.username))
  {
    BearerRoundTrip(scheme, sign(AdminClaims(creds.username)));
  }

  /** After a password change the new password logs in, and the old one no
      longer does unless it also matches the new hash. */
  lemma NewPasswordLogsIn(authorization: Option<string>, decode: string -> Option<Claims>, creds: AdminCredentials,
                          current: string, newPassword: string, verify: (string, string) -> bool,
                          hashed: string, now: Time, sign: Claims -> string)
    requires Guard(authorization, decode).Next? && verify(current, creds.password)
    requires verify(newPassword, hashed)
    ensures var updated := ChangePassword(authorization, decode, Some(creds), Some(current), Some(newPassword), verify, hashed, now).1;
      && AdminLogin(updated, Some(creds.username), Some(newPassword), verify, sign).Ok?
      && (!verify(current, hashed) ==> AdminLogin(updated, Some(creds.username), Some(current), verify, sign).Err?)
  {
  }
}

=== FILE: auth.dfy ===
// User registration, login and profile (src/routes/auth.js). bcrypt and
// JWT are oracles: the hash and the signed token arrive as parameters, and
// password checks and token verification are functions given by the caller.

module UserAuth {
  import opened Wrappers
  import opened Records
  import opened Crediting
  import opened Tables
  import opened Http

  /** A user as the routes send it: every field but `password`. */
  datatype PublicUser = PublicUser(
    id: string,
    name: string,
    mobile: string,
    email: string,
    address: string,
    referralId: string,
    isMember: bool,
    createdAt: Time)

  /** `const { password: _, ...userResponse } = user`. */
  function WithoutPassword(u: User): (p: PublicUser)
    ensures p.id == u.id && p.name == u.name && p.mobile == u.mobile && p.email == u.email
    ensures p.address == u.address && p.referralId == u.referralId
    ensures p.isMember == u.isMember && p.createdAt == u.createdAt
  {
    PublicUser(u.id, u.name, u.mobile, u.email, u.address, u.referralId, u.isMember, u.createdAt)
  }

  /** Removing the password loses nothing else: the user is recovered from
      its public view and its hash. */
  lemma WithoutPasswordKeepsTheRest(u: User)
    ensures var p := WithoutPassword(u);
      User(p.id, p.name, p.mobile, p.email, p.address, u.password, p.referralId, p.isMember, p.createdAt) == u
  {
  }

  datatype Session = Session(user: PublicUser, token: string)

  /** The body of `POST /register`. */
  datatype RegisterForm = RegisterForm(
    name: string, mobile: string, email: string, address: string, password: string, referralId: Option<string>)

  /** The referral entry a registration appends to its referrer. */
  function RegistrationEntry(form: RegisterForm, env: Env): Referral {
    Referral(form.name, Some(form.email), env.now, Some(RegistrationReferral))
  }

  /** `referralId || ''`. */
  function CodeOf(form: RegisterForm): string {
    form.referralId.GetOr("")
  }

  /** The scans registration may run cover the tables, including the user it
      writes before crediting. */
  predicate RegistrationScans(s: Store, form: RegisterForm, env: Env) {
    Covers(env.membershipScan, s.memberships) && Covers(env.userScan, s.users) && form.mobile in env.userScan
  }

  /** `POST /register`: refused when the mobile is taken; otherwise the user
      is stored with `isMember` false, and a given referral id credits an
      active referrer (best effort: a failure there is logged and the
      registration still answers 201). `hash` is `bcrypt.hash(password)` and
      `token` the signed JWT. */
  function Register(s: Store, form: RegisterForm, hash: string, token: string, env: Env): (r: (Response<Session>, Store))
    requires RegistrationScans(s, form, env)
    ensures form.mobile in s.users ==>
      r.0 == Err(400, "User with this mobile number already exists") && r.1 == s
    ensures form.mobile !in s.users ==>
      var user := User(env.uuid, form.name, form.mobile, form.email, form.address, hash, CodeOf(form), false, env.now);
      (&& r.0 == Ok(201, Session(WithoutPassword(user), token))
       && r.1.requests == s.requests && r.1.claims == s.claims
       && r.1.users.Keys == s.users.Keys + {form.mobile}
       && r.1.users[form.mobile] == user
       && r.1.memberships.Keys == s.memberships.Keys
       && (CodeOf(form) == "" ==> r.1.memberships == s.memberships && r.1.users == s.users[form.mobile := user])
       && (forall k :: k in s.memberships ==>
             || r.1.memberships[k] == s.memberships[k]
             || (&& env.creditOk && CodeOf(form) != ""
                 && s.memberships[k].status == Active
                 && Matches(RegistrationRule, s.memberships[k], CodeOf(form))
                 && r.1.memberships[k] == ApplyCredit(s.memberships[k], RegistrationEntry(form, env), env.now).0)))
  {
    if form.mobile in s.users then (Err(400, "User with this mobile number already exists"), s)
    else
      var user := User(env.uuid, form.name, form.mobile, form.email, form.address, hash, CodeOf(form), false, env.now);
      var s1 := s.(users := s.users[form.mobile := user]);
      var s2 := if CodeOf(form) != ""
        then CreditReferrer(s1, CodeOf(form), RegistrationRule, RegistrationEntry(form, env), env) else s1;
      (Ok(201, Session(WithoutPassword(user), token)), s2)
  }

  /** With a referral id, registration credits the first active membership,
      in scan order, whose code matches it once both are trimmed and
      upper-cased; the credited record is written when that write succeeds,
      and the referrer's user loses `isMember` when the credit completes it. */
  lemma RegisterCreditsFirstMatch(s: Store, form: RegisterForm, hash: string, token: string, env: Env, i: int)
    requires RegistrationScans(s, form, env) && form.mobile !in s.users && CodeOf(form) != ""
    requires FirstMatch(env.membershipScan, s.memberships, CodeMatches(RegistrationRule, CodeOf(form)), i)
    ensures var user := User(env.uuid, form.name, form.mobile, form.email, form.address, hash, CodeOf(form), false, env.now);
      var users := s.users[form.mobile := user];
      var k := env.membershipScan[i];
      var c := ApplyCredit(s.memberships[k], RegistrationEntry(form, env), env.now);
      var r := Register(s, form, hash, token, env).1;
      && r.memberships == (if env.creditOk then s.memberships[k := c.0] else s.memberships)
      && r.users == (if c.1 && env.referrerFlagOk
                     then SetIsMember(users, env.userScan, s.memberships[k].email, false) else users)
  {
    var user := User(env.uuid, form.name, form.mobile, form.email, form.address, hash, CodeOf(form), false, env.now);
    var s1 := s.(users := s.users[form.mobile := user]);
    CreditsFirstMatch(s1, CodeOf(form), RegistrationRule, RegistrationEntry(form, env), env, i);
  }

  /** `POST /login`. `verify(password, hash)` is `bcrypt.compare`. */
  function Login(s: Store, mobile: string, password: string, verify: (string, string) -> bool, token: string): (r: Response<Session>)
    ensures r.Err? ==> r == Err(400, "Invalid mobile number or password")
    ensures r.Ok? <==> mobile in s.users && verify(password, s.users[mobile].password)
    ensures r.Ok? ==> r == Ok(200, Session(WithoutPassword(s.users[mobile]), token))
  {
    if mobile !in s.users then Err(400, "Invalid mobile number or password")
    else if !verify(password, s.users[mobile].password) then Err(400, "Invalid mobile number or password")
    else Ok(200, Session(WithoutPassword(s.users[mobile]), token))
  }

  /** `GET /profile`. `decode` is `jwt.verify`, None when it throws; a
      token without a `mobile` claim makes the lookup throw, which the route
      answers like a bad token. */
  function Profile(s: Store, authorization: Option<string>, decode: string -> Option<Claims>): (r: Response<PublicUser>)
    ensures var t := BearerToken(authorization);
      (t.None? || t.value == "") ==> r == Err(401, "Unauthorized")
    ensures var t := BearerToken(authorization);
      t.Some? && t.value != "" ==>
        var claims := decode(t.value);
        && (claims.None? ==> r == Err(401, "Unauthorized or token expired"))
        && (claims.Some? && "mobile" !in claims.value ==> r == Err(401, "Unauthorized or token expired"))
        && (claims.Some? && "mobile" in claims.value && claims.value["mobile"] !in s.users ==>
              r == Err(404, "User not found"))
        && (claims.Some? && "mobile" in claims.value && claims.value["mobile"] in s.users ==>
              r == Ok(200, WithoutPassword(s.users[claims.value["mobile"]])))
  {
    var t := BearerToken(authorization);
    if t.None? || t.value == "" then Err(401, "Unauthorized")
    else
      match decode(t.value)
      case None => Err(401, "Unauthorized or token expired")
      case Some(claims) =>
        if "mobile" !in claims then Err(401, "Unauthorized or token expired")
        else if claims["mobile"] !in s.users then Err(404, "User not found")
        else Ok(200, WithoutPassword(s.users[claims["mobile"]]))
  }

  /** The token registration hands out reads back the profile it returned:
      `jwt.sign` puts the user's mobile in the token, so a `decode` that
      verifies it yields that mobile, and the stored user is the one
      registered (crediting only ever clears `isMember`, which a new user
      does not have). */
  lemma RegisteredUserSeesProfile(s: Store, form: RegisterForm, hash: string, token: string, env: Env,
                                  decode: string -> Option<Claims>)
    requires RegistrationScans(s, form, env) && form.mobile !in s.users
    requires token != "" && forall i :: 0 <= i < |token| ==> token[i] != ' '
    requires decode(token).Some? && "mobile" in decode(token).value && decode(token).value["mobile"] == form.mobile
    ensures var r := Register(s, form, hash, token, env);
      r.0.Ok? && Profile(r.1, Some("Bearer " + token), decode) == Ok(200, r.0.body.user)
  {
    BearerRoundTrip("Bearer", token);
    assert "Bearer" + " " + token == "Bearer " + token;
    var user := User(env.uuid, form.name, form.mobile, form.email, form.address, hash, CodeOf(form), false, env.now);
    var r := Register(s, form, hash, token, env);
    assert r.0 == Ok(201, Session(WithoutPassword(user), token)) && r.1.users[form.mobile] == user;
    var claims := decode(token).value;
    assert Profile(r.1, Some("Bearer " + token), decode) == Ok(200, WithoutPassword(r.1.users[claims["mobile"]]));
  }

  /** Login does not tell an unknown mobile from a wrong password. */
  lemma LoginDoesNotEnumerate(s: Store, mobile: string, other: string, password: string,
                              verify: (string, string) -> bool, token: string)
    requires mobile !in s.users
    requires other in s.users && !verify(password, s.users[other].password)
    ensures Login(s, mobile, password, verify, token) == Login(s, other, password, verify, token)
  {
  }

  /** The registration response does not depend on whether crediting the
      referrer, or resetting its `isMember`, succeeded, nor on scan order. */
  lemma RegistrationIgnoresCreditFailure(s: Store, form: RegisterForm, hash: string, token: string, env: Env, env': Env)
    requires RegistrationScans(s, form, env) && RegistrationScans(s, form, env')
    requires env'.now == env.now && env'.uuid == env.uuid
    ensures Register(s, form, hash, token, env).0 == Register(s, form, hash, token, env').0
  {
  }
}

=== FILE: categories.dfy ===
// Categories (src/routes/categories.js): list in display order, fetch,
// create, update and delete. An uploaded image arrives as the URL its upload
// returned; `order` arrives as the text of the form field.

module Categories {
  import opened Wrappers
  import opened JsText
  import opened Http
  import opened Slug
  import opened S3
  import opened Sorting
  import Records

  type Time = Records.Time

  datatype Category = Category(
    id: string,
    name: string,
    slug: string,
    description: string,
    /** The image URL, "" for none. */
    image: string,
    /** Absent on an item no route wrote. */
    order: Option<int>,
    createdAt: Time,
    updatedAt: Option<Time>,
    /** Attributes of the stored item no route writes. */
    extra: map<string, string>)

  datatype CategoryForm = CategoryForm(
    name: Option<string>,
    description: Option<string>,
    order: Option<string>,
    existingImage: Option<string>)

  /** `parseInt(order)` as an optional number: None for NaN and for an
      absent field. */
  function ParsedOrder(field: Option<string>): (r: Option<int>)
    ensures r.Some? ==> field.Some?
    ensures field.Some? && (forall i :: 0 <= i < |field.value| ==> IsWhitespace(field.value[i])) ==> r.None?
  {
    if field.None? then None else ParseInt(field.value)
  }

  /** `parseInt(order) || 0`. */
  function OrderOrZero(field: Option<string>): (r: int)
    ensures ParsedOrder(field).Some? ==> r == ParsedOrder(field).value
    ensures ParsedOrder(field).None? ==> r == 0
  {
    match ParsedOrder(field)
    case Some(v) => v
    case None => 0
  }

  /** `parseInt(order) || existing.order || 0`: the parsed order unless it is
      NaN or zero, then the stored one unless it is absent or zero. */
  function UpdatedOrder(field: Option<string>, stored: Option<int>): (r: int)
    ensures ParsedOrder(field).Some? && ParsedOrder(field).value != 0 ==> r == ParsedOrder(field).value
    ensures (ParsedOrder(field).None? || ParsedOrder(field).value == 0) && stored.Some? ==> r == stored.value
    ensures (ParsedOrder(field).None? || ParsedOrder(field).value == 0) && stored.None? ==> r == 0
  {
    var p := ParsedOrder(field);
    if p.Some? && p.value != 0 then p.value else stored.GetOr(0)
  }

  /** `description || ''`. */
  function DescriptionOf(form: CategoryForm): string {
    form.description.GetOr("")
  }

  /** The position a category sorts by: `a.order || 0`. */
  function DisplayOrder(c: Category): int {
    c.order.GetOr(0)
  }

  /** `GET /`: the scanned categories by ascending order, ties kept in scan order. */
  function ListCategories(rows: seq<Category>): (r: seq<Category>)
    ensures forall i, j :: 0 <= i < j < |r| ==> r[i].order.GetOr(0) <= r[j].order.GetOr(0)
    ensures multiset(r) == multiset(rows)
  {
    SortBy(rows, DisplayOrder)
  }

  /** `GET /:id`. */
  function GetCategory(categories: map<string, Category>, id: string): (r: Response<Category>)
    ensures r.Ok? <==> id in categories
    ensures r.Err? ==> r == Err(404, "Category not found")
    ensures r.Ok? ==> r.code == 200 && r.body == categories[id]
  {
    if id in categories then Ok(200, categories[id]) else Err(404, "Category not found")
  }

  /** `POST /`: a category with a fresh id, the slug of its name, the
      uploaded image or "" and the parsed order or 0. A missing name makes
      the slug computation throw. */
  function CreateCategory(categories: map<string, Category>, form: CategoryForm, upload: Option<string>, uuid: string, now: Time)
    : (r: (Response<Category>, map<string, Category>))
    ensures r.0.Ok? <==> form.name.Some?
    ensures r.0.Err? ==> r == (Err(500, "Failed to create category"), categories)
    ensures r.0.Ok? ==>
      var c := r.0.body;
      && r.0.code == 201
      && r.1 == categories[uuid := c]
      && c.id == uuid && c.name == form.name.value
      && IsSlug(c.slug) && c.slug == Slugify(c.name)
      && (form.description.Some? ==> c.description == form.description.value)
      && (form.description.None? ==> c.description == "")
      && (upload.Some? ==> c.image == upload.value)
      && (upload.None? ==> c.image == "")
      && c.order.Some? && c.order.value == OrderOrZero(form.order)
      && c.createdAt == now && c.updatedAt.None? && c.extra == map[]
  {
    if form.name.None? then (Err(500, "Failed to create category"), categories)
    else
      var name := form.name.value;
      var c := Category(uuid, name, Slugify(name), DescriptionOf(form), upload.GetOr(""),
                        Some(OrderOrZero(form.order)), now, None, map[]);
      (Ok(201, c), categories[uuid := c])
  }

  /** The image an update leaves: the new upload, else a non-empty
      `existingImage`, else the stored one. */
  function UpdatedImage(form: CategoryForm, upload: Option<string>, stored: string): (r: string)
    ensures upload.Some? ==> r == upload.value
    ensures upload.None? && form.existingImage.Some? && form.existingImage.value != "" ==> r == form.existingImage.value
    ensures upload.None? && (form.existingImage.None? || form.existingImage.value == "") ==> r == stored
  {
    if upload.Some? then upload.value
    else if form.existingImage.Some? && form.existingImage.value != "" then form.existingImage.value
    else stored
  }

  /** `PUT /:id`. The third component is the key of the old image a delete is
      sent for: only when a new image is uploaded over a stored one. */
  function UpdateCategory(categories: map<string, Category>, id: string, form: CategoryForm, upload: Option<string>, now: Time)
    : (r: (Response<Category>, map<string, Category>, Option<string>))
    ensures id !in categories ==> r == (Err(404, "Category not found"), categories, None)
    ensures id in categories && form.name.None? ==> r == (Err(500, "Failed to update category"), categories, None)
    ensures id in categories && form.name.Some? ==>
      var before := categories[id];
      && r.0.Ok? && r.0.code == 200
      && var c := r.0.body;
      && r.1 == categories[id := c]
      && c.name == form.name.value && IsSlug(c.slug) && c.slug == Slugify(c.name)
      && c.description == DescriptionOf(form)
      && c.image == UpdatedImage(form, upload, before.image)
      && c.order == Some(UpdatedOrder(form.order, before.order))
      && c.id == before.id && c.createdAt == before.createdAt && c.extra == before.extra
      && c.updatedAt == Some(now)
      && (r.2.Some? <==> upload.Some? && before.image != "" && KeyOf(before.image).Some?)
      && (r.2.Some? ==> r.2 == KeyOf(before.image))
  {
    if id !in categories then (Err(404, "Category not found"), categories, None)
    else if form.name.None? then (Err(500, "Failed to update category"), categories, None)
    else
      var before := categories[id];
      var name := form.name.value;
      var deleted := if upload.Some? && before.image != "" then KeyOf(before.image) else None;
      var c := before.(name := name, slug := Slugify(name), description := DescriptionOf(form),
                       image := UpdatedImage(form, upload, before.image),
                       order := Some(UpdatedOrder(form.order, before.order)),
                       updatedAt := Some(now));
      (Ok(200, c), categories[id := c], deleted)
  }

  /** `DELETE /:id`: the category is removed after a delete is sent for the
      key of its image, if it has one. */
  function DeleteCategory(categories: map<string, Category>, id: string): (r: (Response<string>, map<string, Category>, Option<string>))
    ensures id !in categories ==> r == (Err(404, "Category not found"), categories, None)
    ensures id in categories ==>
      && r.0 == Ok(200, "Category deleted successfully")
      && r.1.Keys == categories.Keys - {id}
      && (forall k :: k in r.1 ==> r.1[k] == categories[k])
      && (r.2.Some? ==> r.2 == KeyOf(categories[id].image))
      && (r.2.None? ==> KeyOf(categories[id].image).None?)
  {
    if id !in categories then (Err(404, "Category not found"), categories, None)
    else
      var image := categories[id].image;
      (Ok(200, "Category deleted successfully"), categories - {id}, if image != "" then KeyOf(image) else None)
  }

  /** A created category is fetched under its new id exactly as the
      creation answered it. */
  lemma CreatedCategoryIsFound(categories: map<string, Category>, form: CategoryForm, upload: Option<string>, uuid: string, now: Time)
    requires form.name.Some?
    ensures var r := CreateCategory(categories, form, upload, uuid, now);
      GetCategory(r.1, uuid) == Ok(200, r.0.body)
  {
  }

  /** A deleted category is gone: fetching it answers 404, and every other
      category is fetched as before. */
  lemma DeletedCategoryIsGone(categories: map<string, Category>, id: string, other: string)
    requires id in categories && other != id
    ensures var after := DeleteCategory(categories, id).1;
      && GetCategory(after, id) == Err(404, "Category not found")
      && GetCategory(after, other) == GetCategory(categories, other)
  {
  }

  /** An order written as a decimal number is read back as that number. */
  lemma DecimalOrderRoundTrip(n: nat)
    ensures OrderOrZero(Some(DecimalString(n))) == n
  {
    ParseIntOfDecimal(n);
  }

  /** An update that sends no order keeps the stored order (0 when there
      is none) instead of resetting it. */
  lemma UpdateKeepsOrderWithoutNewOne(categories: map<string, Category>, id: string, form: CategoryForm, upload: Option<string>, now: Time)
    requires id in categories && form.name.Some? && form.order.None?
    ensures UpdateCategory(categories, id, form, upload, now).1[id].order == Some(categories[id].order.GetOr(0))
  {
  }

  /** An update with no upload and no `existingImage` keeps the image and
      deletes nothing. */
  lemma UpdateKeepsImageWithoutNewOne(categories: map<string, Category>, id: string, form: CategoryForm, now: Time)
    requires id in categories && form.name.Some? && form.existingImage.None?
    ensures var r := UpdateCategory(categories, id, form, None, now);
      r.1[id].image == categories[id].image && r.2.None?
  {
  }

  /** Order 0 is read like a missing order: an update cannot move a
      category with a non-zero order back to position 0. */
  lemma ZeroOrderCannotBeSet(categories: map<string, Category>, id: string, form: CategoryForm, upload: Option<string>, now: Time)
    requires id in categories && form.name.Some? && form.order == Some("0")
    requires categories[id].order.Some? && categories[id].order.value != 0
    ensures UpdateCategory(categories, id, form, upload, now).1[id].order == categories[id].order
  {
    ParseIntOfDecimal(0);
    assert DecimalString(0) == "0";
    assert ParsedOrder(form.order) == Some(0);
    assert UpdatedOrder(form.order, categories[id].order) == categories[id].order.value;
  }
}

=== FILE: contact.dfy ===
// The contact form (src/routes/contact.js): every field is required, the
// email must match /^[^\s@]+@[^\s@]+\.[^\s@]+$/, and only then is the admin
// notified. `\s` is the white space set of JsText.IsWhitespace.

module Contact {
  import opened Wrappers
  import opened JsText
  import opened Http

  /** `[^\s@]+` without the `+`: no white space and no `@`. */
  predicate Plain(t: string) {
    forall k :: 0 <= k < |t| ==> !IsWhitespace(t[k]) && t[k] != '@'
  }

  /** The email regex as written: a non-empty plain local part, `@`, a
      non-empty plain part, `.`, a non-empty plain part, with `i` the position
      of the `@` and `j` that of the `.`. */
  predicate RegexSplit(s: string, i: int, j: int) {
    && 0 < i && i + 1 < j < |s| - 1
    && Plain(s[..i]) && s[i] == '@' && Plain(s[i + 1..j]) && s[j] == '.' && Plain(s[j + 1..])
  }

  predicate EmailRegex(s: string) {
    exists i, j | 0 < i < |s| && 0 <= j < |s| :: RegexSplit(s, i, j)
  }

  predicate NoSpace(s: string) {
    forall k :: 0 <= k < |s| ==> !IsWhitespace(s[k])
  }

  /** Position `i` holds the only `@` of `s`. */
  predicate OnlyAtAt(s: string, i: int) {
    0 <= i < |s| && s[i] == '@' && forall k :: 0 <= k < |s| && s[k] == '@' ==> k == i
  }

  /** The part after position `i` has a `.` that is neither its first nor its
      last character. */
  predicate InnerDotAfter(s: string, i: int) {
    exists j | 0 <= j < |s| :: i + 1 < j < |s| - 1 && s[j] == '.'
  }

  /** An address the form accepts, described by its parts: no white space,
      exactly one `@` with text before it, and a `.` after it that is neither
      the first nor the last character of the domain. */
  predicate EmailShape(s: string) {
    NoSpace(s) && exists i | 0 < i < |s| :: OnlyAtAt(s, i) && InnerDotAfter(s, i)
  }

  lemma RegexGivesShape(s: string, i: int, j: int)
    requires RegexSplit(s, i, j)
    ensures NoSpace(s) && OnlyAtAt(s, i) && InnerDotAfter(s, i)
  {
    forall k | 0 <= k < |s|
      ensures !IsWhitespace(s[k]) && (s[k] == '@' ==> k == i)
    {
      if k < i {
        assert s[k] == s[..i][k];
      } else if i < k < j {
        assert s[k] == s[i + 1..j][k - i - 1];
      } else if j < k {
        assert s[k] == s[j + 1..][k - j - 1];
      }
    }
  }

  lemma ShapeGivesRegex(s: string, i: int, j: int)
    requires NoSpace(s) && OnlyAtAt(s, i) && 0 < i
    requires i + 1 < j < |s| - 1 && s[j] == '.'
    ensures RegexSplit(s, i, j)
  {
    assert Plain(s[..i]) by {
      forall k | 0 <= k < i ensures s[..i][k] == s[k] {}
    }
    var domain := s[i + 1..j];
    assert Plain(domain) by {
      forall k | 0 <= k < |domain| ensures domain[k] == s[i + 1 + k] {}
    }
    var top := s[j + 1..];
    assert Plain(top) by {
      forall k | 0 <= k < |top| ensures top[k] == s[j + 1 + k] {}
    }
  }

  /** The regex accepts exactly the addresses of the described shape. */
  lemma EmailRegexIffShape(s: string)
    ensures EmailRegex(s) <==> EmailShape(s)
  {
    if EmailRegex(s) {
      var i, j :| RegexSplit(s, i, j);
      RegexGivesShape(s, i, j);
    }
    if EmailShape(s) {
      var i :| 0 < i < |s| && OnlyAtAt(s, i) && InnerDotAfter(s, i);
      var j :| i + 1 < j < |s| - 1 && s[j] == '.';
      ShapeGivesRegex(s, i, j);
    }
  }

  /** What a left-to-right scan knows once it has read all of `s`: no white
      space, `at` the only `@` (or -1 for none), and `dot` whether a `.`
      follows it at a distance with a character after. */
  lemma ScanVerdict(s: string, at: int, dot: bool)
    requires NoSpace(s)
    requires -1 <= at < |s|
    requires at == -1 ==> forall m :: 0 <= m < |s| ==> s[m] != '@'
    requires at >= 0 ==> OnlyAtAt(s, at)
    requires dot <==> at >= 0 && exists j :: at + 1 < j && j + 1 < |s| && s[j] == '.'
    ensures (at > 0 && dot) <==> EmailRegex(s)
  {
    if at > 0 && dot {
      var j :| at + 1 < j && j + 1 < |s| && s[j] == '.';
      ShapeGivesRegex(s, at, j);
    }
    if EmailRegex(s) {
      var i, j :| RegexSplit(s, i, j);
      RegexGivesShape(s, i, j);
      assert s[i] == '@';
    }
  }

  /** White space anywhere fails the regex. */
  lemma SpaceFails(s: string, m: int)
    requires 0 <= m < |s| && IsWhitespace(s[m])
    ensures !EmailRegex(s)
  {
    if EmailRegex(s) {
      var i, j :| RegexSplit(s, i, j);
      RegexGivesShape(s, i, j);
    }
  }

  /** A second `@` fails the regex. */
  lemma TwoAtsFail(s: string, a: int, b: int)
    requires 0 <= a < b < |s| && s[a] == '@' && s[b] == '@'
    ensures !EmailRegex(s)
  {
    if EmailRegex(s) {
      var i, j :| RegexSplit(s, i, j);
      RegexGivesShape(s, i, j);
    }
  }

  /** `emailRegex.test(email)` as one left-to-right scan. */
  method TestEmail(s: string) returns (ok: bool)
    ensures ok <==> EmailRegex(s)
  {
    var at := -1;
    var dot := false;
    var k := 0;
    while k < |s|
      invariant 0 <= k <= |s|
      invariant forall m :: 0 <= m < k ==> !IsWhitespace(s[m])
      invariant -1 <= at < k
      invariant at == -1 ==> forall m :: 0 <= m < k ==> s[m] != '@'
      invariant at >= 0 ==> s[at] == '@' && forall m :: 0 <= m < k && s[m] == '@' ==> m == at
      invariant dot <==> at >= 0 && exists j :: at + 1 < j && j + 1 < k && s[j] == '.'
    {
      if IsWhitespace(s[k]) {
        SpaceFails(s, k);
        return false;
      }
      if s[k] == '@' {
        if at >= 0 {
          TwoAtsFail(s, at, k);
          return false;
        }
        at := k;
        dot := false;
      }
      if at >= 0 && at + 1 < k - 1 && s[k - 1] == '.' {
        dot := true;
      }
      k := k + 1;
    }
    ScanVerdict(s, at, dot);
    ok := at > 0 && dot;
  }

  datatype ContactForm = ContactForm(
    name: Option<string>, email: Option<string>, phone: Option<string>,
    subject: Option<string>, message: Option<string>)

  /** A field is present and not empty. */
  predicate Filled(f: Option<string>) {
    f.Some? && f.value != ""
  }

  predicate AllFilled(form: ContactForm) {
    Filled(form.name) && Filled(form.email) && Filled(form.phone) && Filled(form.subject) && Filled(form.message)
  }

  const SentMessage := "Your message has been sent successfully! We will get back to you shortly."

  /** `POST /`. `sendOk` says whether sending the notification succeeds;
      `notified` whether it was attempted. */
  method SubmitContact(form: ContactForm, sendOk: bool) returns (r: Response<string>, notified: bool)
    ensures !AllFilled(form) ==> r == Err(400, "All fields are required") && !notified
    ensures AllFilled(form) && !EmailShape(form.email.value) ==> r == Err(400, "Invalid email") && !notified
    ensures AllFilled(form) && EmailShape(form.email.value) ==> notified
    ensures r.Ok? <==> AllFilled(form) && EmailShape(form.email.value) && sendOk
    ensures r.Ok? ==> r == Ok(200, SentMessage)
    ensures notified && !sendOk ==> r == Err(500, "Failed to send message")
  {
    if !AllFilled(form) {
      return Err(400, "All fields are required"), false;
    }
    var valid := TestEmail(form.email.value);
    EmailRegexIffShape(form.email.value);
    if !valid {
      return Err(400, "Invalid email"), false;
    }
    notified := true;
    if sendOk {
      r := Ok(200, SentMessage);
    } else {
      r := Err(500, "Failed to send message");
    }
  }
}

=== FILE: engine.dfy ===
// The membership and referral engine as one state machine: every handler
// of src/routes/memberships.js and the registration of src/routes/auth.js
// as a step on the shared store, and the invariants every step keeps.

module Engine {
  import opened Wrappers
  import opened Records
  import opened Crediting
  import opened Tables
  import opened Http
  import opened MembershipRoutes
  import opened UserAuth

  /** What every membership written by these routes satisfies: its count is
      the length of its referral list, its status is active or completed,
      and a completed membership has a completion time and has reached the
      goal. */
  predicate MembershipSound(m: Membership) {
    && CountTracked(m)
    && (m.status == Active || m.status == Completed)
    && (m.status == Completed ==> m.completedAt.Some? && CountOf(m) >= CompletionGoal)
  }

  predicate Inv(s: Store) {
    && WellKeyed(s)
    && forall k :: k in s.memberships ==> MembershipSound(s.memberships[k])
  }

  const EmptyStore := Store(map[], map[], map[], map[])

  lemma EmptyStoreSound()
    ensures Inv(EmptyStore)
  {
  }

  datatype Action =
    | SubmitRequestAction(requestForm: RequestForm, screenshotUrl: string)
    | ApproveAction(approveId: string)
    | RejectAction(rejectId: string)
    | ReferralAction(referralForm: ReferralForm)
    | ClaimAction(claimForm: ClaimForm)
    | ClaimStatusAction(claimId: string, status: string)
    | RegisterAction(registerForm: RegisterForm, hash: string, token: string)

  /** The scans an action runs list the keys of the tables they read. */
  predicate ScansCover(s: Store, a: Action, env: Env) {
    match a
    case ApproveAction(id) => ApprovalScans(s, id, env)
    case ReferralAction(_) => Covers(env.membershipScan, s.memberships) && Covers(env.userScan, s.users)
    case RegisterAction(form, _, _) => RegistrationScans(s, form, env)
    case _ => true
  }

  /** The store after one handler. */
  function Step(s: Store, a: Action, env: Env): Store
    requires ScansCover(s, a, env)
  {
    match a
    case SubmitRequestAction(form, url) => SubmitRequest(s, form, url, env).1
    case ApproveAction(id) => Approve(s, id, env).1
    case RejectAction(id) => Reject(s, id, env).1
    case ReferralAction(form) => AddReferral(s, form, env).1
    case ClaimAction(form) => SubmitClaim(s, form, env).1
    case ClaimStatusAction(id, status) => UpdateClaimStatus(s, id, status, env).1
    case RegisterAction(form, hash, token) => Register(s, form, hash, token, env).1
  }

  /** Each step of the trace runs with scans that cover the store it sees. */
  predicate Admissible(s: Store, trace: seq<(Action, Env)>)
    decreases |trace|
  {
    |trace| == 0 || (ScansCover(s, trace[0].0, trace[0].1) && Admissible(Step(s, trace[0].0, trace[0].1), trace[1..]))
  }

  /** The store after a sequence of handler invocations, one at a time. */
  function Run(s: Store, trace: seq<(Action, Env)>): Store
    requires Admissible(s, trace)
    decreases |trace|
  {
    if |trace| == 0 then s else Run(Step(s, trace[0].0, trace[0].1), trace[1..])
  }

  lemma CreditKeepsSound(m: Membership, entry: Referral, now: Time)
    requires MembershipSound(m)
    ensures MembershipSound(ApplyCredit(m, entry, now).0)
  {
  }

  lemma CreditReferrerKeepsInv(s: Store, code: string, rule: MatchRule, entry: Referral, env: Env)
    requires Inv(s) && Covers(env.membershipScan, s.memberships)
    ensures Inv(CreditReferrer(s, code, rule, entry, env))
  {
    match FindReferrer(s, code, rule, env)
    case None =>
    case Some(k) =>
      CreditAtKeepsInv(s, k, entry, env, env.creditOk);
  }

  lemma CreditAtKeepsInv(s: Store, k: string, entry: Referral, env: Env, write: bool)
    requires Inv(s) && k in s.memberships
    ensures Inv(CreditAt(s, k, entry, env, write))
  {
    var r := CreditAt(s, k, entry, env, write);
    CreditKeepsSound(s.memberships[k], entry, env.now);
    forall j | j in r.memberships
      ensures MembershipSound(r.memberships[j]) && r.memberships[j].email == j
    {
    }
    forall u | u in r.users
      ensures r.users[u].mobile == u
    {
    }
  }

  lemma SetIsMemberKeepsKeys(users: map<string, User>, scan: seq<string>, email: string, value: bool)
    requires forall k :: k in users ==> users[k].mobile == k
    ensures var r := SetIsMember(users, scan, email, value);
      forall k :: k in r ==> r[k].mobile == k
  {
  }

  lemma ApprovedStoreSound(s: Store, id: string, env: Env)
    requires Inv(s) && id in s.requests
    ensures Inv(ApprovedStore(s, id, env))
  {
    SetIsMemberKeepsKeys(s.users, env.userScan, s.requests[id].email, true);
  }

  lemma ApproveKeepsInv(s: Store, id: string, env: Env)
    requires Inv(s) && ApprovalScans(s, id, env)
    ensures Inv(Approve(s, id, env).1)
  {
    if id in s.requests {
      var request := s.requests[id];
      var s3 := ApprovedStore(s, id, env);
      ApprovedStoreSound(s, id, env);
      if request.referralCode != "" {
        CreditReferrerKeepsInv(s3, request.referralCode, ApprovalRule, MembershipEntry(request, env), env);
        assert Approve(s, id, env).1 == CreditReferrer(s3, request.referralCode, ApprovalRule, MembershipEntry(request, env), env);
      } else {
        assert Approve(s, id, env).1 == s3;
      }
    }
  }

  lemma ReferralKeepsInv(s: Store, form: ReferralForm, env: Env)
    requires Inv(s) && Covers(env.membershipScan, s.memberships) && Covers(env.userScan, s.users)
    ensures Inv(AddReferral(s, form, env).1)
  {
    if form.referralCode.Some? {
      match FindReferrer(s, form.referralCode.value, ReferralRouteRule, env)
      case None =>
      case Some(k) =>
        CreditAtKeepsInv(s, k, RouteEntry(form, env), env, true);
    }
  }

  lemma RegisterKeepsInv(s: Store, form: RegisterForm, hash: string, token: string, env: Env)
    requires Inv(s) && RegistrationScans(s, form, env)
    ensures Inv(Register(s, form, hash, token, env).1)
  {
    if form.mobile !in s.users {
      var user := User(env.uuid, form.name, form.mobile, form.email, form.address, hash, CodeOf(form), false, env.now);
      var s1 := s.(users := s.users[form.mobile := user]);
      assert Inv(s1);
      if CodeOf(form) != "" {
        CreditReferrerKeepsInv(s1, CodeOf(form), RegistrationRule, RegistrationEntry(form, env), env);
      }
    }
  }

  lemma SubmitRequestKeepsInv(s: Store, form: RequestForm, url: string, env: Env)
    requires Inv(s)
    ensures Inv(SubmitRequest(s, form, url, env).1)
  {
  }

  lemma RejectKeepsInv(s: Store, id: string, env: Env)
    requires Inv(s)
    ensures Inv(Reject(s, id, env).1)
  {
  }

  lemma ClaimKeepsInv(s: Store, form: ClaimForm, env: Env)
    requires Inv(s)
    ensures Inv(SubmitClaim(s, form, env).1)
  {
    var r := SubmitClaim(s, form, env).1;
    if form.email in s.memberships {
      assert MembershipSound(r.memberships[form.email]);
    }
  }

  lemma ClaimStatusKeepsInv(s: Store, id: string, status: string, env: Env)
    requires Inv(s)
    ensures Inv(UpdateClaimStatus(s, id, status, env).1)
  {
    var r := UpdateClaimStatus(s, id, status, env).1;
    if id in s.claims && s.claims[id].email in s.memberships {
      assert MembershipSound(r.memberships[s.claims[id].email]);
    }
  }

  /** Every handler keeps the invariant. */
  lemma StepKeepsInv(s: Store, a: Action, env: Env)
    requires Inv(s) && ScansCover(s, a, env)
    ensures Inv(Step(s, a, env))
  {
    match a
    case SubmitRequestAction(form, url) => SubmitRequestKeepsInv(s, form, url, env);
    case ApproveAction(id) => ApproveKeepsInv(s, id, env);
    case RejectAction(id) => RejectKeepsInv(s, id, env);
    case ReferralAction(form) => ReferralKeepsInv(s, form, env);
    case ClaimAction(form) => ClaimKeepsInv(s, form, env);
    case ClaimStatusAction(id, status) => ClaimStatusKeepsInv(s, id, status, env);
    case RegisterAction(form, hash, token) => RegisterKeepsInv(s, form, hash, token, env);
  }

  /** After any sequence of requests, every membership's `referralCount`
      equals the length of its `referrals`, and every completed membership
      has reached the goal and carries its completion time. */
  lemma {:induction false} RunKeepsInv(s: Store, trace: seq<(Action, Env)>)
    requires Inv(s) && Admissible(s, trace)
    ensures Inv(Run(s, trace))
    decreases |trace|
  {
    if |trace| > 0 {
      StepKeepsInv(s, trace[0].0, trace[0].1);
      RunKeepsInv(Step(s, trace[0].0, trace[0].1), trace[1..]);
    }
  }

  /** The successful `/referral` route is the shared crediting with the exact,
      active-only rule and a write that cannot be lost. */
  lemma ReferralRouteIsCredit(s: Store, form: ReferralForm, env: Env)
    requires Covers(env.membershipScan, s.memberships) && Covers(env.userScan, s.users)
    requires AddReferral(s, form, env).0.Ok?
    ensures AddReferral(s, form, env).1 ==
      CreditReferrer(s, form.referralCode.value, ReferralRouteRule, RouteEntry(form, env), env.(creditOk := true))
  {
    var env' := env.(creditOk := true);
    var code := form.referralCode.value;
    assert FindReferrer(s, code, ReferralRouteRule, env') == FindReferrer(s, code, ReferralRouteRule, env);
    var k := FindReferrer(s, code, ReferralRouteRule, env).value;
    assert AddReferral(s, form, env).1 == CreditAt(s, k, RouteEntry(form, env), env, true);
    assert CreditAt(s, k, RouteEntry(form, env), env, true) == CreditAt(s, k, RouteEntry(form, env), env', true);
  }

  /** The approval response does not depend on whether the best-effort
      writes (the member's `isMember`, the referrer credit and its reset)
      succeed, nor on scan order. */
  lemma ApprovalIgnoresSideEffects(s: Store, id: string, env: Env, env': Env)
    requires ApprovalScans(s, id, env) && ApprovalScans(s, id, env')
    requires env'.now == env.now && env'.random == env.random
    ensures Approve(s, id, env).0 == Approve(s, id, env').0
  {
  }

  /** Approval does not look at the request's status: a rejected or already
      approved request is approved again, and the email's membership is
      replaced by a fresh one, losing the referrals it had. */
  lemma ReapprovalResetsProgress(s: Store, id: string, env: Env, env': Env)
    requires ApprovalScans(s, id, env) && id in s.requests && s.requests[id].referralCode == ""
    requires ApprovalScans(Approve(s, id, env).1, id, env')
    ensures var s' := Approve(Approve(s, id, env).1, id, env').1;
      && s'.memberships[s.requests[id].email].referralCount == Some(0)
      && s'.memberships[s.requests[id].email].referrals == Some([])
      && s'.requests[id].status == Approved
  {
  }
}

=== FILE: http.dfy ===
// What an Express handler sends back, and the bearer-token extraction that
// the user profile route and the admin guard share.

module Http {
  import opened Wrappers
  import opened JsText

  /** `res.status(code).json(body)` on success, or
      `res.status(code).json({ error: message })` on failure. */
  datatype Response<T> = Ok(code: int, body: T) | Err(code: int, message: string)

  /** The payload of a verified JSON Web Token (its string-valued claims). */
  type Claims = map<string, string>

  /** `header.split(' ')[1]`: the text between the first space and the next
      one (or the end), or None when the header is absent or holds no space. */
  function BearerToken(header: Option<string>): (r: Option<string>)
    ensures header.None? ==> r.None?
    ensures header.Some? ==> (r.None? <==> forall i :: 0 <= i < |header.value| ==> header.value[i] != ' ')
    ensures r.Some? ==> forall i :: 0 <= i < |r.value| ==> r.value[i] != ' '
    ensures r.Some? ==> header.Some? && exists i :: FieldAfterSpace(header.value, i, r.value)
  {
    match header
    case None => None
    case Some(h) =>
      SpaceField(h);
      SecondField(h, " ")
  }

  /** `i` is the first space of `h`, and `field` follows it up to the next
      space or the end of `h`. */
  predicate FieldAfterSpace(h: string, i: int, field: string) {
    && 0 <= i < |h| && h[i] == ' '
    && (forall j :: 0 <= j < i ==> h[j] != ' ')
    && i + 1 + |field| <= |h| && field == h[i + 1..i + 1 + |field|]
    && (i + 1 + |field| == |h| || h[i + 1 + |field|] == ' ')
  }

  /** A one-character pattern occurs exactly where that character stands. */
  lemma SpaceOccurs(h: string, j: int)
    ensures OccursAt(h, " ", j) <==> 0 <= j < |h| && h[j] == ' '
  {
    if 0 <= j < |h| {
      assert h[j..j + 1] == [h[j]];
    }
  }

  lemma SpaceField(h: string)
    ensures SecondField(h, " ").None? <==> forall i :: 0 <= i < |h| ==> h[i] != ' '
    ensures SecondField(h, " ").Some? ==>
      var field := SecondField(h, " ").value;
      && (forall i :: 0 <= i < |field| ==> field[i] != ' ')
      && FieldAfterSpace(h, IndexOf(h, " ").value, field)
  {
    NoSpaceIffAbsent(h);
    if Contains(h, " ") {
      var i := IndexOf(h, " ").value;
      assert FieldAt(h, " ", i + |" "|, SecondField(h, " ").value);
      FieldAfterFirstSpace(h, i, SecondField(h, " ").value);
    }
  }

  /** `h` contains the pattern " " iff one of its characters is a space. */
  lemma NoSpaceIffAbsent(h: string)
    ensures !Contains(h, " ") <==> forall i :: 0 <= i < |h| ==> h[i] != ' '
  {
    if Contains(h, " ") {
      SpaceOccurs(h, IndexOf(h, " ").value);
    } else {
      forall i | 0 <= i < |h| ensures h[i] != ' ' {
        SpaceOccurs(h, i);
      }
    }
  }

  /** The field after the first occurrence of " " is the text after the
      first space, up to the next space or the end. */
  lemma FieldAfterFirstSpace(h: string, i: nat, field: string)
    requires OccursAt(h, " ", i) && forall j :: 0 <= j < i ==> !OccursAt(h, " ", j)
    requires FieldAt(h, " ", i + 1, field)
    ensures forall k :: 0 <= k < |field| ==> field[k] != ' '
    ensures FieldAfterSpace(h, i, field)
  {
    FirstSpace(h, i);
    SpaceFreeField(h, i + 1, field);
  }

  /** The first occurrence of " " is the first space. */
  lemma FirstSpace(h: string, i: nat)
    requires OccursAt(h, " ", i) && forall j :: 0 <= j < i ==> !OccursAt(h, " ", j)
    ensures i < |h| && h[i] == ' ' && forall j :: 0 <= j < i ==> h[j] != ' '
  {
    SpaceOccurs(h, i);
    forall j | 0 <= j < i ensures h[j] != ' ' {
      SpaceOccurs(h, j);
    }
  }

  /** A field delimited by the pattern " " holds no space and ends at a space
      or at the end. */
  lemma SpaceFreeField(h: string, start: nat, field: string)
    requires FieldAt(h, " ", start, field)
    ensures start + |field| <= |h| && field == h[start..start + |field|]
    ensures forall k :: 0 <= k < |field| ==> field[k] != ' '
    ensures start + |field| == |h| || h[start + |field|] == ' '
  {
    forall k | 0 <= k < |field| ensures field[k] != ' ' {
      SpaceOccurs(h, start + k);
      assert field[k] == h[start + k];
    }
    SpaceOccurs(h, start + |field|);
  }

  /** The usual `Authorization: Bearer <token>` header yields the token back,
      provided neither the scheme nor the token holds a space. */
  lemma {:induction false} BearerRoundTrip(scheme: string, token: string)
    requires forall i :: 0 <= i < |scheme| ==> scheme[i] != ' '
    requires forall i :: 0 <= i < |token| ==> token[i] != ' '
    ensures BearerToken(Some(scheme + " " + token)) == Some(token)
  {
    var h := scheme + " " + token;
    var r := BearerToken(Some(h));
    assert h[|scheme|] == ' ';
    var i :| FieldAfterSpace(h, i, r.value);
    assert i == |scheme|;
    var n := |r.value|;
    assert h[i + 1..] == token;
  }
}

=== FILE: js_text.dfy ===
// The handful of JavaScript string built-ins the routes rely on, with the
// semantics the ECMAScript standard gives them: `trim`, ASCII case mapping,
// `substring`, `substr`, `indexOf`, `Number.prototype.toString` on
// non-negative integers and `parseInt`.

module Wrappers {

  datatype Option<+T> = None | Some(value: T) {

    /** The value, or `default` when there is none (JavaScript's `x || default`
        for fields whose only falsy value is "absent"). */
    function GetOr(default: T): T {
      match this
      case Some(v) => v
      case None => default
    }
  }
}

module JsText {
  import opened Wrappers

  /** The characters JavaScript's `\s`, `trim` and `parseInt` treat as white
      space: WhiteSpace and LineTerminator of ECMAScript section 12.2-12.3. */
  predicate IsWhitespace(c: char) {
    c == '\t' || c == '\n' || c == '\U{000B}' || c == '\U{000C}' || c == '\r' || c == ' '
    || c == '\U{00A0}' || c == '\U{1680}' || ('\U{2000}' <= c <= '\U{200A}')
    || c == '\U{2028}' || c == '\U{2029}' || c == '\U{202F}' || c == '\U{205F}'
    || c == '\U{3000}' || c == '\U{FEFF}'
  }

  predicate IsDigit(c: char) { '0' <= c <= '9' }
  predicate IsAsciiLower(c: char) { 'a' <= c <= 'z' }
  predicate IsAsciiUpper(c: char) { 'A' <= c <= 'Z' }

  /** `String.prototype.toUpperCase` restricted to ASCII letters. */
  function UpperChar(c: char): char {
    if IsAsciiLower(c) then (c as int - 32) as char else c
  }

  /** `String.prototype.toLowerCase` restricted to ASCII letters. */
  function LowerChar(c: char): char {
    if IsAsciiUpper(c) then (c as int + 32) as char else c
  }

  function ToUpper(s: string): (r: string)
    ensures |r| == |s|
    ensures forall i :: 0 <= i < |s| ==> r[i] == UpperChar(s[i])
  {
    seq(|s|, i requires 0 <= i < |s| => UpperChar(s[i]))
  }

  function ToLower(s: string): (r: string)
    ensures |r| == |s|
    ensures forall i :: 0 <= i < |s| ==> r[i] == LowerChar(s[i])
  {
    seq(|s|, i requires 0 <= i < |s| => LowerChar(s[i]))
  }

  /** Upper-casing commutes with taking a prefix or suffix and with concatenation. */
  lemma UpperConcat(a: string, b: string)
    ensures ToUpper(a + b) == ToUpper(a) + ToUpper(b)
  {
  }

  /** Upper-casing is idempotent: no ASCII letter is lower case afterwards. */
  lemma UpperIdempotent(s: string)
    ensures ToUpper(ToUpper(s)) == ToUpper(s)
    ensures forall i :: 0 <= i < |s| ==> !IsAsciiLower(ToUpper(s)[i])
  {
  }

  /** `trimStart`: drops the leading white space and nothing else. */
  function TrimStart(s: string): (r: string)
    ensures |r| <= |s| && r == s[|s| - |r|..]
    ensures forall i :: 0 <= i < |s| - |r| ==> IsWhitespace(s[i])
    ensures |r| > 0 ==> !IsWhitespace(r[0])
  {
    if |s| > 0 && IsWhitespace(s[0]) then TrimStart(s[1..]) else s
  }

  /** `trimEnd`: drops the trailing white space and nothing else. */
  function TrimEnd(s: string): (r: string)
    ensures |r| <= |s| && r == s[..|r|]
    ensures forall i :: |r| <= i < |s| ==> IsWhitespace(s[i])
    ensures |r| > 0 ==> !IsWhitespace(r[|r| - 1])
  {
    if |s| > 0 && IsWhitespace(s[|s| - 1]) then TrimEnd(s[..|s| - 1]) else s
  }

  /** `r` is `s` with white space dropped at its start (the first `a`
      characters) and at its end, and none is left at either end of `r`. */
  predicate TrimmedAt(s: string, a: int, r: string) {
    && 0 <= a && a + |r| <= |s| && r == s[a..a + |r|]
    && AllWhite(s, 0, a) && AllWhite(s, a + |r|, |s|)
    && (|r| > 0 ==> !IsWhitespace(r[0]) && !IsWhitespace(r[|r| - 1]))
  }

  /** Every character of `s` from `lo` up to `hi` is white space. */
  predicate AllWhite(s: string, lo: int, hi: int) {
    forall i :: lo <= i < hi && 0 <= i < |s| ==> IsWhitespace(s[i])
  }

  /** `String.prototype.trim`. */
  function Trim(s: string): string {
    TrimEnd(TrimStart(s))
  }

  /** What `trim` keeps: `s` without the white space at either end. */
  lemma TrimSpec(s: string)
    ensures exists a :: TrimmedAt(s, a, Trim(s))
  {
    var t := TrimStart(s);
    TrimBothEnds(s, t, Trim(s));
  }

  /** Dropping white space from the start of `s` (giving `t`) and then from
      the end of `t` (giving `r`) drops it from both ends of `s`. */
  lemma TrimBothEnds(s: string, t: string, r: string)
    requires |t| <= |s| && t == s[|s| - |t|..] && forall i :: 0 <= i < |s| - |t| ==> IsWhitespace(s[i])
    requires |t| > 0 ==> !IsWhitespace(t[0])
    requires |r| <= |t| && r == t[..|r|] && forall i :: |r| <= i < |t| ==> IsWhitespace(t[i])
    requires |r| > 0 ==> !IsWhitespace(r[|r| - 1])
    ensures TrimmedAt(s, |s| - |t|, r)
  {
    var a := |s| - |t|;
    forall i | a + |r| <= i < |s|
      ensures IsWhitespace(s[i])
    {
      assert s[i] == t[i - a];
    }
    if |r| > 0 {
      assert r[0] == t[0];
    }
  }

  /** A string with no white space at either end is its own trim. */
  lemma TrimOfTrimmed(s: string)
    requires |s| > 0 ==> !IsWhitespace(s[0]) && !IsWhitespace(s[|s| - 1])
    ensures Trim(s) == s
  {
  }

  /** Clamps a `substring` argument into `[0, len]`. */
  function Clamp(x: int, len: nat): (r: nat)
    ensures r <= len
  {
    if x < 0 then 0 else if x > len then len else x
  }

  /** `String.prototype.substring(start, end)`: both arguments are clamped to
      the string, then swapped when the first exceeds the second. */
  function Substring(s: string, start: int, end: int): (r: string)
    ensures |r| <= |s|
    ensures 0 <= start <= end <= |s| ==> r == s[start..end]
    ensures 0 <= end <= start <= |s| ==> r == s[end..start]
    ensures start <= 0 && |s| <= end ==> r == s
    ensures start >= |s| && end >= |s| ==> r == ""
  {
    var a := Clamp(start, |s|);
    var b := Clamp(end, |s|);
    if a <= b then s[a..b] else s[b..a]
  }

  /** `String.prototype.substr(start, length)` for a non-negative start. */
  function Substr(s: string, start: nat, length: nat): (r: string)
    ensures |r| <= length
    ensures start >= |s| ==> r == ""
    ensures start <= |s| ==> r == s[start..start + if length <= |s| - start then length else |s| - start]
  {
    if start >= |s| then "" else
    var e := if length <= |s| - start then start + length else |s|;
    s[start..e]
  }

  /** `pat` occurs in `s` at position `i`. */
  predicate OccursAt(s: string, pat: string, i: int) {
    0 <= i && i + |pat| <= |s| && s[i..i + |pat|] == pat
  }

  /** `String.prototype.indexOf` for a non-empty pattern: the first position
      where `pat` occurs, or None when there is none. */
  function IndexOf(s: string, pat: string): (r: Option<nat>)
    requires |pat| > 0
    ensures r.Some? ==> OccursAt(s, pat, r.value)
    ensures r.Some? ==> forall j :: 0 <= j < r.value ==> !OccursAt(s, pat, j)
    ensures r.None? ==> forall j :: !OccursAt(s, pat, j)
    decreases |s|
  {
    if |s| < |pat| then None
    else if s[..|pat|] == pat then Some(0)
    else
      match IndexOf(s[1..], pat)
      case None =>
        assert forall j :: OccursAt(s, pat, j) && j > 0 ==> OccursAt(s[1..], pat, j - 1);
        None
      case Some(k) =>
        assert forall j :: 0 < j <= k && OccursAt(s, pat, j) ==> OccursAt(s[1..], pat, j - 1);
        Some(k + 1)
  }

  predicate Contains(s: string, pat: string)
    requires |pat| > 0
  {
    IndexOf(s, pat).Some?
  }

  /** The first occurrence of a pattern is the occurrence with none before it. */
  lemma IndexOfIs(s: string, pat: string, i: nat)
    requires |pat| > 0 && OccursAt(s, pat, i)
    requires forall j :: 0 <= j < i ==> !OccursAt(s, pat, j)
    ensures IndexOf(s, pat) == Some(i)
  {
  }

  /** An occurrence in a suffix is an occurrence in the whole string, shifted. */
  lemma OccursInSuffix(s: string, pat: string, start: nat, k: int)
    requires start <= |s|
    ensures OccursAt(s[start..], pat, k) <==> k >= 0 && OccursAt(s, pat, start + k)
  {
    if 0 <= k && k + |pat| <= |s| - start {
      assert s[start..][k..k + |pat|] == s[start + k..start + k + |pat|];
    }
  }

  /** A prefix that ends before the first occurrence holds none. */
  lemma NoneInPrefix(s: string, pat: string, j: nat)
    requires |pat| > 0 && j <= |s|
    requires forall k :: 0 <= k < j ==> !OccursAt(s, pat, k)
    ensures !Contains(s[..j], pat)
  {
    assert forall k :: OccursAt(s[..j], pat, k) ==> OccursAt(s, pat, k);
  }

  /** `s.split(sep)[1]`: the text after the first occurrence of `sep`, up to
      the next occurrence or the end; None when `sep` does not occur (the
      element is then `undefined`). */
  function SecondField(s: string, sep: string): (r: Option<string>)
    requires |sep| > 0
    ensures r.None? <==> !Contains(s, sep)
    ensures r.Some? ==> !Contains(r.value, sep)
    ensures r.Some? ==> FieldAt(s, sep, IndexOf(s, sep).value + |sep|, r.value)
  {
    match IndexOf(s, sep)
    case None => None
    case Some(i) =>
      var f := FieldUpTo(s[i + |sep|..], sep);
      ShiftField(s, sep, i + |sep|, f);
      Some(f)
  }

  /** `f` stands in `s` from `start` on, holds no occurrence of `sep`, and
      is followed by the end of `s` or by `sep`. */
  predicate FieldAt(s: string, sep: string, start: nat, f: string) {
    && start + |f| <= |s| && f == s[start..start + |f|]
    && (forall j :: start <= j < start + |f| ==> !OccursAt(s, sep, j))
    && (start + |f| == |s| || OccursAt(s, sep, start + |f|))
  }

  /** The text of `after` up to the first occurrence of `sep`, or all of it. */
  function FieldUpTo(after: string, sep: string): (f: string)
    requires |sep| > 0
    ensures |f| <= |after| && f == after[..|f|]
    ensures !Contains(f, sep)
    ensures forall k :: 0 <= k < |f| ==> !OccursAt(after, sep, k)
    ensures |f| == |after| || OccursAt(after, sep, |f|)
  {
    match IndexOf(after, sep)
    case None =>
      NoneInPrefix(after, sep, |after|);
      assert after[..|after|] == after;
      after
    case Some(j) =>
      NoneInPrefix(after, sep, j);
      after[..j]
  }

  /** What holds of a field within the suffix from `start` holds of it
      within the whole string, shifted by `start`. */
  lemma ShiftField(s: string, sep: string, start: nat, f: string)
    requires |sep| > 0 && start <= |s|
    requires |f| <= |s| - start && f == s[start..][..|f|]
    requires forall k :: 0 <= k < |f| ==> !OccursAt(s[start..], sep, k)
    requires |f| == |s| - start || OccursAt(s[start..], sep, |f|)
    ensures FieldAt(s, sep, start, f)
  {
    forall j | start <= j < start + |f|
      ensures !OccursAt(s, sep, j)
    {
      OccursInSuffix(s, sep, start, j - start);
    }
    OccursInSuffix(s, sep, start, |f|);
  }

  /** The decimal digit character for `d`. */
  function DigitChar(d: nat): char
    requires d < 10
  {
    ('0' as int + d) as char
  }

  /** `Number.prototype.toString()` of a non-negative integer (as `Date.now()`
      is written into an order id): its shortest decimal representation. */
  function DecimalString(n: nat): (r: string)
    ensures |r| > 0
    ensures forall i :: 0 <= i < |r| ==> IsDigit(r[i])
    ensures |r| > 1 ==> r[0] != '0'
  {
    if n < 10 then [DigitChar(n)] else DecimalString(n / 10) + [DigitChar(n % 10)]
  }

  /** The value of a digit in radix 10 or 16, or None when `c` is not one. */
  function DigitValue(c: char, radix: nat): (r: Option<nat>)
    ensures r.Some? ==> r.value < radix
  {
    var v: Option<nat> :=
      if IsDigit(c) then Some(c as int - '0' as int)
      else if 'a' <= c <= 'z' then Some(c as int - 'a' as int + 10)
      else if 'A' <= c <= 'Z' then Some(c as int - 'A' as int + 10)
      else None;
    if v.Some? && v.value < radix then v else None
  }

  /** Length of the longest prefix of `s` made of radix digits. */
  function DigitRun(s: string, radix: nat): (n: nat)
    ensures n <= |s|
    ensures forall i :: 0 <= i < n ==> DigitValue(s[i], radix).Some?
    ensures n < |s| ==> DigitValue(s[n], radix).None?
  {
    if |s| > 0 && DigitValue(s[0], radix).Some? then 1 + DigitRun(s[1..], radix) else 0
  }

  /** The value of a string of radix digits, most significant first. */
  function DigitsValue(s: string, radix: nat): nat
    requires forall i :: 0 <= i < |s| ==> DigitValue(s[i], radix).Some?
  {
    if |s| == 0 then 0
    else
      var init := s[..|s| - 1];
      assert forall i :: 0 <= i < |init| ==> init[i] == s[i];
      var high := DigitsValue(init, radix);
      var low := DigitValue(s[|s| - 1], radix).value;
      MulNonNegative(high, radix);
      high * radix + low
  }

  lemma MulNonNegative(a: nat, b: nat)
    ensures a * b >= 0
  {
  }

  /** The global `parseInt(s)` with no radix argument (ECMAScript section
      19.2.5): leading white space is skipped, then an optional sign, then a
      `0x`/`0X` prefix selects radix 16; the longest run of digits that follows
      is the value, and None stands for NaN when that run is empty. */
  function ParseInt(s: string): (r: Option<int>)
    ensures |TrimStart(s)| == 0 ==> r.None?
    ensures r.Some? && r.value < 0 ==> TrimStart(s)[0] == '-'
  {
    ParseTrimmed(TrimStart(s))
  }

  /** `parseInt` once the leading white space is gone. */
  function ParseTrimmed(t: string): (r: Option<int>)
    ensures |t| == 0 ==> r.None?
    ensures r.Some? && r.value < 0 ==> t[0] == '-'
  {
    var negative := |t| > 0 && t[0] == '-';
    var u := if |t| > 0 && (t[0] == '-' || t[0] == '+') then t[1..] else t;
    var hex := |u| >= 2 && u[0] == '0' && (u[1] == 'x' || u[1] == 'X');
    var radix := if hex then 16 else 10;
    var body := if hex then u[2..] else u;
    match LeadingValue(body, radix)
    case None => None
    case Some(v) =>
      var value: int := v;
      Some(if negative then -value else value)
  }

  /** The value of the longest prefix of radix digits; None when it is empty. */
  function LeadingValue(s: string, radix: nat): (r: Option<nat>)
    ensures r.None? <==> DigitRun(s, radix) == 0
  {
    var n := DigitRun(s, radix);
    if n == 0 then None
    else
      var digits := s[..n];
      assert forall i :: 0 <= i < |digits| ==> digits[i] == s[i];
      Some(DigitsValue(digits, radix))
  }

  lemma DecimalDigitsValue(n: nat)
    ensures DigitRun(DecimalString(n), 10) == |DecimalString(n)|
    ensures DigitsValue(DecimalString(n), 10) == n
  {
    var r := DecimalString(n);
    assert forall i :: 0 <= i < |r| ==> DigitValue(r[i], 10).Some?;
    DigitRunAll(r, 10);
    if n >= 10 {
      DecimalDigitsValue(n / 10);
      assert r[..|r| - 1] == DecimalString(n / 10);
    }
  }

  lemma DigitRunAll(s: string, radix: nat)
    requires forall i :: 0 <= i < |s| ==> DigitValue(s[i], radix).Some?
    ensures DigitRun(s, radix) == |s|
  {
  }

  /** A run of radix digits followed by the end or by a non-digit is read
      whole, and no further. */
  lemma {:induction false} DigitRunStops(a: string, b: string, radix: nat)
    requires forall i :: 0 <= i < |a| ==> DigitValue(a[i], radix).Some?
    requires |b| > 0 ==> DigitValue(b[0], radix).None?
    ensures DigitRun(a + b, radix) == |a|
  {
    if |a| > 0 {
      assert (a + b)[1..] == a[1..] + b;
      DigitRunStops(a[1..], b, radix);
    } else {
      assert a + b == b;
    }
  }

  /** `parseInt` stops at the first character that is not a digit: the
      decimal text of `n` followed by anything else (`"12px"`) reads as `n`.
      After a lone `0`, an `x` would select radix 16 instead. */
  lemma ParseIntStopsAtNonDigit(n: nat, rest: string)
    requires |rest| > 0 ==> DigitValue(rest[0], 10).None?
    requires n == 0 && |rest| > 0 ==> rest[0] != 'x' && rest[0] != 'X'
    ensures ParseInt(DecimalString(n) + rest) == Some(n)
  {
    var s := DecimalString(n) + rest;
    DecimalStart(n, rest);
    DecimalLeadingValue(n, rest);
    ParseIntOfUnsigned(s, n);
  }

  /** Text that starts with a decimal digit, and not with `0x`, is read by
      `parseInt` as the value of its leading digit run. */
  lemma ParseIntOfUnsigned(s: string, v: nat)
    requires |s| > 0 && IsDigit(s[0]) && !IsWhitespace(s[0])
    requires !(|s| >= 2 && s[0] == '0' && (s[1] == 'x' || s[1] == 'X'))
    requires LeadingValue(s, 10) == Some(v)
    ensures ParseInt(s) == Some(v)
  {
    TrimStartKeeps(s);
    assert s[0] != '-' && s[0] != '+';
  }

  lemma TrimStartKeeps(s: string)
    requires |s| > 0 && !IsWhitespace(s[0])
    ensures TrimStart(s) == s
  {
  }

  /** The decimal text of `n` followed by `rest` starts with a digit and,
      under the same conditions, not with a hexadecimal prefix. */
  lemma DecimalStart(n: nat, rest: string)
    requires n == 0 && |rest| > 0 ==> rest[0] != 'x' && rest[0] != 'X'
    ensures var s := DecimalString(n) + rest;
      && IsDigit(s[0]) && !IsWhitespace(s[0])
      && !(|s| >= 2 && s[0] == '0' && (s[1] == 'x' || s[1] == 'X'))
  {
    var d := DecimalString(n);
    var s := d + rest;
    assert s[0] == d[0];
    if |d| > 1 {
      assert s[0] != '0';
    } else if n == 0 {
      assert d == "0";
      if |rest| > 0 {
        assert s[1] == rest[0];
      }
    } else {
      assert d == [DigitChar(n)];
    }
  }

  /** The leading digit run of the decimal text of `n` followed by a
      non-digit is that text, and its value is `n`. */
  lemma DecimalLeadingValue(n: nat, rest: string)
    requires |rest| > 0 ==> DigitValue(rest[0], 10).None?
    ensures LeadingValue(DecimalString(n) + rest, 10) == Some(n)
  {
    var d := DecimalString(n);
    DecimalDigitsValue(n);
    assert forall i :: 0 <= i < |d| ==> DigitValue(d[i], 10).Some?;
    DigitRunStops(d, rest, 10);
    assert (d + rest)[..|d|] == d;
  }

  /** `parseInt` skips leading white space and honours a minus sign:
      blank text, then `-`, then the decimal text of `n` reads as `-n`
      (`" -1"` is -1). */
  lemma ParseIntOfNegative(ws: string, n: nat)
    requires forall i :: 0 <= i < |ws| ==> IsWhitespace(ws[i])
    ensures ParseInt(ws + "-" + DecimalString(n)) == Some(-(n as int))
  {
    var d := DecimalString(n);
    var t := "-" + d;
    assert ws + "-" + d == ws + t;
    ParseIntAfterBlank(ws, t);
    DecimalLeadingValue(n, "");
    assert d + "" == d;
    assert t[1..] == d;
    assert !(|d| >= 2 && d[0] == '0');
    ParseIntOfMinus(t, n);
  }

  /** Blank text in front does not change what `parseInt` reads. */
  lemma ParseIntAfterBlank(ws: string, t: string)
    requires forall i :: 0 <= i < |ws| ==> IsWhitespace(ws[i])
    requires |t| > 0 ==> !IsWhitespace(t[0])
    ensures ParseInt(ws + t) == ParseInt(t)
  {
    TrimStartSkipsBlank(ws, t);
    TrimStartSkipsBlank("", t);
    assert "" + t == t;
  }

  /** `-` followed by decimal digits, and not by `0x`, reads as the
      negated value of the digit run. */
  lemma ParseIntOfMinus(s: string, v: nat)
    requires |s| >= 2 && s[0] == '-'
    requires !(|s| >= 3 && s[1] == '0' && (s[2] == 'x' || s[2] == 'X'))
    requires LeadingValue(s[1..], 10) == Some(v)
    ensures ParseInt(s) == Some(-(v as int))
  {
    TrimStartKeeps(s);
  }

  /** `trimStart` drops a blank prefix up to the first other character. */
  lemma {:induction false} TrimStartSkipsBlank(ws: string, t: string)
    requires forall i :: 0 <= i < |ws| ==> IsWhitespace(ws[i])
    requires |t| > 0 ==> !IsWhitespace(t[0])
    ensures TrimStart(ws + t) == t
  {
    if |ws| == 0 {
      assert ws + t == t;
    } else {
      assert (ws + t)[0] == ws[0];
      assert (ws + t)[1..] == ws[1..] + t;
      TrimStartSkipsBlank(ws[1..], t);
    }
  }

  /** `parseInt` reads back what `toString` wrote: decimal rendering and
      parsing are inverse on non-negative integers. */
  lemma {:induction false} ParseIntOfDecimal(n: nat)
    ensures ParseInt(DecimalString(n)) == Some(n)
  {
    ParseIntStopsAtNonDigit(n, "");
    assert DecimalString(n) + "" == DecimalString(n);
  }
}

=== FILE: lifecycle.dfy ===
// How the membership routes compose: a request through approval and a
// second request, a rejected request approved after all, and a reward claim
// through the admin's status update (src/routes/memberships.js).

module Lifecycle {
  import opened Wrappers
  import opened Records
  import opened Crediting
  import opened Http
  import opened MembershipRoutes

  /** After approval the requester holds an active membership, even when the
      request's code credits the new membership itself: one credit on a fresh
      record stays below the completion goal. */
  lemma ApprovalActivates(s: Store, id: string, env: Env)
    requires ApprovalScans(s, id, env) && id in s.requests
    ensures var email := s.requests[id].email;
      var r := Approve(s, id, env).1;
      email in r.memberships && r.memberships[email].status == Active
  {
    var request := s.requests[id];
    var created := FreshMembership(request, env);
    var c := ApplyCredit(created, MembershipEntry(request, env), env.now);
    assert !c.1;
  }

  /** A request that is accepted and then approved leaves its email with an
      active membership and the request approved, and a request for that
      email made right after the approval is refused with 400 and changes
      nothing. (Once the membership completes, requests are accepted again.) */
  lemma RequestApprovedThenRefused(s: Store, form: RequestForm, url: string, env: Env, env2: Env,
                                   again: RequestForm, url2: string, env3: Env)
    requires !(form.email in s.memberships && s.memberships[form.email].status == Active)
    requires ApprovalScans(SubmitRequest(s, form, url, env).1, env.uuid, env2)
    requires again.email == form.email
    ensures var s1 := SubmitRequest(s, form, url, env).1;
      var a := Approve(s1, env.uuid, env2);
      && a.0.Ok? && a.0.body.membership.email == form.email
      && a.1.requests[env.uuid].status == Approved
      && a.1.memberships[form.email].status == Active
      && SubmitRequest(a.1, again, url2, env3) == (Err(400, "Already have an active membership"), a.1)
  {
    var s1 := SubmitRequest(s, form, url, env).1;
    assert s1.requests[env.uuid].email == form.email;
    ApprovalActivates(s1, env.uuid, env2);
  }

  /** Rejection is not final: approval does not look at the status, so a
      rejected request can still be approved, and its approval overwrites
      the rejection. */
  lemma RejectedCanBeApproved(s: Store, id: string, env: Env, env2: Env)
    requires id in s.requests
    requires ApprovalScans(Reject(s, id, env).1, id, env2)
    ensures var s1 := Reject(s, id, env).1;
      var a := Approve(s1, id, env2);
      && s1.requests[id].status == Rejected
      && a.0.Ok? && a.1.requests[id].status == Approved
      && a.1.requests[id].approvedAt == Some(env2.now)
      && a.1.requests[id].rejectedAt == Some(env.now)
  {
  }

  /** A cashback or gold claim moves its flag from wherever it was to
      'pending_admin' on submission, and to `true` exactly when the admin sets
      the claim's status to 'completed'; any other status leaves it pending.
      A claim of another type never touches the membership. */
  lemma ClaimLifecycle(s: Store, form: ClaimForm, env: Env, status: string, env2: Env)
    requires form.email in s.memberships
    ensures var c := SubmitClaim(s, form, env);
      var id := c.0.body.id;
      var u := UpdateClaimStatus(c.1, id, status, env2);
      var m := u.1.memberships[form.email];
      && u.0 == Ok(200, c.0.body.(status := status, updatedAt := Some(env2.now)))
      && u.1.claims == s.claims[id := u.0.body]
      && u.1.memberships.Keys == s.memberships.Keys
      && (form.kind == "cashback" ==>
            m.moneyBackClaimed == (if status == "completed" then Claimed else PendingAdmin))
      && (form.kind == "gold" ==>
            m.goldCoinClaimed == (if status == "completed" then Claimed else PendingAdmin))
      && (form.kind != "cashback" && form.kind != "gold" ==> u.1.memberships == s.memberships)
  {
    var c := SubmitClaim(s, form, env);
    var id := c.0.body.id;
    assert c.1.claims[id].email == form.email && c.1.claims[id].kind == form.kind;
    if form.kind != "cashback" && form.kind != "gold" {
      assert c.1.memberships == s.memberships by {
        assert c.1.memberships[form.email] == s.memberships[form.email];
      }
    }
  }
}

=== FILE: memberships.dfy ===
// The membership routes of src/routes/memberships.js as pure steps
// (store, input, environment) -> (response, store').

module MembershipRoutes {
  import opened Wrappers
  import opened Records
  import opened Crediting
  import opened Tables
  import opened Http

  /** The body of `POST /request`. */
  datatype RequestForm = RequestForm(name: string, email: string, mobile: string, referralCode: Option<string>)

  /** `POST /request`: refused while the email holds an active membership;
      otherwise a pending request is stored under a created id. */
  function SubmitRequest(s: Store, form: RequestForm, screenshotUrl: string, env: Env): (r: (Response<MembershipRequest>, Store))
    ensures form.email in s.memberships && s.memberships[form.email].status == Active ==>
      r.0 == Err(400, "Already have an active membership") && r.1 == s
    ensures !(form.email in s.memberships && s.memberships[form.email].status == Active) ==>
      && r.0.Ok? && r.0.code == 201
      && r.0.body.status == Pending
      && r.0.body.id == env.uuid && r.0.body.submittedAt == env.now
      && r.0.body.name == form.name && r.0.body.email == form.email && r.0.body.mobile == form.mobile
      && r.0.body.referralCode == (if form.referralCode.Some? then form.referralCode.value else "")
      && r.0.body.screenshotUrl == screenshotUrl
      && r.0.body.approvedAt.None? && r.0.body.rejectedAt.None?
      && r.1 == s.(requests := s.requests[env.uuid := r.0.body])
  {
    if form.email in s.memberships && s.memberships[form.email].status == Active then
      (Err(400, "Already have an active membership"), s)
    else
      var request := MembershipRequest(
        env.uuid, form.name, form.email, form.mobile, form.referralCode.GetOr(""),
        screenshotUrl, Pending, env.now, None, None);
      (Ok(201, request), s.(requests := s.requests[env.uuid := request]))
  }

  /** The body of a successful approval. */
  datatype Approval = Approval(membership: Membership, request: MembershipRequest)

  /** The membership approval writes for a request: a brand-new record that
      replaces whatever the email held before. */
  function FreshMembership(request: MembershipRequest, env: Env): (m: Membership)
    ensures m.email == request.email && m.name == request.name && m.mobile == request.mobile
    ensures m.referralCount == Some(0) && m.referrals == Some([]) && CountTracked(m)
    ensures m.moneyBackClaimed == NotClaimed && m.goldCoinClaimed == NotClaimed
    ensures m.status == Active && m.activatedAt == env.now && m.completedAt.None?
    ensures m.referralCode == GenerateReferralCode(request.name, env.random)
  {
    Membership(request.email, request.name, request.mobile, GenerateReferralCode(request.name, env.random),
      Some(0), Some([]), NotClaimed, NotClaimed, Active, env.now, None)
  }

  /** What a scan must list for approval to be modelled faithfully: every
      stored membership, and the one approval writes before it scans. */
  predicate ApprovalScans(s: Store, id: string, env: Env) {
    && Covers(env.membershipScan, s.memberships)
    && Covers(env.userScan, s.users)
    && (id in s.requests ==> s.requests[id].email in env.membershipScan)
  }

  /** The referral entry approval appends to the referrer. */
  function MembershipEntry(request: MembershipRequest, env: Env): Referral {
    Referral(request.name, Some(request.email), env.now, Some(MembershipReferral))
  }

  /** The store approval has built when it starts crediting: the fresh
      membership written under the request's email, `isMember` set on the
      first user with that email when that update succeeds, and the request
      marked approved. */
  function ApprovedStore(s: Store, id: string, env: Env): (r: Store)
    requires id in s.requests
    ensures var request := s.requests[id];
      && r.memberships == s.memberships[request.email := FreshMembership(request, env)]
      && r.users == (if env.memberFlagOk then SetIsMember(s.users, env.userScan, request.email, true) else s.users)
      && r.requests == s.requests[id := request.(status := Approved, approvedAt := Some(env.now))]
      && r.claims == s.claims
  {
    var request := s.requests[id];
    var s1 := s.(memberships := s.memberships[request.email := FreshMembership(request, env)]);
    var s2 := if env.memberFlagOk
      then s1.(users := SetIsMember(s1.users, env.userScan, request.email, true)) else s1;
    s2.(requests := s2.requests[id := request.(status := Approved, approvedAt := Some(env.now))])
  }

  /** Crediting after approval changes a membership of the approved store
      only to the credited form of a record the approval rule matches. */
  lemma ApprovalCredit(s: Store, id: string, env: Env)
    requires ApprovalScans(s, id, env) && id in s.requests && s.requests[id].referralCode != ""
    ensures var request := s.requests[id];
      var before := ApprovedStore(s, id, env).memberships;
      var r := CreditReferrer(ApprovedStore(s, id, env), request.referralCode, ApprovalRule, MembershipEntry(request, env), env);
      && r.memberships.Keys == before.Keys
      && forall k :: k in before ==>
           || r.memberships[k] == before[k]
           || (&& env.creditOk && Matches(ApprovalRule, before[k], request.referralCode)
               && r.memberships[k] == ApplyCredit(before[k], MembershipEntry(request, env), env.now).0)
  {
  }

  /** `PUT /request/:id/approve`. The request's current status is not
      checked. In order: the created membership is written, the member's user
      gets `isMember` true (best effort), the request becomes approved, and,
      when the request carries a code, the referrer is credited (best effort,
      scanning the table that already holds the new membership). */
  function Approve(s: Store, id: string, env: Env): (r: (Response<Approval>, Store))
    requires ApprovalScans(s, id, env)
    ensures id !in s.requests ==> r.0 == Err(404, "Request not found") && r.1 == s
    ensures id in s.requests ==>
      var request := s.requests[id];
      var created := FreshMembership(request, env);
      (&& r.0 == Ok(200, Approval(created, request.(status := Approved, approvedAt := Some(env.now))))
      && r.1.requests == s.requests[id := r.0.body.request]
      && r.1.claims == s.claims
      && r.1.memberships.Keys == s.memberships.Keys + {request.email}
      && r.1.users.Keys == s.users.Keys
      && (request.referralCode == "" ==> r.1.memberships == s.memberships[request.email := created])
      && (forall k :: k in r.1.memberships ==>
            var before := if k == request.email then created else s.memberships[k];
            || r.1.memberships[k] == before
            || (&& env.creditOk && request.referralCode != ""
                && Matches(ApprovalRule, before, request.referralCode)
                && r.1.memberships[k] == ApplyCredit(before, MembershipEntry(request, env), env.now).0)))
  {
    if id !in s.requests then (Err(404, "Request not found"), s)
    else
      var request := s.requests[id];
      var approved := ApprovedStore(s, id, env);
      var s4 := if request.referralCode != ""
        then ApprovalCredit(s, id, env); CreditReferrer(approved, request.referralCode, ApprovalRule, MembershipEntry(request, env), env)
        else approved;
      (Ok(200, Approval(FreshMembership(request, env), approved.requests[id])), s4)
  }

  /** Without a referral code, approval leaves the store it built: the fresh
      membership, the member's `isMember` set (best effort) and the request
      approved. */
  lemma ApproveWithoutCode(s: Store, id: string, env: Env)
    requires ApprovalScans(s, id, env) && id in s.requests && s.requests[id].referralCode == ""
    ensures var request := s.requests[id];
      var r := Approve(s, id, env).1;
      && r.memberships == s.memberships[request.email := FreshMembership(request, env)]
      && r.users == (if env.memberFlagOk then SetIsMember(s.users, env.userScan, request.email, true) else s.users)
      && r.requests == s.requests[id := request.(status := Approved, approvedAt := Some(env.now))]
      && r.claims == s.claims
  {
  }

  /** With a referral code, approval credits the first membership, in scan
      order over the table that already holds the new membership, that
      matches the code under the approval rule; the credited record is
      written when that write succeeds, and the referrer's user loses
      `isMember` when the credit completes the membership. */
  lemma ApproveCreditsFirstMatch(s: Store, id: string, env: Env, i: int)
    requires ApprovalScans(s, id, env) && id in s.requests && s.requests[id].referralCode != ""
    requires FirstMatch(env.membershipScan, ApprovedStore(s, id, env).memberships,
                        CodeMatches(ApprovalRule, s.requests[id].referralCode), i)
    ensures var request := s.requests[id];
      var before := ApprovedStore(s, id, env);
      var k := env.membershipScan[i];
      var c := ApplyCredit(before.memberships[k], MembershipEntry(request, env), env.now);
      var r := Approve(s, id, env).1;
      && r.memberships == (if env.creditOk then before.memberships[k := c.0] else before.memberships)
      && r.users == (if c.1 && env.referrerFlagOk
                     then SetIsMember(before.users, env.userScan, before.memberships[k].email, false)
                     else before.users)
      && r.requests == s.requests[id := request.(status := Approved, approvedAt := Some(env.now))]
      && r.claims == s.claims
  {
    var request := s.requests[id];
    var before := ApprovedStore(s, id, env);
    CreditsFirstMatch(before, request.referralCode, ApprovalRule, MembershipEntry(request, env), env, i);
  }

  /** `PUT /request/:id/reject`: marks the request rejected; no status check. */
  function Reject(s: Store, id: string, env: Env): (r: (Response<MembershipRequest>, Store))
    ensures id !in s.requests ==> r.0 == Err(404, "Request not found") && r.1 == s
    ensures id in s.requests ==>
      && r.0.Ok? && r.0.code == 200
      && r.0.body.status == Rejected && r.0.body.rejectedAt == Some(env.now)
      && r.0.body == s.requests[id].(status := Rejected, rejectedAt := Some(env.now))
      && r.1 == s.(requests := s.requests[id := r.0.body])
  {
    if id !in s.requests then (Err(404, "Request not found"), s)
    else
      var rejected := s.requests[id].(status := Rejected, rejectedAt := Some(env.now));
      (Ok(200, rejected), s.(requests := s.requests[id := rejected]))
  }

  /** The body of `POST /referral`; an absent code matches no stored code. */
  datatype ReferralForm = ReferralForm(referralCode: Option<string>, referredUserName: string)

  /** The referral entry `/referral` appends: a name and a date only. */
  function RouteEntry(form: ReferralForm, env: Env): Referral {
    Referral(form.referredUserName, None, env.now, None)
  }

  /** `POST /referral`: exact code, active referrers only, 404 otherwise. A
      referrer whose count or referral list is missing makes the handler fail
      (`undefined += 1` is NaN, which the store refuses; `push` on a missing
      list throws) and nothing is written. */
  function AddReferral(s: Store, form: ReferralForm, env: Env): (r: (Response<Membership>, Store))
    requires Covers(env.membershipScan, s.memberships) && Covers(env.userScan, s.users)
    ensures (form.referralCode.None? || forall k :: k in s.memberships ==>
              !Matches(ReferralRouteRule, s.memberships[k], form.referralCode.value)) ==>
      r.0 == Err(404, "Invalid referral code") && r.1 == s
    ensures form.referralCode.Some? &&
            (exists k :: k in s.memberships && Matches(ReferralRouteRule, s.memberships[k], form.referralCode.value)) ==>
      r.0.code != 404
    ensures r.0.Ok? ==>
      && form.referralCode.Some? && r.0.code == 200
      && r.1.requests == s.requests && r.1.claims == s.claims
      && exists k ::
           && k in s.memberships
           && Matches(ReferralRouteRule, s.memberships[k], form.referralCode.value)
           && r.0.body == ApplyCredit(s.memberships[k], RouteEntry(form, env), env.now).0
           && r.1.memberships == s.memberships[k := r.0.body]
    ensures r.0.Err? ==> r.1 == s
  {
    if form.referralCode.None? then (Err(404, "Invalid referral code"), s)
    else
      var code := form.referralCode.value;
      match FindReferrer(s, code, ReferralRouteRule, env)
      case None =>
        FindNoneMeansNoMatch(env.membershipScan, s.memberships, CodeMatches(ReferralRouteRule, code));
        (Err(404, "Invalid referral code"), s)
      case Some(k) =>
        var m := s.memberships[k];
        if m.referralCount.None? || m.referrals.None? then (Err(500, "Failed to add referral"), s)
        else (Ok(200, ApplyCredit(m, RouteEntry(form, env), env.now).0), CreditAt(s, k, RouteEntry(form, env), env, true))
  }

  /** `/referral` credits the first active membership, in scan order, whose
      code equals the one given. A record without a count or a referral list
      fails the route with 500 and nothing is written; otherwise the
      credited record is the response and is written, and the referrer's
      user loses `isMember` (best effort) when the credit completes it. */
  lemma ReferralCreditsFirstMatch(s: Store, form: ReferralForm, env: Env, i: int)
    requires Covers(env.membershipScan, s.memberships) && Covers(env.userScan, s.users)
    requires form.referralCode.Some?
    requires FirstMatch(env.membershipScan, s.memberships, CodeMatches(ReferralRouteRule, form.referralCode.value), i)
    ensures var k := env.membershipScan[i];
      var m := s.memberships[k];
      var c := ApplyCredit(m, RouteEntry(form, env), env.now);
      var r := AddReferral(s, form, env);
      && (m.referralCount.None? || m.referrals.None? ==> r == (Err(500, "Failed to add referral"), s))
      && (m.referralCount.Some? && m.referrals.Some? ==>
            && r.0 == Ok(200, c.0)
            && r.1 == s.(memberships := s.memberships[k := c.0],
                         users := if c.1 && env.referrerFlagOk
                                  then SetIsMember(s.users, env.userScan, m.email, false) else s.users))
  {
  }

  /** The body of `POST /claim`: its `type`, `email`, an `id` and an
      `updatedAt` if the member sent them, and every other field in
      `details`. `details` holds no key the claim record has as a field
      (`id`, `type`, `email`, `status`, `submittedAt`, `updatedAt`): a sent
      `status` or `submittedAt` is overwritten by the route, so it is not
      represented. */
  datatype ClaimForm = ClaimForm(kind: string, email: string, id: Option<string>, updatedAt: Option<Time>,
                                 details: map<string, string>)

  /** `POST /claim`: needs a membership for the email. The claim copies the
      submitted fields after the generated id, so a submitted `id` replaces
      it, and so does a submitted `updatedAt`, while `status` and
      `submittedAt` are set after the copy and always win. A cashback or gold claim sets its flag to 'pending_admin'. */
  function SubmitClaim(s: Store, form: ClaimForm, env: Env): (r: (Response<RewardClaim>, Store))
    ensures form.email !in s.memberships ==> r.0 == Err(404, "Membership not found") && r.1 == s
    ensures form.email in s.memberships ==>
      var m := s.memberships[form.email];
      && r.0.Ok? && r.0.code == 201
      && r.0.body.status == "pending" && r.0.body.submittedAt == env.now && r.0.body.updatedAt == form.updatedAt
      && r.0.body.id == (if form.id.Some? then form.id.value else env.uuid)
      && r.0.body.kind == form.kind && r.0.body.email == form.email && r.0.body.details == form.details
      && r.1.claims == s.claims[r.0.body.id := r.0.body]
      && r.1.requests == s.requests && r.1.users == s.users
      && r.1.memberships.Keys == s.memberships.Keys
      && (forall k :: k in s.memberships && k != form.email ==> r.1.memberships[k] == s.memberships[k])
      && r.1.memberships[form.email].moneyBackClaimed
           == (if form.kind == "cashback" then PendingAdmin else m.moneyBackClaimed)
      && r.1.memberships[form.email].goldCoinClaimed
           == (if form.kind == "gold" then PendingAdmin else m.goldCoinClaimed)
      && r.1.memberships[form.email]
           == m.(moneyBackClaimed := r.1.memberships[form.email].moneyBackClaimed,
                 goldCoinClaimed := r.1.memberships[form.email].goldCoinClaimed)
  {
    if form.email !in s.memberships then (Err(404, "Membership not found"), s)
    else
      var claim := RewardClaim(form.id.GetOr(env.uuid), form.kind, form.email, form.details,
        "pending", env.now, form.updatedAt);
      var m := s.memberships[form.email];
      var m' := if form.kind == "cashback" then m.(moneyBackClaimed := PendingAdmin)
                else if form.kind == "gold" then m.(goldCoinClaimed := PendingAdmin)
                else m;
      (Ok(201, claim), s.(claims := s.claims[claim.id := claim], memberships := s.memberships[form.email := m']))
  }

  /** `PUT /claim/:id/status`: the status is stored as given, with no
      transition check. Only 'completed' reaches the membership, and only as
      `true` on the flag of the claim's type. */
  function UpdateClaimStatus(s: Store, id: string, status: string, env: Env): (r: (Response<RewardClaim>, Store))
    ensures id !in s.claims ==> r.0 == Err(404, "Claim not found") && r.1 == s
    ensures id in s.claims ==>
      var claim := s.claims[id];
      && r.0.Ok? && r.0.code == 200
      && r.0.body == claim.(status := status, updatedAt := Some(env.now))
      && r.1.claims == s.claims[id := r.0.body]
      && r.1.requests == s.requests && r.1.users == s.users
      && r.1.memberships.Keys == s.memberships.Keys
      && (forall k :: k in s.memberships && (k != claim.email || status != "completed") ==>
            r.1.memberships[k] == s.memberships[k])
      && (status == "completed" && claim.email in s.memberships ==>
            var m := s.memberships[claim.email];
            r.1.memberships[claim.email] ==
              if claim.kind == "cashback" then m.(moneyBackClaimed := Claimed)
              else if claim.kind == "gold" then m.(goldCoinClaimed := Claimed)
              else m)
  {
    if id !in s.claims then (Err(404, "Claim not found"), s)
    else
      var claim := s.claims[id].(status := status, updatedAt := Some(env.now));
      var s1 := s.(claims := s.claims[id := claim]);
      if status == "completed" && claim.email in s.memberships then
        var m := s.memberships[claim.email];
        var m' := if claim.kind == "cashback" then m.(moneyBackClaimed := Claimed)
                  else if claim.kind == "gold" then m.(goldCoinClaimed := Claimed)
                  else m;
        (Ok(200, claim), s1.(memberships := s.memberships[claim.email := m']))
      else (Ok(200, claim), s1)
  }
}

=== FILE: orders.dfy ===
// Orders (src/routes/orders.js): placing an order, changing its status,
// listing, fetching and public tracking. The orders table's primary key is
// `orderId` with `createdAt` as sort key (src/scripts/createTables.js:40-47),
// but every route finds an order by `orderId` alone (a scan, then `find`).
// The model keys the table by `orderId`, taking generated ids to be unique;
// two orders sharing an id are outside it.

module Orders {
  import opened Wrappers
  import opened JsText
  import opened Http
  import opened Sorting
  import Records

  type Time = Records.Time

  /** A line of the cart, as the client sends it. Amounts are JSON numbers,
      modelled as reals. */
  datatype Item = Item(productId: string, name: string, quantity: int, price: real)

  /** One entry of `statusHistory`. The status is absent when the update
      request carried none. */
  datatype HistoryEntry = HistoryEntry(status: Option<string>, date: Time, note: string)

  datatype Order = Order(
    orderId: string,
    createdAt: Time,
    customer: map<string, string>,
    items: Option<seq<Item>>,
    shippingAddress: map<string, string>,
    paymentMethod: string,
    paymentScreenshotUrl: string,
    subtotal: real,
    shipping: real,
    total: real,
    status: Option<string>,
    paymentStatus: string,
    statusHistory: seq<HistoryEntry>,
    updatedAt: Option<Time>)

  /** The fields of `POST /` the route reads. An absent `items` is not
      stored (the store drops undefined attributes). */
  datatype OrderForm = OrderForm(
    customer: map<string, string>,
    items: Option<seq<Item>>,
    subtotal: real,
    shipping: real,
    total: real,
    paymentMethod: Option<string>)

  const OrderIdPrefix := "ORD-"

  /** `ORD-${Date.now()}-${Math.random().toString(36).substr(2, 9).toUpperCase()}`;
      `random` is the text `Math.random().toString(36)` produced. */
  function OrderId(now: Time, random: string): (id: string)
    ensures var n := |OrderIdPrefix| + |DecimalString(now)|;
      && n < |id| <= n + 1 + 9
      && id[..|OrderIdPrefix|] == OrderIdPrefix
      && id[|OrderIdPrefix|..n] == DecimalString(now)
      && id[n] == '-'
  {
    OrderIdPrefix + DecimalString(now) + "-" + ToUpper(Substr(random, 2, 9))
  }

  /** Reads an order id back into its time stamp and random suffix. */
  function ParseOrderId(id: string): (r: Option<(nat, string)>)
    ensures r.Some? ==> |id| > |OrderIdPrefix| && id[..|OrderIdPrefix|] == OrderIdPrefix
  {
    if |id| < |OrderIdPrefix| || id[..|OrderIdPrefix|] != OrderIdPrefix then None
    else
      var rest := id[|OrderIdPrefix|..];
      var n := DigitRun(rest, 10);
      if n == 0 || n == |rest| || rest[n] != '-' then None
      else
        var digits := rest[..n];
        assert forall i :: 0 <= i < |digits| ==> DigitValue(digits[i], 10).Some?;
        Some((DigitsValue(digits, 10), rest[n + 1..]))
  }

  /** An order id carries the time the order was placed and the random
      suffix, and both are recovered from it. */
  lemma OrderIdRoundTrip(now: Time, random: string)
    ensures ParseOrderId(OrderId(now, random)) == Some((now, ToUpper(Substr(random, 2, 9))))
  {
    var d := DecimalString(now);
    var suffix := ToUpper(Substr(random, 2, 9));
    var id := OrderId(now, random);
    assert id[..|OrderIdPrefix|] == OrderIdPrefix;
    var rest := id[|OrderIdPrefix|..];
    assert rest == d + "-" + suffix;
    DecimalDigitsValue(now);
    assert forall i :: 0 <= i < |d| ==> DigitValue(rest[i], 10).Some? by {
      assert forall i :: 0 <= i < |d| ==> rest[i] == d[i] && IsDigit(d[i]);
    }
    assert rest[|d|] == '-';
    var n := DigitRun(rest, 10);
    assert n == |d|;
    assert rest[..n] == d;
    assert rest[n + 1..] == suffix;
  }

  /** The order's current status is the status of its last history entry. */
  predicate HistoryConsistent(o: Order) {
    |o.statusHistory| > 0 && o.statusHistory[|o.statusHistory| - 1].status == o.status
  }

  predicate OrdersSound(orders: map<string, Order>) {
    forall k :: k in orders ==> orders[k].orderId == k && HistoryConsistent(orders[k])
  }

  /** `paymentMethod || 'UPI'`. */
  function PaymentMethodOf(form: OrderForm): string {
    if form.paymentMethod.Some? && form.paymentMethod.value != "" then form.paymentMethod.value else "UPI"
  }

  /** `POST /`: the order is stored pending with a one-entry history.
      `data` is the parsed order data, None when `orderData` is text that
      `JSON.parse` rejects (or that does not parse to an object), which the
      route answers with 500. `screenshotUrl` is the uploaded screenshot's
      URL, or "" without one. */
  function CreateOrder(orders: map<string, Order>, data: Option<OrderForm>, screenshotUrl: string, now: Time, random: string)
    : (r: (Response<Order>, map<string, Order>))
    ensures data.None? ==> r == (Err(500, "Failed to create order"), orders)
    ensures data.Some? ==> r.0.Ok? && r.0.code == 201
    ensures data.Some? ==>
      var form := data.value;
      var o := r.0.body;
      && ParseOrderId(o.orderId) == Some((now, ToUpper(Substr(random, 2, 9))))
      && o.createdAt == now
      && r.1 == orders[o.orderId := o]
      && o.customer == form.customer && o.shippingAddress == form.customer
      && o.items == form.items
      && o.subtotal == form.subtotal && o.shipping == form.shipping && o.total == form.total
      && o.status == Some("pending")
      && o.statusHistory == [HistoryEntry(Some("pending"), now, "Order placed")]
      && (o.paymentStatus == "submitted" <==> screenshotUrl != "")
      && (o.paymentStatus == "pending" <==> screenshotUrl == "")
      && o.paymentScreenshotUrl == screenshotUrl
      && (form.paymentMethod.Some? && form.paymentMethod.value != "" ==> o.paymentMethod == form.paymentMethod.value)
      && (form.paymentMethod.None? || form.paymentMethod.value == "" ==> o.paymentMethod == "UPI")
      && o.updatedAt.None?
      && HistoryConsistent(o)
  {
    if data.None? then (Err(500, "Failed to create order"), orders)
    else
      var form := data.value;
      OrderIdRoundTrip(now, random);
      var o := Order(
        OrderId(now, random), now, form.customer, form.items, form.customer,
        PaymentMethodOf(form), screenshotUrl, form.subtotal, form.shipping, form.total,
        Some("pending"), if screenshotUrl != "" then "submitted" else "pending",
        [HistoryEntry(Some("pending"), now, "Order placed")], None);
      (Ok(201, o), orders[o.orderId := o])
  }

  /** The note `note || \`Status changed to ${status}\``; an absent status
      prints as `undefined`. */
  function NoteOf(status: Option<string>, note: Option<string>): (r: string)
    ensures note.Some? && note.value != "" ==> r == note.value
    ensures note.None? || note.value == "" ==>
      var shown := status.GetOr("undefined");
      && |r| == 18 + |shown| && r[..18] == "Status changed to " && r[18..] == shown
  {
    if note.Some? && note.value != "" then note.value
    else "Status changed to " + status.GetOr("undefined")
  }

  /** `PUT /:orderId/status`: the status is replaced and a history entry
      recording it is appended; nothing else of the order changes. */
  function UpdateStatus(orders: map<string, Order>, id: string, status: Option<string>, note: Option<string>, now: Time)
    : (r: (Response<Order>, map<string, Order>))
    ensures id !in orders ==> r == (Err(404, "Order not found"), orders)
    ensures id in orders ==>
      var o := orders[id];
      && r.0.Ok? && r.0.code == 200
      && r.1 == orders[id := r.0.body]
      && r.0.body.status == status
      && |r.0.body.statusHistory| == |o.statusHistory| + 1
      && r.0.body.statusHistory[..|o.statusHistory|] == o.statusHistory
      && r.0.body.statusHistory[|o.statusHistory|] == HistoryEntry(status, now, NoteOf(status, note))
      && r.0.body.updatedAt == Some(now)
      && r.0.body.(status := o.status, statusHistory := o.statusHistory, updatedAt := o.updatedAt) == o
  {
    if id !in orders then (Err(404, "Order not found"), orders)
    else
      var o := orders[id];
      var o' := o.(status := status,
                   statusHistory := o.statusHistory + [HistoryEntry(status, now, NoteOf(status, note))],
                   updatedAt := Some(now));
      (Ok(200, o'), orders[id := o'])
  }

  /** `GET /:orderId`. */
  function GetOrder(orders: map<string, Order>, id: string): (r: Response<Order>)
    ensures r.Ok? <==> id in orders
    ensures r.Err? ==> r == Err(404, "Order not found")
    ensures r.Ok? ==> r.code == 200 && r.body == orders[id]
    ensures OrdersSound(orders) && r.Ok? ==> r.body.orderId == id
  {
    if id in orders then Ok(200, orders[id]) else Err(404, "Order not found")
  }

  datatype TrackedItem = TrackedItem(name: string, quantity: int)

  /** What the public tracking endpoint reveals of an order. */
  datatype Tracking = Tracking(
    orderId: string, status: Option<string>, statusHistory: seq<HistoryEntry>, createdAt: Time, items: seq<TrackedItem>)

  /** `GET /track/:orderId`: the order without its customer, address,
      amounts or payment details, items reduced to name and quantity. An
      order stored without items makes `order.items.map` throw: 500. */
  function Track(orders: map<string, Order>, id: string): (r: Response<Tracking>)
    ensures r.Ok? <==> id in orders && orders[id].items.Some?
    ensures id !in orders ==> r == Err(404, "Order not found")
    ensures id in orders && orders[id].items.None? ==> r == Err(500, "Failed to track order")
    ensures r.Ok? ==>
      var o := orders[id];
      var items := o.items.value;
      && r.code == 200
      && r.body.orderId == o.orderId && r.body.status == o.status
      && r.body.statusHistory == o.statusHistory && r.body.createdAt == o.createdAt
      && |r.body.items| == |items|
      && forall i :: 0 <= i < |items| ==>
           r.body.items[i].name == items[i].name && r.body.items[i].quantity == items[i].quantity
  {
    if id !in orders then Err(404, "Order not found")
    else
      var o := orders[id];
      match o.items
      case None => Err(500, "Failed to track order")
      case Some(items) =>
        Ok(200, Tracking(o.orderId, o.status, o.statusHistory, o.createdAt,
                         seq(|items|, i requires 0 <= i < |items| => TrackedItem(items[i].name, items[i].quantity))))
  }

  /** The sort key of the order list: `new Date(b.createdAt) - new Date(a.createdAt)`
      orders by this key ascending. */
  function NewestFirst(o: Order): int {
    0 - o.createdAt
  }

  /** `GET /`: the scanned orders, newest first. */
  function ListOrders(rows: seq<Order>): (r: seq<Order>)
    ensures forall i, j :: 0 <= i < j < |r| ==> r[i].createdAt >= r[j].createdAt
    ensures multiset(r) == multiset(rows)
  {
    SortBy(rows, NewestFirst)
  }

  /** A placed order can be fetched under its id, and tracked, pending,
      exactly when it was placed with items. */
  lemma PlacedOrderIsFound(orders: map<string, Order>, form: OrderForm, screenshotUrl: string, now: Time, random: string)
    ensures var r := CreateOrder(orders, Some(form), screenshotUrl, now, random);
      && GetOrder(r.1, r.0.body.orderId) == Ok(200, r.0.body)
      && (Track(r.1, r.0.body.orderId).Ok? <==> form.items.Some?)
      && (form.items.Some? ==> Track(r.1, r.0.body.orderId).body.status == Some("pending"))
  {
  }

  /** After a status change, tracking (of an order that has items) shows
      the new status and the history ends with it. */
  lemma TrackShowsLatestStatus(orders: map<string, Order>, id: string, status: Option<string>, note: Option<string>, now: Time)
    requires id in orders
    ensures var orders' := UpdateStatus(orders, id, status, note, now).1;
      var t := Track(orders', id);
      && (t.Ok? <==> orders[id].items.Some?)
      && (t.Ok? ==> t.body.status == status
                    && t.body.statusHistory[|t.body.statusHistory| - 1].status == status)
  {
  }

  datatype OrderAction =
    | PlaceOrder(data: Option<OrderForm>, screenshotUrl: string, random: string)
    | ChangeStatus(id: string, status: Option<string>, note: Option<string>)

  function OrderStep(orders: map<string, Order>, a: OrderAction, now: Time): map<string, Order> {
    match a
    case PlaceOrder(data, url, random) => CreateOrder(orders, data, url, now, random).1
    case ChangeStatus(id, status, note) => UpdateStatus(orders, id, status, note, now).1
  }

  function RunOrders(orders: map<string, Order>, trace: seq<(OrderAction, Time)>): map<string, Order>
    decreases |trace|
  {
    if |trace| == 0 then orders else RunOrders(OrderStep(orders, trace[0].0, trace[0].1), trace[1..])
  }

  lemma OrderStepKeepsSound(orders: map<string, Order>, a: OrderAction, now: Time)
    requires OrdersSound(orders)
    ensures OrdersSound(OrderStep(orders, a, now))
  {
    match a
    case PlaceOrder(data, url, random) =>
    case ChangeStatus(id, status, note) =>
      if id in orders {
        var o' := UpdateStatus(orders, id, status, note, now).0.body;
        assert o'.statusHistory[|o'.statusHistory| - 1].status == status;
      }
  }

  /** Whatever sequence of placements and status changes runs, every stored
      order is keyed by its id and its status is its last history entry's. */
  lemma {:induction false} RunOrdersKeepsSound(orders: map<string, Order>, trace: seq<(OrderAction, Time)>)
    requires OrdersSound(orders)
    ensures OrdersSound(RunOrders(orders, trace))
    decreases |trace|
  {
    if |trace| > 0 {
      OrderStepKeepsSound(orders, trace[0].0, trace[0].1);
      RunOrdersKeepsSound(OrderStep(orders, trace[0].0, trace[0].1), trace[1..]);
    }
  }
}

=== FILE: products.dfy ===
// Products (src/routes/products.js): create, update, fetch and delete. The
// form arrives as multipart text fields; `price` and `originalPrice` are
// given as the values `parseFloat` produced. Uploaded images arrive as the
// URLs their uploads returned. The store refuses a NaN number, so a NaN
// price ends in the route's 500 answer.

module Products {
  import opened Wrappers
  import opened Http
  import opened Slug
  import opened S3
  import Records

  type Time = Records.Time

  /** A JavaScript number as `parseFloat` returns it. */
  datatype JsNumber = Num(value: real) | NaN

  datatype Product = Product(
    id: string,
    name: string,
    slug: string,
    price: real,
    originalPrice: Option<real>,
    category: Option<string>,
    description: Option<string>,
    material: Option<string>,
    color: Option<string>,
    weight: Option<string>,
    blouseIncluded: bool,
    images: seq<string>,
    rating: int,
    reviews: int,
    createdAt: Time,
    updatedAt: Option<Time>,
    /** Attributes of the stored item no route writes. */
    extra: map<string, string>)

  /** The form fields create and update read; absent fields are None. */
  datatype ProductForm = ProductForm(
    name: Option<string>,
    price: JsNumber,
    originalPrice: JsNumber,
    category: Option<string>,
    description: Option<string>,
    material: Option<string>,
    color: Option<string>,
    weight: Option<string>,
    blouseIncluded: Option<string>)

  /** The `existingImages` field of an update: absent or empty, a JSON list
      of URLs, or text `JSON.parse` rejects. */
  datatype ExistingImages = NoImages | ImageList(urls: seq<string>) | Unparseable

  /** `parseFloat(originalPrice) || null`: zero and NaN become null. */
  function OriginalPriceOf(n: JsNumber): (r: Option<real>)
    ensures r.Some? <==> n.Num? && n.value != 0.0
    ensures r.Some? ==> r.value == n.value
  {
    if n.Num? && n.value != 0.0 then Some(n.value) else None
  }

  /** `blouseIncluded === 'true'`. */
  function BlouseOf(field: Option<string>): (r: bool)
    ensures r <==> field == Some("true")
  {
    field == Some("true")
  }

  /** The form's part of a product, laid over `base`. */
  function ApplyForm(base: Product, form: ProductForm, images: seq<string>): (p: Product)
    requires form.name.Some? && form.price.Num?
    ensures ShowsForm(p, form, images)
    ensures p.id == base.id && p.rating == base.rating && p.reviews == base.reviews
    ensures p.createdAt == base.createdAt && p.updatedAt == base.updatedAt && p.extra == base.extra
  {
    base.(name := form.name.value, slug := Slugify(form.name.value),
          price := form.price.value, originalPrice := OriginalPriceOf(form.originalPrice),
          category := form.category, description := form.description, material := form.material,
          color := form.color, weight := form.weight, blouseIncluded := BlouseOf(form.blouseIncluded),
          images := images)
  }

  /** The product holds exactly what the form says, with these images. */
  predicate ShowsForm(p: Product, form: ProductForm, images: seq<string>) {
    && form.name == Some(p.name)
    && IsSlug(p.slug) && p.slug == Slugify(p.name)
    && form.price == Num(p.price)
    && (p.originalPrice.Some? <==> form.originalPrice.Num? && form.originalPrice.value != 0.0)
    && (p.originalPrice.Some? ==> p.originalPrice.value == form.originalPrice.value)
    && p.category == form.category && p.description == form.description
    && p.material == form.material && p.color == form.color && p.weight == form.weight
    && (p.blouseIncluded <==> form.blouseIncluded == Some("true"))
    && p.images == images
  }

  /** `POST /`: a product with a fresh id, the uploaded images, no rating and
      no reviews. A missing name makes the slug computation throw. */
  function CreateProduct(products: map<string, Product>, form: ProductForm, uploads: seq<string>, uuid: string, now: Time)
    : (r: (Response<Product>, map<string, Product>))
    ensures r.0.Ok? <==> form.name.Some? && form.price.Num?
    ensures r.0.Err? ==> r == (Err(500, "Failed to create product"), products)
    ensures r.0.Ok? ==>
      var p := r.0.body;
      && r.0.code == 201
      && r.1 == products[uuid := p]
      && p.id == uuid && p.createdAt == now && p.updatedAt.None?
      && ShowsForm(p, form, uploads)
      && p.rating == 0 && p.reviews == 0 && p.extra == map[]
  {
    if form.name.None? || form.price.NaN? then (Err(500, "Failed to create product"), products)
    else
      var blank := Product(uuid, "", "", 0.0, None, None, None, None, None, None, false, [], 0, 0, now, None, map[]);
      var p := ApplyForm(blank, form, uploads);
      (Ok(201, p), products[uuid := p])
  }

  /** `PUT /:id`: the stored product with every form field replaced (an
      absent field removes the attribute) and its images set to the kept
      list followed by the new uploads. Id, rating, reviews, creation time and
      attributes outside the form are kept. */
  function UpdateProduct(products: map<string, Product>, id: string, form: ProductForm,
                         existing: ExistingImages, uploads: seq<string>, now: Time)
    : (r: (Response<Product>, map<string, Product>))
    ensures id !in products ==> r == (Err(404, "Product not found"), products)
    ensures id in products ==>
      (r.0.Ok? <==> !existing.Unparseable? && form.name.Some? && form.price.Num?)
    ensures id in products && r.0.Err? ==> r == (Err(500, "Failed to update product"), products)
    ensures r.0.Ok? ==>
      var before := products[id];
      var p := r.0.body;
      && r.0.code == 200
      && r.1 == products[id := p]
      && ShowsForm(p, form, (if existing.ImageList? then existing.urls else []) + uploads)
      && p.id == before.id && p.rating == before.rating && p.reviews == before.reviews
      && p.createdAt == before.createdAt && p.extra == before.extra
      && p.updatedAt == Some(now)
  {
    if id !in products then (Err(404, "Product not found"), products)
    else if existing.Unparseable? || form.name.None? || form.price.NaN? then (Err(500, "Failed to update product"), products)
    else
      var kept := if existing.ImageList? then existing.urls else [];
      var p := ApplyForm(products[id], form, kept + uploads).(updatedAt := Some(now));
      (Ok(200, p), products[id := p])
  }

  /** `GET /:id`. */
  function GetProduct(products: map<string, Product>, id: string): (r: Response<Product>)
    ensures r.Ok? <==> id in products
    ensures r.Err? ==> r == Err(404, "Product not found")
    ensures r.Ok? ==> r.code == 200 && r.body == products[id]
  {
    if id in products then Ok(200, products[id]) else Err(404, "Product not found")
  }

  /** `DELETE /:id`: the product is removed after a delete is sent for the
      key of each of its images; the third component lists those keys. */
  function DeleteProduct(products: map<string, Product>, id: string): (r: (Response<string>, map<string, Product>, seq<string>))
    ensures id !in products ==> r == (Err(404, "Product not found"), products, [])
    ensures id in products ==>
      && r.0 == Ok(200, "Product deleted successfully")
      && r.1.Keys == products.Keys - {id}
      && (forall k :: k in r.1 ==> r.1[k] == products[k])
      && (forall key :: key in r.2 <==> exists i :: 0 <= i < |products[id].images| && KeyOf(products[id].images[i]) == Some(key))
  {
    if id !in products then (Err(404, "Product not found"), products, [])
    else (Ok(200, "Product deleted successfully"), products - {id}, KeysOf(products[id].images))
  }

  /** A created product is found under its id, as it was answered. */
  lemma CreatedProductIsFound(products: map<string, Product>, form: ProductForm, uploads: seq<string>, uuid: string, now: Time)
    requires form.name.Some? && form.price.Num?
    ensures var r := CreateProduct(products, form, uploads, uuid, now);
      GetProduct(r.1, uuid) == Ok(200, r.0.body)
  {
  }

  /** An update replaces the form's attributes, so one the form leaves out
      is removed rather than kept: updating without a category clears it. */
  lemma UpdateWithoutFieldClearsIt(products: map<string, Product>, id: string, form: ProductForm,
                                   existing: ExistingImages, uploads: seq<string>, now: Time)
    requires id in products && !existing.Unparseable? && form.name.Some? && form.price.Num?
    requires form.category.None?
    ensures UpdateProduct(products, id, form, existing, uploads, now).0.body.category.None?
  {
  }

  /** Sending the same update twice, keeping the images the first one left
      and uploading nothing more, changes nothing but the update time. */
  lemma UpdateIdempotent(products: map<string, Product>, id: string, form: ProductForm, existing: ExistingImages,
                         uploads: seq<string>, now: Time, later: Time)
    requires id in products && !existing.Unparseable? && form.name.Some? && form.price.Num?
    ensures var r := UpdateProduct(products, id, form, existing, uploads, now);
      var r' := UpdateProduct(r.1, id, form, ImageList(r.0.body.images), [], later);
      r'.0.body == r.0.body.(updatedAt := Some(later))
  {
    var r := UpdateProduct(products, id, form, existing, uploads, now);
    assert r.0.body.images + [] == r.0.body.images;
  }

  /** Deleting a product whose images all carry a key sends one delete per
      image, in order. */
  lemma DeleteSendsEveryKey(products: map<string, Product>, id: string)
    requires id in products
    requires forall i :: 0 <= i < |products[id].images| ==> KeyOf(products[id].images[i]).Some?
    ensures var keys := DeleteProduct(products, id).2;
      && |keys| == |products[id].images|
      && forall i :: 0 <= i < |keys| ==> keys[i] == KeyOf(products[id].images[i]).value
  {
    KeysOfAllKeyed(products[id].images);
  }
}

=== FILE: referral.dfy ===
// The records of the membership and referral engine, and the referral
// crediting shared by membership approval, user registration and the
// `/referral` route (src/routes/memberships.js, src/routes/auth.js).

module Records {
  import opened Wrappers

  /** An ISO timestamp, as milliseconds since the epoch. */
  type Time = nat

  /** A membership's `status`. Only 'active' and 'completed' are written by
      these routes; any other stored value is carried as `OtherStatus`. */
  datatype MembershipStatus = Active | Completed | OtherStatus(text: string)

  /** `moneyBackClaimed` / `goldCoinClaimed`: `false`, the sentinel
      'pending_admin', or `true`. */
  datatype ClaimFlag = NotClaimed | PendingAdmin | Claimed

  /** The `type` of a referral entry. */
  datatype ReferralKind = RegistrationReferral | MembershipReferral

  /** One entry of `referrals`. The `/referral` route records neither an
      email nor a type. */
  datatype Referral = Referral(name: string, email: Option<string>, date: Time, kind: Option<ReferralKind>)

  /** A row of the memberships table, keyed by `email`. `referralCount` is
      None when the stored value is missing or not a number, `referrals` is
      None when the attribute is missing. */
  datatype Membership = Membership(
    email: string,
    name: string,
    mobile: string,
    referralCode: string,
    referralCount: Option<int>,
    referrals: Option<seq<Referral>>,
    moneyBackClaimed: ClaimFlag,
    goldCoinClaimed: ClaimFlag,
    status: MembershipStatus,
    activatedAt: Time,
    completedAt: Option<Time>)

  datatype RequestStatus = Pending | Approved | Rejected

  /** A row of the membership requests table, keyed by `id`. An absent
      referral code is stored as the empty string. */
  datatype MembershipRequest = MembershipRequest(
    id: string,
    name: string,
    email: string,
    mobile: string,
    referralCode: string,
    screenshotUrl: string,
    status: RequestStatus,
    submittedAt: Time,
    approvedAt: Option<Time>,
    rejectedAt: Option<Time>)

  /** A row of the reward claims table, keyed by `id`. `kind` is the claim's
      `type` and `details` the other fields the member submitted; `status`
      holds whatever the admin last wrote. */
  datatype RewardClaim = RewardClaim(
    id: string,
    kind: string,
    email: string,
    details: map<string, string>,
    status: string,
    submittedAt: Time,
    updatedAt: Option<Time>)

  /** A row of the users table, keyed by `mobile`; `password` is the bcrypt hash. */
  datatype User = User(
    id: string,
    name: string,
    mobile: string,
    email: string,
    address: string,
    password: string,
    referralId: string,
    isMember: bool,
    createdAt: Time)

  /** The four tables the engine reads and writes. */
  datatype Store = Store(
    memberships: map<string, Membership>,
    requests: map<string, MembershipRequest>,
    claims: map<string, RewardClaim>,
    users: map<string, User>)

  /** What one handler invocation receives from outside the code: the clock,
      a fresh `uuidv4()`, the text of `Math.random().toString(36)`, the order
      in which scans return the memberships and users tables, and whether each
      best-effort write (inside its own try/catch) succeeds. */
  datatype Env = Env(
    now: Time,
    uuid: string,
    random: string,
    membershipScan: seq<string>,
    userScan: seq<string>,
    memberFlagOk: bool,
    referrerFlagOk: bool,
    creditOk: bool)

  /** Every item is stored under its own key attribute. */
  predicate WellKeyed(s: Store) {
    && (forall k :: k in s.memberships ==> s.memberships[k].email == k)
    && (forall k :: k in s.requests ==> s.requests[k].id == k)
    && (forall k :: k in s.claims ==> s.claims[k].id == k)
    && (forall k :: k in s.users ==> s.users[k].mobile == k)
  }
}

module Crediting {
  import opened Wrappers
  import opened JsText
  import opened Records
  import opened Tables

  /** The referral count at which a membership is completed. */
  const CompletionGoal: int := 7

  function Min(a: int, b: int): int { if a <= b then a else b }

  /** `generateReferralCode(name)`: the first three characters of the name,
      then characters 2 to 6 of `Math.random().toString(36)` (given here as
      `random`), all upper-cased. */
  function GenerateReferralCode(name: string, random: string): (code: string)
    ensures var p := Min(3, |name|);
      && p <= |code| <= p + 4
      && code[..p] == ToUpper(name[..p])
      && (|random| >= 2 ==> code[p..] == ToUpper(random[2..Min(6, |random|)]))
      && (|random| < 2 ==> |code| == p)
    ensures ToUpper(code) == code
  {
    var prefix := ToUpper(Substring(name, 0, 3));
    var suffix := ToUpper(Substring(random, 2, 6));
    UpperIdempotent(Substring(name, 0, 3));
    UpperIdempotent(Substring(random, 2, 6));
    UpperConcat(prefix, suffix);
    prefix + suffix
  }

  /** How a code given by a new member is compared with stored codes. The
      three call sites differ in both respects: approval trims, upper-cases
      and accepts completed referrers; registration trims and upper-cases but
      accepts only active ones; `/referral` compares exactly, active only. */
  datatype MatchRule = MatchRule(normalize: bool, acceptCompleted: bool)

  const ApprovalRule := MatchRule(true, true)
  const RegistrationRule := MatchRule(true, false)
  const ReferralRouteRule := MatchRule(false, false)

  /** `code.trim().toUpperCase()`. */
  function Normalize(code: string): string {
    ToUpper(Trim(code))
  }

  /** The `find` predicate of each call site. With normalisation the stored
      code must also be truthy (non-empty). */
  predicate Matches(rule: MatchRule, m: Membership, code: string): (b: bool)
    ensures b ==> m.status == Active || m.status == Completed
    ensures b && m.status == Completed ==> rule.acceptCompleted
    ensures b && !rule.normalize ==> m.referralCode == code
    ensures b && rule.normalize ==> m.referralCode != "" && ToUpper(Trim(m.referralCode)) == ToUpper(Trim(code))
    ensures m.status == Active && !rule.normalize && m.referralCode == code ==> b
    ensures (m.status == Active && rule.normalize && m.referralCode != ""
             && ToUpper(Trim(m.referralCode)) == ToUpper(Trim(code))) ==> b
  {
    && (if rule.normalize then m.referralCode != "" && Normalize(m.referralCode) == Normalize(code)
        else m.referralCode == code)
    && (m.status == Active || (rule.acceptCompleted && m.status == Completed))
  }

  /** `Number(referralCount) || 0`. */
  function CountOf(m: Membership): int {
    m.referralCount.GetOr(0)
  }

  /** `referrals || []`. */
  function ReferralsOf(m: Membership): seq<Referral> {
    m.referrals.GetOr([])
  }

  /** The count matches the number of recorded referrals. */
  predicate CountTracked(m: Membership) {
    m.referralCount.Some? && m.referrals.Some? && m.referralCount.value == |m.referrals.value|
  }

  /** The completion milestone: a membership that has reached the goal and is
      not yet completed becomes completed at `now`. The flag says whether the
      transition fired (and with it the reset of the referrer's `isMember`). */
  function Milestone(m: Membership, now: Time): (r: (Membership, bool))
    ensures r.1 <==> m.referralCount.Some? && m.referralCount.value >= CompletionGoal && m.status != Completed
    ensures !r.1 ==> r.0 == m
    ensures r.1 ==> r.0 == m.(status := Completed, completedAt := Some(now))
    ensures r.0.status == Completed <==> r.1 || m.status == Completed
  {
    if m.referralCount.Some? && m.referralCount.value >= CompletionGoal && m.status != Completed then
      (m.(status := Completed, completedAt := Some(now)), true)
    else (m, false)
  }

  /** One credit: the count goes up by one, the entry is appended, then the
      milestone is checked. */
  function ApplyCredit(m: Membership, entry: Referral, now: Time): (r: (Membership, bool))
    ensures r.0.referralCount == Some(CountOf(m) + 1)
    ensures r.0.referrals == Some(ReferralsOf(m) + [entry])
    ensures CountTracked(m) ==> CountTracked(r.0)
    ensures r.0 == m.(referralCount := r.0.referralCount, referrals := r.0.referrals,
                      status := r.0.status, completedAt := r.0.completedAt)
    ensures r.1 <==> CountOf(m) + 1 >= CompletionGoal && m.status != Completed
    ensures r.0.status == (if r.1 then Completed else m.status)
    ensures r.0.completedAt == (if r.1 then Some(now) else m.completedAt)
  {
    var bumped := m.(referralCount := Some(CountOf(m) + 1), referrals := Some(ReferralsOf(m) + [entry]));
    Milestone(bumped, now)
  }

  /** The `find` predicate `u => u.email === email`. */
  function EmailIs(email: string): User -> bool {
    (u: User) => u.email == email
  }

  /** The `find` predicate of a call site looking for a referrer. */
  function CodeMatches(rule: MatchRule, code: string): Membership -> bool {
    (m: Membership) => Matches(rule, m, code)
  }

  /** Sets `isMember` on the first user, in scan order, with this email; no
      user changes when the scan shows none with it. */
  function SetIsMember(users: map<string, User>, scan: seq<string>, email: string, value: bool): (r: map<string, User>)
    ensures r.Keys == users.Keys
    ensures forall k :: k in users && users[k].email != email ==> r[k] == users[k]
    ensures forall k :: k in users ==> r[k] == users[k] || r[k] == users[k].(isMember := value)
    ensures (forall i :: 0 <= i < |scan| && scan[i] in users ==> users[scan[i]].email != email) ==> r == users
    ensures forall i :: FirstMatch(scan, users, EmailIs(email), i) ==>
      r == users[scan[i] := users[scan[i]].(isMember := value)]
  {
    match FindFirst(scan, users, EmailIs(email))
    case None => users
    case Some(k) => users[k := users[k].(isMember := value)]
  }

  /** The referrer a code selects under a rule: the first matching
      membership in scan order. */
  function FindReferrer(s: Store, code: string, rule: MatchRule, env: Env): (r: Option<string>)
    ensures r.Some? ==> r.value in s.memberships && Matches(rule, s.memberships[r.value], code)
    ensures r.None? <==> forall i :: 0 <= i < |env.membershipScan| && env.membershipScan[i] in s.memberships ==>
      !Matches(rule, s.memberships[env.membershipScan[i]], code)
    ensures r.Some? ==> exists i :: FirstMatch(env.membershipScan, s.memberships, CodeMatches(rule, code), i)
    ensures forall i :: FirstMatch(env.membershipScan, s.memberships, CodeMatches(rule, code), i) ==>
      r == Some(env.membershipScan[i])
  {
    FindFirst(env.membershipScan, s.memberships, CodeMatches(rule, code))
  }

  /** The best-effort crediting block of approval and registration: find the
      referrer, credit it, on completion reset its user's `isMember` (its own
      try/catch), then write the referrer back. A failure anywhere in the
      block (`creditOk` false) loses the membership write but never the
      caller's response. */
  function CreditReferrer(s: Store, code: string, rule: MatchRule, entry: Referral, env: Env): (r: Store)
    requires Covers(env.membershipScan, s.memberships)
    ensures r.requests == s.requests && r.claims == s.claims
    ensures r.memberships.Keys == s.memberships.Keys && r.users.Keys == s.users.Keys
    ensures forall k :: k in s.memberships && !Matches(rule, s.memberships[k], code) ==>
      r.memberships[k] == s.memberships[k]
    ensures forall k :: k in s.memberships && r.memberships[k] != s.memberships[k] ==>
      env.creditOk && r.memberships[k] == ApplyCredit(s.memberships[k], entry, env.now).0
    ensures (forall k :: k in s.memberships ==> !Matches(rule, s.memberships[k], code)) ==> r == s
    ensures forall k :: k in s.users ==> r.users[k] == s.users[k] || r.users[k] == s.users[k].(isMember := false)
  {
    match FindReferrer(s, code, rule, env)
    case None =>
      FindNoneMeansNoMatch(env.membershipScan, s.memberships, CodeMatches(rule, code));
      s
    case Some(k) =>
      CreditAt(s, k, entry, env, env.creditOk)
  }

  /** Crediting the membership stored under `k`: it is written back credited
      when `write` holds, and its user's `isMember` is reset (best effort)
      when the credit completes it. Nothing else changes. */
  function CreditAt(s: Store, k: string, entry: Referral, env: Env, write: bool): (r: Store)
    requires k in s.memberships
    ensures r.requests == s.requests && r.claims == s.claims
    ensures r.memberships.Keys == s.memberships.Keys && r.users.Keys == s.users.Keys
    ensures forall j :: j in s.memberships && j != k ==> r.memberships[j] == s.memberships[j]
    ensures r.memberships[k] == (if write then ApplyCredit(s.memberships[k], entry, env.now).0 else s.memberships[k])
    ensures forall u :: u in s.users ==> r.users[u] == s.users[u] || r.users[u] == s.users[u].(isMember := false)
  {
    var referrer := s.memberships[k];
    var (credited, graduated) := ApplyCredit(referrer, entry, env.now);
    var users := if graduated && env.referrerFlagOk
      then SetIsMember(s.users, env.userScan, referrer.email, false) else s.users;
    var memberships := if write then s.memberships[k := credited] else s.memberships;
    s.(memberships := memberships, users := users)
  }

  /** The referrer credited is the first membership, in scan order, that the
      rule matches: its credited form is written back when the write
      succeeds, and its user's `isMember` is reset exactly when the credit
      completes it and that update succeeds. */
  lemma CreditsFirstMatch(s: Store, code: string, rule: MatchRule, entry: Referral, env: Env, i: int)
    requires Covers(env.membershipScan, s.memberships)
    requires FirstMatch(env.membershipScan, s.memberships, CodeMatches(rule, code), i)
    ensures var k := env.membershipScan[i];
      var c := ApplyCredit(s.memberships[k], entry, env.now);
      var r := CreditReferrer(s, code, rule, entry, env);
      && r.memberships == (if env.creditOk then s.memberships[k := c.0] else s.memberships)
      && r.users == (if c.1 && env.referrerFlagOk
                     then SetIsMember(s.users, env.userScan, s.memberships[k].email, false) else s.users)
      && r.requests == s.requests && r.claims == s.claims
  {
    var k := env.membershipScan[i];
    assert FindReferrer(s, code, rule, env) == Some(k);
    assert CreditReferrer(s, code, rule, entry, env) == CreditAt(s, k, entry, env, env.creditOk);
  }

  /** Some membership matches exactly when the scan has a first match. */
  lemma {:induction false} SomeMatchHasFirst(s: Store, code: string, rule: MatchRule, env: Env)
    requires Covers(env.membershipScan, s.memberships)
    ensures (exists k :: k in s.memberships && Matches(rule, s.memberships[k], code)) <==>
      exists i :: FirstMatch(env.membershipScan, s.memberships, CodeMatches(rule, code), i)
  {
    if FindReferrer(s, code, rule, env).None? {
      FindNoneMeansNoMatch(env.membershipScan, s.memberships, CodeMatches(rule, code));
    }
  }

  /** Crediting changes at most one membership. */
  lemma CreditChangesAtMostOne(s: Store, code: string, rule: MatchRule, entry: Referral, env: Env, a: string, b: string)
    requires Covers(env.membershipScan, s.memberships)
    requires a in s.memberships && b in s.memberships
    requires CreditReferrer(s, code, rule, entry, env).memberships[a] != s.memberships[a]
    requires CreditReferrer(s, code, rule, entry, env).memberships[b] != s.memberships[b]
    ensures a == b
  {
  }

  /** The milestone is idempotent: once it has fired, checking again changes
      nothing and does not fire the `isMember` reset a second time. */
  lemma MilestoneIdempotent(m: Membership, now: Time, later: Time)
    ensures Milestone(Milestone(m, now).0, later) == (Milestone(m, now).0, false)
  {
  }

  /** A membership that is already completed keeps its completion time and
      status under any further credit. */
  lemma CompletedStaysCompleted(m: Membership, entry: Referral, now: Time)
    requires m.status == Completed
    ensures ApplyCredit(m, entry, now).0.status == Completed
    ensures ApplyCredit(m, entry, now).0.completedAt == m.completedAt
    ensures !ApplyCredit(m, entry, now).1
  {
  }

  /** Registration never credits a completed membership, whatever its code. */
  lemma RegistrationSkipsCompleted(s: Store, code: string, entry: Referral, env: Env, k: string)
    requires Covers(env.membershipScan, s.memberships)
    requires k in s.memberships && s.memberships[k].status == Completed
    ensures CreditReferrer(s, code, RegistrationRule, entry, env).memberships[k] == s.memberships[k]
  {
  }

  /** Approval and registration ignore surrounding white space and letter
      case in the code given; `/referral` does not. */
  lemma NormalizedRulesIgnoreCase(m: Membership, code: string)
    requires m.referralCode != "" && (m.status == Active || m.status == Completed)
    ensures Matches(ApprovalRule, m, code) <==> Normalize(m.referralCode) == Normalize(code)
    ensures m.status == Active ==>
      (Matches(RegistrationRule, m, code) <==> Normalize(m.referralCode) == Normalize(code))
    ensures Matches(ReferralRouteRule, m, code) <==> m.referralCode == code && m.status == Active
  {
  }

  /** A freshly generated code is matched, on the normalising paths, by the
      same code typed in any letter case with white space around it. */
  lemma {:induction false} GeneratedCodeMatchesAnyCase(name: string, random: string, typed: string, m: Membership)
    requires m.referralCode == GenerateReferralCode(name, random) && m.referralCode != ""
    requires m.status == Active
    requires |m.referralCode| > 0 ==> !IsWhitespace(m.referralCode[0]) && !IsWhitespace(m.referralCode[|m.referralCode| - 1])
    requires ToUpper(Trim(typed)) == m.referralCode
    ensures Matches(ApprovalRule, m, typed) && Matches(RegistrationRule, m, typed)
  {
    TrimOfTrimmed(m.referralCode);
  }
}

=== FILE: s3.dfy ===
// Object keys and public URLs of uploaded images (src/services/s3.js). The
// upload and delete commands themselves are I/O; what is modelled is the key
// an upload writes, the URL it returns, and the key a delete is sent for.

module S3 {
  import opened Wrappers
  import opened JsText

  const KeyPrefix := "products/"
  const HostSeparator := ".amazonaws.com/"

  /** `products/${uuidv4()}-${fileName}`. */
  function ObjectKey(uuid: string, fileName: string): (k: string)
    ensures |k| > |KeyPrefix| && k[..|KeyPrefix|] == KeyPrefix
  {
    KeyPrefix + uuid + "-" + fileName
  }

  /** The public URL `uploadImage` returns for a key. */
  function PublicUrl(bucket: string, region: string, key: string): (url: string)
    ensures |url| >= 8 + |HostSeparator| + |key| && url[..8] == "https://"
    ensures url[|url| - |key|..] == key
    ensures url[|url| - |key| - |HostSeparator|..|url| - |key|] == HostSeparator
  {
    "https://" + bucket + ".s3." + region + HostSeparator + key
  }

  /** The key `deleteImage(url)` sends a delete command for, or None when it
      returns `false` without one (`if (!key) return false`). */
  function KeyOf(url: string): (r: Option<string>)
    ensures r.Some? ==> r.value != "" && !Contains(r.value, HostSeparator)
    ensures r.None? <==> (!Contains(url, HostSeparator) || SecondField(url, HostSeparator) == Some(""))
  {
    var field := SecondField(url, HostSeparator);
    if field.None? || field.value == "" then None else field
  }

  /** Neither bucket nor region holds a slash. */
  predicate HostPartsPlain(bucket: string, region: string) {
    (forall i :: 0 <= i < |bucket| ==> bucket[i] != '/') && (forall i :: 0 <= i < |region| ==> region[i] != '/')
  }

  lemma NoEarlySeparator(host: string, key: string)
    requires |host| >= 8 && forall i :: 8 <= i < |host| ==> host[i] != '/'
    ensures forall j :: 0 <= j < |host| ==> !OccursAt(host + HostSeparator + key, HostSeparator, j)
  {
    var url := host + HostSeparator + key;
    forall k | 8 <= k < |host| + 14
      ensures url[k] != '/'
    {
      if k < |host| {
        assert url[k] == host[k];
      } else {
        assert url[k] == HostSeparator[k - |host|];
      }
    }
    forall j | 0 <= j < |host|
      ensures !OccursAt(url, HostSeparator, j)
    {
      assert url[j + 14] != '/';
    }
  }

  /** The key of a URL `uploadImage` returned is the key it wrote, provided
      the bucket and region hold no slash and the key does not contain the
      host separator. */
  lemma KeyOfPublicUrl(bucket: string, region: string, key: string)
    requires HostPartsPlain(bucket, region)
    requires key != "" && !Contains(key, HostSeparator)
    ensures KeyOf(PublicUrl(bucket, region, key)) == Some(key)
  {
    var host := "https://" + bucket + ".s3." + region;
    var url := PublicUrl(bucket, region, key);
    assert url == host + HostSeparator + key;
    assert forall i :: 8 <= i < |host| ==> host[i] != '/' by {
      forall i | 8 <= i < |host|
        ensures host[i] != '/'
      {
        if i < 8 + |bucket| {
          assert host[i] == bucket[i - 8];
        } else if i < 8 + |bucket| + 4 {
          assert host[i] == ".s3."[i - 8 - |bucket|];
        } else {
          assert host[i] == region[i - 12 - |bucket|];
        }
      }
    }
    NoEarlySeparator(host, key);
    assert url[|host|..|host| + |HostSeparator|] == HostSeparator;
    IndexOfIs(url, HostSeparator, |host|);
    assert url[|host| + |HostSeparator|..] == key;
  }

  /** An uploaded image can be deleted: its URL yields its object key. */
  lemma UploadedImageIsDeletable(bucket: string, region: string, uuid: string, fileName: string)
    requires HostPartsPlain(bucket, region)
    requires !Contains(ObjectKey(uuid, fileName), HostSeparator)
    ensures KeyOf(PublicUrl(bucket, region, ObjectKey(uuid, fileName))) == Some(ObjectKey(uuid, fileName))
  {
    KeyOfPublicUrl(bucket, region, ObjectKey(uuid, fileName));
  }

  /** The keys the deletes for a list of image URLs are sent for, in order;
      URLs without a key are skipped. */
  function KeysOf(urls: seq<string>): (r: seq<string>)
    ensures |r| <= |urls|
    ensures forall k :: k in r <==> exists i :: 0 <= i < |urls| && KeyOf(urls[i]) == Some(k)
  {
    if |urls| == 0 then []
    else
      var rest := KeysOf(urls[1..]);
      assert forall i :: 1 <= i < |urls| ==> urls[i] == urls[1..][i - 1];
      match KeyOf(urls[0])
      case None => rest
      case Some(k) => [k] + rest
  }

  /** When every URL has a key, one delete goes out per URL, in order. */
  lemma {:induction false} KeysOfAllKeyed(urls: seq<string>)
    requires forall i :: 0 <= i < |urls| ==> KeyOf(urls[i]).Some?
    ensures |KeysOf(urls)| == |urls|
    ensures forall i :: 0 <= i < |urls| ==> KeysOf(urls)[i] == KeyOf(urls[i]).value
  {
    if |urls| > 0 {
      KeysOfAllKeyed(urls[1..]);
    }
  }
}

=== FILE: slug.dfy ===
// The slug products and categories derive from their name:
//   name.toLowerCase().replace(/[^a-z0-9]+/g, '-').replace(/(^-|-$)/g, '')
// Case mapping is ASCII-only (JsText.LowerChar).

module Slug {
  import opened JsText

  /** `[a-z0-9]`. */
  predicate IsSlugChar(c: char) {
    IsAsciiLower(c) || IsDigit(c)
  }

  /** The letters and digits of `s`, in order. */
  function Alnums(s: string): (r: string)
    ensures |r| <= |s|
  {
    if |s| == 0 then ""
    else if IsSlugChar(s[0]) then [s[0]] + Alnums(s[1..])
    else Alnums(s[1..])
  }

  /** No two adjacent hyphens. */
  predicate NoDoubleHyphen(s: string) {
    forall i, j :: 0 <= i < |s| && 0 <= j < |s| && j == i + 1 ==> s[i] != '-' || s[j] != '-'
  }

  /** A well-formed slug: letters, digits and single inner hyphens. */
  predicate IsSlug(s: string) {
    && (forall i :: 0 <= i < |s| ==> IsSlugChar(s[i]) || s[i] == '-')
    && NoDoubleHyphen(s)
    && (|s| > 0 ==> s[0] != '-' && s[|s| - 1] != '-')
  }

  /** Drops the maximal leading run of characters outside `[a-z0-9]`. */
  function SkipRun(s: string): (r: string)
    ensures |r| <= |s|
    ensures |r| > 0 ==> IsSlugChar(r[0])
    ensures Alnums(r) == Alnums(s)
  {
    if |s| > 0 && !IsSlugChar(s[0]) then SkipRun(s[1..]) else s
  }

  /** What is left after the skipped run is a suffix of the input. */
  lemma {:induction false} SkipRunSuffix(s: string)
    ensures SkipRun(s) == s[|s| - |SkipRun(s)|..]
    decreases |s|
  {
    if |s| > 0 && !IsSlugChar(s[0]) {
      SkipRunSuffix(s[1..]);
    }
  }

  /** When the whole string is skipped, it ends outside `[a-z0-9]`. */
  lemma {:induction false} SkipAllEndsOutside(s: string)
    requires |s| > 0 && SkipRun(s) == ""
    ensures !IsSlugChar(s[|s| - 1])
    decreases |s|
  {
    if |s| > 1 {
      SkipAllEndsOutside(s[1..]);
      assert s[|s| - 1] == s[1..][|s| - 2];
    }
  }

  /** Every character is in `[a-z0-9]`. */
  predicate AllSlugChars(w: string) {
    forall i :: 0 <= i < |w| ==> IsSlugChar(w[i])
  }

  /** Non-empty words of `[a-z0-9]` characters. */
  predicate WordList(ws: seq<string>) {
    forall i :: 0 <= i < |ws| ==> |ws[i]| > 0 && AllSlugChars(ws[i])
  }

  /** Begins and ends with a letter or digit. */
  predicate SlugEnds(r: string) {
    |r| > 0 && IsSlugChar(r[0]) && IsSlugChar(r[|r| - 1])
  }

  /** The length of the leading run of `[a-z0-9]` characters. */
  function RunLength(s: string): (n: nat)
    decreases |s|
    ensures n <= |s|
    ensures AllSlugChars(s[..n])
    ensures n < |s| ==> !IsSlugChar(s[n])
  {
    if |s| > 0 && IsSlugChar(s[0]) then
      var n := RunLength(s[1..]);
      var run := s[..n + 1];
      assert AllSlugChars(run) by {
        forall j | 0 <= j < |run| ensures IsSlugChar(run[j]) {
          if j > 0 {
            assert run[j] == s[1..][..n][j - 1];
          }
        }
      }
      1 + n
    else 0
  }

  /** The words of `s`: its maximal runs of `[a-z0-9]`, in order. */
  function Words(s: string): (ws: seq<string>)
    ensures WordList(ws)
    decreases |s|
  {
    var t := SkipRun(s);
    if |t| == 0 then []
    else
      var n := RunLength(t);
      var rest := Words(t[n..]);
      ConsWord(t[..n], rest);
      [t[..n]] + rest
  }

  lemma ConsWord(w: string, ws: seq<string>)
    requires |w| > 0 && AllSlugChars(w) && WordList(ws)
    ensures WordList([w] + ws)
  {
    forall i | 0 <= i < |ws| + 1 ensures |([w] + ws)[i]| > 0 && AllSlugChars(([w] + ws)[i]) {
      if i > 0 {
        assert ([w] + ws)[i] == ws[i - 1];
      }
    }
  }

  /** The words joined by single hyphens. */
  function Join(ws: seq<string>): string {
    if |ws| == 0 then ""
    else if |ws| == 1 then ws[0]
    else ws[0] + "-" + Join(ws[1..])
  }

  /** `.replace(/[^a-z0-9]+/g, '-')`: each maximal run of other characters
      becomes a single hyphen. */
  function CollapseRuns(s: string): (r: string)
    ensures |r| <= |s|
    ensures |r| > 0 <==> |s| > 0
    decreases |s|
  {
    if |s| == 0 then ""
    else if IsSlugChar(s[0]) then [s[0]] + CollapseRuns(s[1..])
    else "-" + CollapseRuns(SkipRun(s[1..]))
  }

  /** Collapsing leaves letters, digits and single hyphens, starts with a
      hyphen exactly when the input starts outside `[a-z0-9]`, and keeps the
      letters and digits. */
  lemma CollapseShape(s: string)
    ensures var r := CollapseRuns(s);
      && (forall i :: 0 <= i < |r| ==> IsSlugChar(r[i]) || r[i] == '-')
      && NoDoubleHyphen(r)
      && (|r| > 0 <==> |s| > 0)
      && (|r| > 0 ==> (r[0] == '-' <==> !IsSlugChar(s[0])))
      && Alnums(r) == Alnums(s)
  {
    CollapseForm(s);
    CollapseKeepsAlnums(s);
  }

  lemma {:induction false} CollapseForm(s: string)
    ensures var r := CollapseRuns(s);
      && (forall i :: 0 <= i < |r| ==> IsSlugChar(r[i]) || r[i] == '-')
      && NoDoubleHyphen(r)
      && (|r| > 0 <==> |s| > 0)
      && (|r| > 0 ==> (r[0] == '-' <==> !IsSlugChar(s[0])))
    decreases |s|
  {
    if |s| > 0 {
      var next := if IsSlugChar(s[0]) then s[1..] else SkipRun(s[1..]);
      var head := if IsSlugChar(s[0]) then [s[0]] else "-";
      var rest := CollapseRuns(next);
      CollapseForm(next);
      var r := head + rest;
      assert CollapseRuns(s) == r;
      assert forall i :: 1 <= i < |r| ==> r[i] == rest[i - 1];
      assert NoDoubleHyphen(r) by {
        if !IsSlugChar(s[0]) && |rest| > 0 {
          assert IsSlugChar(next[0]);
        }
      }
    }
  }

  lemma {:induction false} CollapseKeepsAlnums(s: string)
    ensures Alnums(CollapseRuns(s)) == Alnums(s)
    decreases |s|
  {
    if |s| > 0 {
      var next := if IsSlugChar(s[0]) then s[1..] else SkipRun(s[1..]);
      CollapseKeepsAlnums(next);
      if IsSlugChar(s[0]) {
        assert ([s[0]] + CollapseRuns(next))[1..] == CollapseRuns(next);
      } else {
        assert ("-" + CollapseRuns(next))[1..] == CollapseRuns(next);
      }
    }
  }

  /** `.replace(/(^-|-$)/g, '')`: one leading and one trailing hyphen go. */
  function StripEdgeHyphens(t: string): (r: string)
    ensures |r| <= |t| <= |r| + 2
    ensures |t| > 0 && t[0] == '-' ==> |r| < |t| && r == t[1..1 + |r|]
    ensures !(|t| > 0 && t[0] == '-') ==> r == t[..|r|]
    ensures |r| + 2 == |t| ==> t[0] == '-' && t[|t| - 1] == '-'
    ensures |r| == |t| ==> r == t
  {
    var u := if |t| > 0 && t[0] == '-' then t[1..] else t;
    if |u| > 0 && u[|u| - 1] == '-' then u[..|u| - 1] else u
  }

  /** The slug of a product or category name. */
  function Slugify(name: string): (r: string)
    ensures IsSlug(r)
    ensures Alnums(r) == Alnums(ToLower(name))
    ensures r == "" <==> Alnums(ToLower(name)) == ""
  {
    var t := CollapseRuns(ToLower(name));
    CollapseShape(ToLower(name));
    StripMakesSlug(t);
    StripEdgeHyphens(t)
  }

  /** Stripping the edge hyphens of a collapsed string gives a slug with the
      same letters and digits. */
  lemma StripMakesSlug(t: string)
    requires forall i :: 0 <= i < |t| ==> IsSlugChar(t[i]) || t[i] == '-'
    requires NoDoubleHyphen(t)
    ensures IsSlug(StripEdgeHyphens(t))
    ensures Alnums(StripEdgeHyphens(t)) == Alnums(t)
    ensures StripEdgeHyphens(t) == "" <==> Alnums(t) == ""
  {
    StripIsSlug(t);
    StripKeepsAlnums(t);
    var r := StripEdgeHyphens(t);
    if r != "" {
      NonEmptySlugHasAlnum(r);
    }
  }

  lemma StripIsSlug(t: string)
    requires forall i :: 0 <= i < |t| ==> IsSlugChar(t[i]) || t[i] == '-'
    requires NoDoubleHyphen(t)
    ensures IsSlug(StripEdgeHyphens(t))
  {
    var a := if |t| > 0 && t[0] == '-' then 1 else 0;
    var u := t[a..];
    var b := if |u| > 0 && u[|u| - 1] == '-' then |t| - 1 else |t|;
    var r := t[a..b];
    assert StripEdgeHyphens(t) == r;
    SliceKeepsForm(t, a, b);
    if |r| > 0 {
      assert r[0] == t[a] && r[|r| - 1] == t[b - 1];
      assert r[0] != '-' by {
        if a == 1 {
          assert t[0] == '-';
        } else if b == |t| - 1 {
          assert t[|t| - 1] == '-';
        }
      }
      assert r[|r| - 1] != '-' by {
        if b == |t| - 1 {
          assert t[b] == '-' && r[|r| - 1] == t[b - 1];
        }
      }
    }
  }

  /** A slice of a string of letters, digits and single hyphens is one too. */
  lemma SliceKeepsForm(t: string, a: nat, b: nat)
    requires a <= b <= |t|
    requires forall i :: 0 <= i < |t| ==> IsSlugChar(t[i]) || t[i] == '-'
    requires NoDoubleHyphen(t)
    ensures forall i :: 0 <= i < b - a ==> IsSlugChar(t[a..b][i]) || t[a..b][i] == '-'
    ensures NoDoubleHyphen(t[a..b])
  {
    var r := t[a..b];
    assert forall i :: 0 <= i < |r| ==> r[i] == t[a + i];
  }

  lemma StripKeepsAlnums(t: string)
    ensures Alnums(StripEdgeHyphens(t)) == Alnums(t)
  {
    var u := if |t| > 0 && t[0] == '-' then t[1..] else t;
    assert Alnums(u) == Alnums(t) by {
      if |t| > 0 && t[0] == '-' {
        assert !IsSlugChar(t[0]);
      }
    }
    DropLastHyphen(u);
  }

  lemma DropLastHyphen(u: string)
    ensures |u| > 0 && u[|u| - 1] == '-' ==> Alnums(u[..|u| - 1]) == Alnums(u)
  {
    if |u| > 0 && u[|u| - 1] == '-' {
      AlnumsAppend(u[..|u| - 1], "-");
      assert u[..|u| - 1] + "-" == u;
    }
  }

  lemma {:induction false} AlnumsAppend(a: string, b: string)
    ensures Alnums(a + b) == Alnums(a) + Alnums(b)
    decreases |a|
  {
    if |a| > 0 {
      assert (a + b)[1..] == a[1..] + b;
      AlnumsAppend(a[1..], b);
    } else {
      assert a + b == b;
    }
  }

  /** A slug that is not empty has a letter or digit. */
  lemma NonEmptySlugHasAlnum(s: string)
    requires IsSlug(s) && |s| > 0
    ensures Alnums(s) != ""
  {
    assert IsSlugChar(s[0]);
    assert Alnums(s) == [s[0]] + Alnums(s[1..]);
  }

  /** A name with no ASCII letter or digit has the empty slug. */
  lemma NoAlnumsNoSlug(name: string)
    requires forall i :: 0 <= i < |name| ==> !IsSlugChar(LowerChar(name[i]))
    ensures Slugify(name) == ""
  {
    NoSlugCharsNoAlnums(ToLower(name));
  }

  lemma {:induction false} NoSlugCharsNoAlnums(s: string)
    requires forall i :: 0 <= i < |s| ==> !IsSlugChar(s[i])
    ensures Alnums(s) == ""
    decreases |s|
  {
    if |s| > 0 {
      NoSlugCharsNoAlnums(s[1..]);
    }
  }

  /** Collapsing leaves a string of letters, digits and single hyphens as it is. */
  lemma {:induction false} CollapseOfSlugChars(s: string)
    requires forall i :: 0 <= i < |s| ==> IsSlugChar(s[i]) || s[i] == '-'
    requires NoDoubleHyphen(s)
    ensures CollapseRuns(s) == s
    decreases |s|
  {
    if |s| > 0 {
      var tail := s[1..];
      assert forall i :: 0 <= i < |tail| ==> tail[i] == s[i + 1];
      CollapseOfSlugChars(tail);
      if !IsSlugChar(s[0]) {
        assert SkipRun(tail) == tail by {
          if |tail| > 0 {
            assert IsSlugChar(tail[0]);
          }
        }
        assert CollapseRuns(s) == "-" + tail;
      } else {
        assert CollapseRuns(s) == [s[0]] + tail;
      }
      assert s == [s[0]] + tail;
    }
  }

  /** Hyphen-joined non-empty words of `[a-z0-9]` begin and end with a letter
      or digit. */
  lemma {:induction false} JoinEnds(ws: seq<string>)
    requires |ws| > 0 && WordList(ws)
    ensures SlugEnds(Join(ws))
  {
    if |ws| > 1 {
      var rest := ws[1..];
      assert forall i :: 0 <= i < |rest| ==> rest[i] == ws[i + 1];
      JoinEnds(rest);
      var r := Join(ws);
      assert r == ws[0] + "-" + Join(rest);
      assert r[0] == ws[0][0];
      assert r[|r| - 1] == Join(rest)[|Join(rest)| - 1];
    }
  }

  /** Collapsing passes a prefix of `[a-z0-9]` characters through unchanged. */
  lemma {:induction false} CollapseSlugPrefix(w: string, rest: string)
    requires AllSlugChars(w)
    ensures CollapseRuns(w + rest) == w + CollapseRuns(rest)
    decreases |w|
  {
    if |w| == 0 {
      assert w + rest == rest;
    } else {
      var c, tail := w[0], w[1..];
      SlugCharsTail(w);
      assert w + rest == [c] + (tail + rest);
      CollapseSlugHead(c, tail + rest);
      CollapseSlugPrefix(tail, rest);
      assert [c] + (tail + CollapseRuns(rest)) == w + CollapseRuns(rest);
    }
  }

  lemma SlugCharsTail(w: string)
    requires |w| > 0 && AllSlugChars(w)
    ensures IsSlugChar(w[0]) && AllSlugChars(w[1..])
  {
    var tail := w[1..];
    forall j | 0 <= j < |tail| ensures IsSlugChar(tail[j]) {
      assert tail[j] == w[j + 1];
    }
  }

  /** A letter or digit in front passes through collapsing. */
  lemma CollapseSlugHead(c: char, y: string)
    requires IsSlugChar(c)
    ensures CollapseRuns([c] + y) == [c] + CollapseRuns(y)
  {
    assert ([c] + y)[1..] == y;
  }

  lemma Regroup(a: string, b: string, c: string, d: string)
    ensures a + (b + (c + d)) == (a + b + c) + d
  {
  }

  /** `"-"` when `t` ends outside `[a-z0-9]`: the hyphen its last run leaves. */
  function Trail(t: string): string {
    if |t| > 0 && !IsSlugChar(t[|t| - 1]) then "-" else ""
  }

  /** From a letter or digit on, collapsing gives the words joined by
      hyphens, plus one hyphen when the string ends in a run of other
      characters. */
  lemma {:induction false} CollapseFromWord(t: string)
    requires |t| > 0 && IsSlugChar(t[0])
    ensures |Words(t)| > 0
    ensures CollapseRuns(t) == Join(Words(t)) + Trail(t)
    decreases |t|
  {
    var n := RunLength(t);
    var rest := t[n..];
    FirstWord(t);
    if |rest| == 0 {
      LastWord(t);
    } else {
      var t2 := SkipRun(rest);
      if |t2| == 0 {
        LastWordThenOthers(t);
      } else {
        CollapseFromWord(t2);
        WordThenMore(t);
      }
    }
  }

  /** The first word of `t` is passed through, and the words after it are
      those of the rest. */
  lemma FirstWord(t: string)
    requires |t| > 0 && IsSlugChar(t[0])
    ensures var n := RunLength(t);
      && n > 0
      && Words(t) == [t[..n]] + Words(t[n..])
      && CollapseRuns(t) == t[..n] + CollapseRuns(t[n..])
  {
    var n := RunLength(t);
    assert SkipRun(t) == t;
    FirstWordCollapse(t, n);
  }

  lemma FirstWordCollapse(t: string, n: nat)
    requires n <= |t| && AllSlugChars(t[..n])
    ensures CollapseRuns(t) == t[..n] + CollapseRuns(t[n..])
  {
    assert t == t[..n] + t[n..];
    CollapseSlugPrefix(t[..n], t[n..]);
  }

  /** A string that is one word collapses to itself. */
  lemma LastWord(t: string)
    requires |t| > 0 && IsSlugChar(t[0]) && RunLength(t) == |t|
    requires Words(t) == [t[..|t|]] + Words(t[|t|..])
    requires CollapseRuns(t) == t[..|t|] + CollapseRuns(t[|t|..])
    ensures CollapseRuns(t) == Join(Words(t)) + Trail(t)
  {
    assert t[|t|..] == "" && t[..|t|] == t;
    assert Words("") == [];
  }

  /** A word followed only by other characters collapses to the word and one
      hyphen. */
  lemma LastWordThenOthers(t: string)
    requires |t| > 0 && IsSlugChar(t[0])
    requires var n := RunLength(t);
      && n < |t| && SkipRun(t[n..]) == ""
      && Words(t) == [t[..n]] + Words(t[n..])
      && CollapseRuns(t) == t[..n] + CollapseRuns(t[n..])
    ensures CollapseRuns(t) == Join(Words(t)) + Trail(t)
  {
    var n := RunLength(t);
    var w, rest := t[..n], t[n..];
    assert !IsSlugChar(rest[0]);
    assert SkipRun(rest[1..]) == "";
    assert CollapseRuns(rest) == "-";
    assert Words(rest) == [];
    SkipAllEndsOutside(rest);
    assert rest[|rest| - 1] == t[|t| - 1];
  }

  /** A word followed by further words: the word, a hyphen, and the collapse
      of what follows the run of other characters. */
  lemma WordThenMore(t: string)
    requires |t| > 0 && IsSlugChar(t[0])
    requires var n := RunLength(t);
      var t2 := SkipRun(t[n..]);
      && n < |t| && |t2| > 0
      && Words(t) == [t[..n]] + Words(t[n..])
      && CollapseRuns(t) == t[..n] + CollapseRuns(t[n..])
      && |Words(t2)| > 0
      && CollapseRuns(t2) == Join(Words(t2)) + Trail(t2)
    ensures |Words(t)| > 0
    ensures CollapseRuns(t) == Join(Words(t)) + Trail(t)
  {
    var n := RunLength(t);
    var w, rest := t[..n], t[n..];
    var t2 := SkipRun(rest);
    SkippedLead(rest);
    var ws := Words(t2);
    SkipTrail(rest);
    TrailOfSuffix(t, n);
    assert Words(t) == [w] + ws;
    JoinCons(w, ws);
    Combine(CollapseRuns(t), w, CollapseRuns(rest), CollapseRuns(t2), Join(ws), Trail(t));
  }

  lemma Combine(whole: string, w: string, rest: string, tail: string, j: string, trail: string)
    requires whole == w + rest && rest == "-" + tail && tail == j + trail
    ensures whole == (w + "-" + j) + trail
  {
    Regroup(w, "-", j, trail);
  }

  /** Skipping a leading run of other characters, when something is left,
      keeps the last character. */
  lemma SkipTrail(s: string)
    requires |SkipRun(s)| > 0
    ensures Trail(SkipRun(s)) == Trail(s)
  {
    SkipRunSuffix(s);
    var r := SkipRun(s);
    assert r[|r| - 1] == s[|s| - 1];
  }

  lemma TrailOfSuffix(t: string, n: nat)
    requires n < |t|
    ensures Trail(t[n..]) == Trail(t)
  {
    assert t[n..][|t| - n - 1] == t[|t| - 1];
  }

  lemma JoinCons(w: string, ws: seq<string>)
    requires |ws| > 0
    ensures Join([w] + ws) == w + "-" + Join(ws)
  {
    assert ([w] + ws)[0] == w;
    assert ([w] + ws)[1..] == ws;
  }

  /** The slug is the name's words, lower-cased, joined by single hyphens:
      every run of other characters, wherever it stands, becomes one hyphen
      between two words or disappears at either end. */
  lemma SlugJoinsWords(name: string)
    ensures Slugify(name) == Join(Words(ToLower(name)))
  {
    StripCollapseIsJoin(ToLower(name));
  }

  lemma StripCollapseIsJoin(s: string)
    ensures StripEdgeHyphens(CollapseRuns(s)) == Join(Words(s))
  {
    if |s| == 0 {
      assert CollapseRuns(s) == "" && Words(s) == [];
    } else if IsSlugChar(s[0]) {
      StripFromWord(s);
    } else {
      StripSkippedLead(s);
    }
  }

  lemma StripSkippedLead(s: string)
    requires |s| > 0 && !IsSlugChar(s[0])
    ensures StripEdgeHyphens(CollapseRuns(s)) == Join(Words(s))
  {
    SkippedLead(s);
    var t := SkipRun(s);
    if |t| > 0 {
      StripFromWord(t);
    }
  }

  /** The collapse of a string that starts with a letter or digit strips to
      its words joined by hyphens, with or without a hyphen in front. */
  lemma StripFromWord(t: string)
    requires |t| > 0 && IsSlugChar(t[0])
    ensures StripEdgeHyphens(CollapseRuns(t)) == Join(Words(t))
    ensures StripEdgeHyphens("-" + CollapseRuns(t)) == Join(Words(t))
  {
    CollapseFromWord(t);
    JoinEnds(Words(t));
    StripWordsAndTrail(Join(Words(t)), Trail(t));
  }

  /** A string that starts outside `[a-z0-9]` collapses to a hyphen and the
      collapse of what follows its first run; its words are those that
      follow. */
  lemma SkippedLead(s: string)
    requires |s| > 0 && !IsSlugChar(s[0])
    ensures CollapseRuns(s) == "-" + CollapseRuns(SkipRun(s))
    ensures Words(s) == Words(SkipRun(s))
    ensures SkipRun(s) == "" ==> Words(s) == [] && CollapseRuns(s) == "-"
  {
    var t := SkipRun(s);
    assert SkipRun(t) == t;
  }

  /** Stripping the edge hyphens of an optional leading hyphen, words joined
      by hyphens and an optional trailing hyphen leaves the joined words. */
  lemma StripWordsAndTrail(j: string, trail: string)
    requires trail == "" || trail == "-"
    requires SlugEnds(j)
    ensures StripEdgeHyphens(j + trail) == j
    ensures StripEdgeHyphens("-" + (j + trail)) == j
  {
    StripLead("", j, trail);
    StripLead("-", j, trail);
    assert "" + (j + trail) == j + trail;
  }

  lemma StripLead(lead: string, j: string, trail: string)
    requires lead == "" || lead == "-"
    requires trail == "" || trail == "-"
    requires SlugEnds(j)
    ensures StripEdgeHyphens(lead + (j + trail)) == j
  {
    var x := lead + (j + trail);
    var u := if |x| > 0 && x[0] == '-' then x[1..] else x;
    assert u == j + trail;
    if trail == "-" {
      assert u[..|u| - 1] == j;
    } else {
      assert u == j;
    }
  }

  /** A slug is its own slug. */
  lemma SlugIsFixedPoint(s: string)
    requires IsSlug(s)
    ensures Slugify(s) == s
  {
    assert ToLower(s) == s by {
      assert forall i :: 0 <= i < |s| ==> ToLower(s)[i] == s[i];
    }
    CollapseOfSlugChars(s);
    assert StripEdgeHyphens(s) == s;
  }

  /** Slugging is idempotent. */
  lemma SlugIdempotent(name: string)
    ensures Slugify(Slugify(name)) == Slugify(name)
  {
    SlugIsFixedPoint(Slugify(name));
  }
}

=== FILE: sorting.dfy ===
// `Array.prototype.sort` with a numeric comparator `(a, b) => key(a) - key(b)`,
// as the order and category lists use it: a stable insertion sort by key.

module Sorting {

  predicate SortedBy<T>(xs: seq<T>, key: T -> int) {
    forall i, j :: 0 <= i < j < |xs| ==> key(xs[i]) <= key(xs[j])
  }

  /** Inserts `x` before the first element whose key is not smaller. */
  function Insert<T>(x: T, xs: seq<T>, key: T -> int): (r: seq<T>)
    requires SortedBy(xs, key)
    ensures SortedBy(r, key)
    ensures multiset(r) == multiset(xs) + multiset{x}
    ensures |r| > 0 && (r[0] == x || (|xs| > 0 && r[0] == xs[0]))
  {
    if |xs| == 0 then [x]
    else if key(x) <= key(xs[0]) then [x] + xs
    else
      var rest := Insert(x, xs[1..], key);
      assert xs == [xs[0]] + xs[1..];
      ConsSorted(xs[0], rest, key);
      [xs[0]] + rest
  }

  /** An element no larger than the head of a sorted list extends it. */
  lemma ConsSorted<T>(x: T, ys: seq<T>, key: T -> int)
    requires SortedBy(ys, key) && (|ys| > 0 ==> key(x) <= key(ys[0]))
    ensures SortedBy([x] + ys, key)
  {
    var r := [x] + ys;
    forall i, j | 0 <= i < j < |r| ensures key(r[i]) <= key(r[j]) {
      if i == 0 {
        assert r[j] == ys[j - 1];
      } else {
        assert r[i] == ys[i - 1] && r[j] == ys[j - 1];
      }
    }
  }

  /** The list sorted ascending by key, equal keys in their original order. */
  function SortBy<T>(xs: seq<T>, key: T -> int): (r: seq<T>)
    ensures SortedBy(r, key)
    ensures multiset(r) == multiset(xs)
  {
    if |xs| == 0 then []
    else
      assert xs == [xs[0]] + xs[1..];
      Insert(xs[0], SortBy(xs[1..], key), key)
  }

  /** The elements whose key is `k`, in their order in `xs`. */
  function WithKey<T>(xs: seq<T>, key: T -> int, k: int): (r: seq<T>)
    ensures |r| <= |xs|
  {
    if |xs| == 0 then []
    else if key(xs[0]) == k then [xs[0]] + WithKey(xs[1..], key, k)
    else WithKey(xs[1..], key, k)
  }

  /** Inserting `x` puts it ahead of every element with the same key. */
  lemma {:induction false} InsertWithKey<T>(x: T, xs: seq<T>, key: T -> int, k: int)
    requires SortedBy(xs, key)
    ensures WithKey(Insert(x, xs, key), key, k)
      == (if key(x) == k then [x] + WithKey(xs, key, k) else WithKey(xs, key, k))
  {
    if |xs| > 0 && key(x) > key(xs[0]) {
      var rest := Insert(x, xs[1..], key);
      InsertWithKey(x, xs[1..], key, k);
      assert ([xs[0]] + rest)[1..] == rest;
    }
  }

  /** Sorting is stable: for every key, the elements with that key keep
      their original order. */
  lemma {:induction false} SortByStable<T>(xs: seq<T>, key: T -> int, k: int)
    ensures WithKey(SortBy(xs, key), key, k) == WithKey(xs, key, k)
  {
    if |xs| > 0 {
      SortByStable(xs[1..], key, k);
      InsertWithKey(xs[0], SortBy(xs[1..], key), key, k);
    }
  }
}

=== FILE: tables.dfy ===
// DynamoDB tables as the routes use them: a map from primary key to item,
// read with `getItem`, written with `putItem` (insert or overwrite) and
// searched with `scanTable(...).find(p)`, which returns the first item, in
// the order the scan delivers them, that satisfies `p`.

module Tables {
  import opened Wrappers

  /** The scan order lists every key stored in `m` (a Scan returns the whole
      table). Keys listed but not stored are skipped. */
  predicate Covers<V>(order: seq<string>, m: map<string, V>) {
    forall k :: k in m ==> k in order
  }

  /** Position `i` of the scan holds the first stored item that satisfies `p`. */
  predicate FirstMatch<V>(order: seq<string>, m: map<string, V>, p: V -> bool, i: int) {
    && 0 <= i < |order| && order[i] in m && p(m[order[i]])
    && forall j :: 0 <= j < i && order[j] in m ==> !p(m[order[j]])
  }

  /** There is at most one first match. */
  lemma FirstMatchUnique<V>(order: seq<string>, m: map<string, V>, p: V -> bool, i: int, j: int)
    requires FirstMatch(order, m, p, i) && FirstMatch(order, m, p, j)
    ensures i == j
  {
  }

  /** `scanTable(table).find(p)`: the key of the first item, in scan order,
      that satisfies `p`; None exactly when no scanned item satisfies it. */
  function FindFirst<V>(order: seq<string>, m: map<string, V>, p: V -> bool): (r: Option<string>)
    ensures r.Some? ==> r.value in m && p(m[r.value])
    ensures r.Some? ==> exists i :: FirstMatch(order, m, p, i) && order[i] == r.value
    ensures r.None? <==> forall i :: 0 <= i < |order| && order[i] in m ==> !p(m[order[i]])
    ensures forall i :: FirstMatch(order, m, p, i) ==> r == Some(order[i])
  {
    if |order| == 0 then None
    else if order[0] in m && p(m[order[0]]) then Some(order[0])
    else
      var rest := FindFirst(order[1..], m, p);
      if rest.Some? then
        var i :| 0 <= i < |order[1..]| && order[1..][i] == rest.value
                 && forall j :: 0 <= j < i && order[1..][j] in m ==> !p(m[order[1..][j]]);
        assert order[i + 1] == rest.value;
        assert FirstMatch(order, m, p, i + 1);
        assert forall j :: 0 <= j < i + 1 && order[j] in m ==> !p(m[order[j]]) by {
          forall j | 0 < j < i + 1 && order[j] in m
            ensures !p(m[order[j]])
          {
            assert order[j] == order[1..][j - 1];
          }
        }
        rest
      else
        assert forall i :: 0 < i < |order| ==> order[i] == order[1..][i - 1];
        rest
  }

  /** With a scan order that covers the table, finding nothing means no item
      of the table satisfies the predicate. */
  lemma {:induction false} FindNoneMeansNoMatch<V>(order: seq<string>, m: map<string, V>, p: V -> bool)
    requires Covers(order, m)
    requires FindFirst(order, m, p).None?
    ensures forall k :: k in m ==> !p(m[k])
  {
    forall k | k in m
      ensures !p(m[k])
    {
      var i :| 0 <= i < |order| && order[i] == k;
    }
  }
}
